=== FILE: README.md ===
# EcoNext shop core in Dafny

This project models the core of the EcoNext shop, a React storefront with a
Django REST backend, and proves properties of that model. It covers:

- the client's cart, session and page state machine (the App component in its three variants);
- the login, sign-up and checkout forms;
- the price-forecast card;
- the server's account endpoints, and its cart and order endpoints;
- product listing and detail, intent search, visual search and trending;
- the forecast the price predictor computes, and the trending ranking job.

Every operation is a pure function over immutable data. The server's tables are
sequences and maps. Prices are exact reals. A request's fields are a map from
name to text. Each endpoint returns its reply together with the database after
the call.

Modules, one per component:

- `Wrappers`, `Text`, `Sorting` and `Sums` are shared helpers:
  - `Option`/`Result`;
  - JavaScript and Python trimming, ASCII lower-casing, substring search;
  - `Math.round` and `toFixed(1)`;
  - a stable descending sort;
  - sums.
- `CartEngine` is the client cart, shared by the three App variants.
- `SessionStore` is the session over browser storage.
- `ClientApp` holds the App's page, cart and session transitions.
- `ForecastCard` is the price-forecast card.
- `Forms` holds what the form pages share. `CheckoutForm`, `SignupForm` and `LoginForm` are the three pages.
- `ServerCart` covers the cart and order endpoints.
- `IntentSearch` is the intent searcher.
- `ProductViews` covers the product, search and trending endpoints.
- `PricePredictor` is the forecast and its storage.
- `Trending` is the trending-products job.
- `Accounts` covers sign-up, login and profile update.

## Model

| member | source | states |
|---|---|---|
| CartEngine.Find | frontend/src/App.js:127-141 | the lookup finds a line exactly when some line has the id, and the line it returns has that id |
| CartEngine.Add | frontend/src/App.js:127-141 | a product already in the cart gets one more unit on its line and nothing else changes; a new product is appended with quantity 1; unique ids and positive quantities are kept |
| CartEngine.SetQuantity | frontend/src/App.js:143-153 | a quantity of zero or less removes the line; otherwise only that product's line takes the new quantity; the cart invariant is kept |
| CartEngine.Remove | frontend/src/App.js:155-158 | the id is gone, nothing is added, a cart without the id is unchanged, the invariant is kept |
| CartEngine.UpdateLines | EcoNext/frontend/src/App-old.js:152-162 | the line-wise map changes exactly the lines with the id and keeps the cart's length |
| CartEngine.AddChangesOnlyItsProduct | EcoNext/frontend/src/App.js:134-148 | adding raises the added product's quantity by one and leaves every other product's quantity unchanged |
| CartEngine.AddRaisesTotal | frontend/src/App.js:165 | the cart total rises by exactly one unit price of the added product |
| CartEngine.RemoveLowersTotal | EcoNext/frontend/src/App.js:160 | removing a product lowers the total by exactly that line's subtotal, and by nothing when the product is absent |
| CartEngine.RemoveIdempotent | EcoNext/frontend/src/App.js:150-153 | removing twice is removing once |
| CartEngine.FindAfterRemove | frontend/src/App.js:155-158 | after a removal every other product is found exactly as before |
| CartEngine.SetQuantityChangesOnlyItsProduct | frontend/src/App.js:143-153 | a positive quantity change leaves the product holding exactly that quantity, and every other product's quantity is unchanged |
| CartEngine.SetQuantityIsAbsolute | EcoNext/frontend/src/App-old.js:152-162 | after a positive change the product holds exactly the requested quantity, not an increment; a non-positive one removes it |
| CartEngine.BadgeCountsDistinctProducts | frontend/src/App.js:189 | in a cart with unique ids the badge, the number of lines, equals the number of distinct products |
| CartEngine.BadgeIsNotUnitCount | EcoNext/frontend/src/App.js:184 | one product added twice shows badge 1 while two units are held |
| CartEngine.RunKeepsValid | EcoNext/frontend/src/App-old.js:136-167 | any sequence of add, change and remove keeps ids unique and quantities positive |
| CartEngine.TotalExample | EcoNext/frontend/src/App-old.js:174 | a concrete cart's total is price times quantity summed over its lines |
| SessionStore.Initial | frontend/src/App.js:17-18 | the first render has no user and holds the token exactly when storage holds one |
| SessionStore.Hydrate | frontend/src/App.js:27-34 | when both the token and the user are stored and truthy, start-up fails exactly when the stored user text is unreadable and otherwise installs the parsed user with the stored token; in every other case the session is unchanged |
| SessionStore.Persist | EcoNext/frontend/src/LoginPage.js:41-43 | after a login the three session keys hold the access token, the refresh token and the serialised user, and every other key is untouched |
| SessionStore.Establish | frontend/src/App.js:36-48 | the login and sign-up success handlers install the response's user and access token |
| SessionStore.ClearStorage | frontend/src/App.js:50-59 | logout removes exactly the three session keys |
| SessionStore.Cleared | EcoNext/frontend/src/App.js:74-83 | after logout user and token are null |
| SessionStore.ClearStorageIdempotent | EcoNext/frontend/src/App-old.js:59-68 | clearing the session keys twice is clearing them once |
| SessionStore.HydrateAfterPersist | EcoNext/frontend/src/App.js:51-58 | a persisted login is restored on the next start-up when parsing inverts serialising |
| SessionStore.HydrateAfterClear | EcoNext/frontend/src/App.js:51-58 | after logout the next start-up finds nobody signed in |
| SessionStore.TokenWithoutUserSurvives | EcoNext/frontend/src/App.js:32 | a stored token without a stored user still becomes the session token at the first render |
| ClientApp.SimilarityLabelReadsBack | frontend/src/App.js:116 | the label of a visual hit reads back as the similarity percentage rounded to one decimal |
| ClientApp.SimilarityLabelExample | EcoNext/frontend/src/App-old.js:125 | a score of 0.8734 is labelled "Similarity: 87.3%" |
| ClientApp.VisualResults | frontend/src/App.js:112-118 | the visual response becomes one synthetic category holding every hit in order, each with its product, its score and the label "Similarity: " followed by the score times 100 to one decimal and "%" |
| ClientApp.VisualExplanationReadsBack | frontend/src/App.js:116 | every hit's label starts "Similarity: ", ends in "%", and the number between reads back as the score times 100 rounded to one decimal |
| ClientApp.Search | EcoNext/frontend/src/App.js:115-132 | a blank query or a failed request changes nothing; a successful one shows the results page with the results |
| ClientApp.VisualSearch | EcoNext/frontend/src/App-old.js:113-134 | no file or a failed request changes nothing; a successful one shows the search page with one visual category holding every hit in order, each with its product, its score and its "Similarity: x%" label, and nothing but results and page changes |
| ClientApp.AddToCart | frontend/src/App.js:127-141 | the App's add handler adds one unit and changes nothing but the cart |
| ClientApp.CartQuantityChange | frontend/src/App.js:143-153 | the App's quantity handler removes the line at zero or less, otherwise gives an existing product exactly the new quantity, leaves every other product's quantity alone, and changes nothing but the cart |
| ClientApp.RemoveFromCart | EcoNext/frontend/src/App.js:150-153 | the App's remove handler drops the product and changes nothing but the cart |
| ClientApp.Start | EcoNext/frontend/src/App-old.js:36-43 | start-up fails exactly when restoring the session fails; otherwise it opens the home page with an empty cart, storage as it was, and the restored session |
| ClientApp.AuthSuccess | EcoNext/frontend/src/App.js:60-72 | a login or sign-up success installs the user and token, keeps the cart and goes home |
| ClientApp.Logout | EcoNext/frontend/src/App.js:74-83 | logout empties the cart, clears user, token and the three keys, keeps every other key and goes home |
| ClientApp.LogoutIdempotent | frontend/src/App.js:50-59 | logging out twice is logging out once |
| ClientApp.ProceedToCheckout | EcoNext/frontend/src/App.js:504-510 | checkout opens exactly when the token is truthy, and the login page opens otherwise |
| ClientApp.NoCheckoutAfterLogout | EcoNext/frontend/src/App.js:504-510 | after logout the checkout button leads to the login page |
| ClientApp.OrderSuccess | EcoNext/frontend/src/App.js:529-533 | a placed order empties the cart, so the total is 0 |
| ClientApp.CarouselTick | EcoNext/frontend/src/App.js:41-49 | the featured carousel stays within its slides and does not move when there are none |
| ClientApp.CarouselAfterIsShift | EcoNext/frontend/src/App.js:43-45 | within one round k ticks advance k slides, wrapping past the last |
| ClientApp.CarouselCycles | EcoNext/frontend/src/App.js:43-45 | as many ticks as slides bring the carousel back to where it started |
| ClientApp.SessionScenario | frontend/src/App.js:36-59 | log in, add a product twice, log out: the cart had one line of quantity two, and afterwards is empty with nobody signed in |
| ForecastCard.DayPrice | EcoNext/frontend/src/components/PricePredictorCard.js:69-75 | a day's stored price is used exactly when it is present and non-zero |
| ForecastCard.Displayed | EcoNext/frontend/src/components/PricePredictorCard.js:9-13 | a new prediction replaces the shown one, and its absence keeps the shown one |
| ForecastCard.Series | EcoNext/frontend/src/components/PricePredictorCard.js:69-75 | the chart has seven days, each the stored price or else the current price |
| ForecastCard.Min | EcoNext/frontend/src/components/PricePredictorCard.js:77-80 | the lowest price is one of the days and no day is lower |
| ForecastCard.Max | EcoNext/frontend/src/components/PricePredictorCard.js:77-80 | the highest price is one of the days and no day is higher |
| ForecastCard.FlatHeight | EcoNext/frontend/src/components/PricePredictorCard.js:143-145 | a flat chart draws every bar at 50 |
| ForecastCard.HeightRange | EcoNext/frontend/src/components/PricePredictorCard.js:143-145 | on a non-flat chart bar heights lie in [20, 120], with the low at 20 and the high at 120 |
| ForecastCard.HeightMonotone | EcoNext/frontend/src/components/PricePredictorCard.js:143-145 | a higher price never gets a shorter bar |
| ForecastCard.Bars | EcoNext/frontend/src/components/PricePredictorCard.js:142-145 | one bar per day: all at 50 when flat, otherwise within [20, 120] |
| ForecastCard.BarsHitEnds | EcoNext/frontend/src/components/PricePredictorCard.js:143-145 | on a non-flat chart some bar is at 20 and some bar is at 120 |
| ForecastCard.AverageWithinRange | EcoNext/frontend/src/components/PricePredictorCard.js:116 | the 7-day average lies between the chart's low and high |
| ForecastCard.NoForecastIsFlat | EcoNext/frontend/src/components/PricePredictorCard.js:69-75 | with no usable day price every day is the current price and every bar is at 50 |
| ForecastCard.Confidence | EcoNext/frontend/src/components/PricePredictorCard.js:64-67 | the percentage is 0 for a falsy score, otherwise the score times 100 rounded |
| ForecastCard.ConfidenceIsPercent | EcoNext/frontend/src/components/PricePredictorCard.js:64-67 | a score within [0, 1] shows within [0, 100] |
| ForecastCard.ConfidenceNotClamped | EcoNext/frontend/src/components/PricePredictorCard.js:64-67 | nothing caps the percentage: a score of 1.5 shows 150 |
| ForecastCard.Change | EcoNext/frontend/src/components/PricePredictorCard.js:59-62 | the expected change is 0 when falsy, otherwise the stored value rounded to one decimal: a whole number of tenths within a twentieth of it |
| ForecastCard.ChangeLabelSign | EcoNext/frontend/src/components/PricePredictorCard.js:122-123 | the change label starts with '+' exactly when the rounded change is positive |
| ForecastCard.ToneOf | EcoNext/frontend/src/components/PricePredictorCard.js:27-35 | "best_price" is the positive tone, "wait" the caution tone, and everything else neutral |
| ForecastCard.BgClass | EcoNext/frontend/src/components/PricePredictorCard.js:37-46 | every tone has one of the three background classes |
| ForecastCard.ToneDisplayInjective | EcoNext/frontend/src/components/PricePredictorCard.js:37-57 | distinct tones get distinct classes and texts, so either one tells the tone |
| ForecastCard.Render | EcoNext/frontend/src/components/PricePredictorCard.js:15-80 | the placeholder shows exactly while no prediction was given; otherwise the card shows the series, its average, low and high, bars between 20 and 120 (all 50 when flat), and the tone, change and confidence |
| ForecastCard.CardSticks | EcoNext/frontend/src/components/PricePredictorCard.js:9-13 | once shown, a prediction stays on the card when a later render brings none |
| Forms.Edit | EcoNext/frontend/src/SignupPage.js:21-33 | the edited field takes the new text and no other field changes |
| Forms.ClearOnEdit | EcoNext/frontend/src/CheckoutPage.js:24-29 | the edited field's error is no longer shown and every other error is untouched |
| Forms.ClearOnEditCommutes | frontend/src/SignupPage.js:18-31 | clearing two fields' errors in either order gives the same errors |
| Forms.OrDefault | EcoNext/frontend/src/LoginPage.js:52-57 | JavaScript `v \|\| d`: the value when it is a non-empty string, otherwise the default |
| Forms.BlankIffAllSpace | EcoNext/frontend/src/CheckoutPage.js:31-45 | a field is blank after trimming exactly when all its characters are whitespace |
| CheckoutForm.InitialForm | EcoNext/frontend/src/CheckoutPage.js:8-18 | the form starts with the nine required fields, all empty |
| CheckoutForm.Validate | EcoNext/frontend/src/CheckoutPage.js:31-45 | a field has an error exactly when it is required and blank, and the error is that field's own message |
| CheckoutForm.ValidIffFilled | EcoNext/frontend/src/CheckoutPage.js:31-45 | the form is valid exactly when no required field is blank |
| CheckoutForm.InitialFormFailsEverywhere | EcoNext/frontend/src/CheckoutPage.js:8-45 | the untouched form fails on all nine fields |
| CheckoutForm.ShippingOf | EcoNext/frontend/src/CheckoutPage.js:56-62 | the shipping request carries the form's address, city, state, zip code and country |
| CheckoutForm.Submit | EcoNext/frontend/src/CheckoutPage.js:47-78 | a request is sent exactly when the form is valid; an invalid form only shows its errors; a created order is forwarded and marks the page placed; a refusal or failure shows its message |
| CheckoutForm.Change | EcoNext/frontend/src/CheckoutPage.js:24-29 | the field takes the text, its own error is cleared, and other fields and errors are unchanged |
| CheckoutForm.BlankFieldBlocksOrder | EcoNext/frontend/src/CheckoutPage.js:47-52 | one blank required field means nothing is sent and that field's message is shown |
| CheckoutForm.MessagesNonEmpty | EcoNext/frontend/src/CheckoutPage.js:33-41 | every required field's message is non-empty, so the page shows it |
| CheckoutForm.LineAmounts | EcoNext/frontend/src/CheckoutPage.js:392 | each summary line shows its price times its quantity |
| CheckoutForm.SummaryAddsUp | EcoNext/frontend/src/CheckoutPage.js:80 | the order summary's total is the sum of the amounts its lines show |
| SignupForm.Validate | EcoNext/frontend/src/SignupPage.js:35-53 | each of the four rules (username under 3 UTF-16 units, email shape, password under 6 units, confirmation) fails exactly when its key has an error, each with its own message |
| SignupForm.AstralCharactersCountTwice | EcoNext/frontend/src/SignupPage.js:38 | a character outside the basic plane counts as two units, so "a" plus one emoji passes the 3-unit username rule and three emoji rate medium |
| SignupForm.ValidIffRulesHold | frontend/src/SignupPage.js:33-51 | the form is valid exactly when all four rules hold |
| SignupForm.EmailRule | EcoNext/frontend/src/SignupPage.js:41-43 | an empty email passes, and a non-empty one passes exactly when it has the shape the rule checks |
| SignupForm.StrengthOf | EcoNext/frontend/src/SignupPage.js:300-302 | strong from 8 UTF-16 units, medium from 6, weak below |
| Text.JsLength | EcoNext/frontend/src/SignupPage.js:38-44 | a string's JavaScript length: one unit per character of the basic plane and two for any other, so it equals the character count exactly when all characters are in the basic plane |
| SignupForm.WeakIffPasswordError | EcoNext/frontend/src/SignupPage.js:300-302 | the strength label says weak exactly when the password rule rejects the form |
| SignupForm.Next | EcoNext/frontend/src/SignupPage.js:55-63 | step 1 moves to step 2 exactly when first name, last name or email is non-blank, and otherwise stays with only the general message; other steps are left alone |
| SignupForm.Submit | EcoNext/frontend/src/SignupPage.js:65-90 | a request is sent exactly when the form is valid; success persists the session; a refusal or failure shows a message and stores nothing |
| SignupForm.SignupSurvivesReload | frontend/src/SignupPage.js:53-78 | a successful sign-up is restored by the next start-up |
| SignupForm.Change | EcoNext/frontend/src/SignupPage.js:21-33 | the field takes the text and only its own error is cleared |
| LoginForm.Submit | EcoNext/frontend/src/LoginPage.js:27-60 | a blank field sends nothing; success persists the session and the remember-me keys when asked; a refusal or failure shows its message and stores nothing |
| LoginForm.KeysDistinct | EcoNext/frontend/src/LoginPage.js:45-48 | the remember-me keys are not session keys |
| LoginForm.Remember | EcoNext/frontend/src/LoginPage.js:45-48 | remember-me writes both keys when asked, and otherwise nothing |
| LoginForm.SubmitBasic | frontend/src/LoginPage.js:22-42 | the older page always sends, persists the session on success, and shows the refusal text or its default otherwise |
| LoginForm.Change | EcoNext/frontend/src/LoginPage.js:17-25 | the field takes the text and both messages are cleared |
| LoginForm.ChangeBasic | frontend/src/LoginPage.js:13-20 | the field takes the text and the error is cleared |
| LoginForm.VariantsAgreeOnSession | frontend/src/LoginPage.js:22-42 | on a non-blank form both page variants reach the same user and session storage |
| LoginForm.RememberSurvivesLogout | EcoNext/frontend/src/LoginPage.js:45-48 | a remembered username outlives logout |
| ServerCart.ItemsOf | EcoNext/backend/shop_cart/api_views.py:194 | a user's cart items are exactly that user's rows, in table order |
| ServerCart.ItemsOfKeepsTableOrder | EcoNext/backend/shop_cart/api_views.py:194 | the cart items of a table split in two are those of the first part followed by those of the second, so they keep table order |
| ServerCart.FindSlot | EcoNext/backend/shop_cart/api_views.py:51-55 | the row of this user for this product, found exactly when one exists |
| ServerCart.AddToCart | EcoNext/backend/shop_cart/api_views.py:34-80 | a falsy or missing product id and an unknown product are refused with nothing changed; otherwise the user holds exactly the added quantity more (default 1), every other user's and product's row is as before, and one add_to_cart activity with that quantity is logged |
| ServerCart.AddQuantity | EcoNext/backend/shop_cart/api_views.py:49-67 | the user gets a cart if needed and the product's row is created with the quantity or increased by it; every other row, the orders and the prices are unchanged, and one activity is logged |
| ServerCart.Increased | EcoNext/backend/shop_cart/api_views.py:57-67 | an existing row grows by the quantity, the table stays valid, orders and prices stay, and one add_to_cart activity is logged |
| ServerCart.IncreasedRow | EcoNext/backend/shop_cart/api_views.py:57-59 | after the increase the slot holds the same row with the quantity added, and no other row differs |
| ServerCart.Inserted | EcoNext/backend/shop_cart/api_views.py:51-67 | a missing row is appended with the next id and the quantity, no other row differs, and one add_to_cart activity is logged |
| ServerCart.UpdateItem | EcoNext/backend/shop_cart/api_views.py:83-116 | a missing quantity or someone else's item is refused; zero or less deletes the row; otherwise the row takes exactly the quantity; carts, orders, the log, prices and the id counters are unchanged |
| ServerCart.UpdateSetsExactly | EcoNext/backend/shop_cart/api_views.py:96-103 | a positive update sets that row's quantity and touches no other row |
| ServerCart.RemoveItem | EcoNext/backend/shop_cart/api_views.py:119-139 | exactly the named row of this user's cart is deleted, and an unknown one is refused with nothing changed; carts, orders, the log, prices and the id counters are unchanged |
| ServerCart.ClearCart | EcoNext/backend/shop_cart/api_views.py:142-161 | a user without a cart is refused; otherwise every row of that user goes and no other row changes; carts, orders, the log, prices and the id counters are unchanged |
| ServerCart.KeepAllDropped | EcoNext/backend/shop_cart/api_views.py:148 | deleting every selected row leaves none of them |
| ServerCart.LinesOf | EcoNext/backend/shop_cart/api_views.py:194-200 | one order line per cart item, with its quantity and the current price |
| ServerCart.LinesMatchAmounts | EcoNext/backend/shop_cart/api_views.py:183-200 | the order's total equals the sum of its own lines' amounts |
| ServerCart.ShippingFrom | EcoNext/backend/shop_cart/api_views.py:180-190 | address, city, state, zip code and country are each the request's value, or empty when it is absent |
| ServerCart.CreateOrder | EcoNext/backend/shop_cart/api_views.py:166-224 | no cart or an empty cart is refused; otherwise one pending order is appended with the request's shipping, the cart's lines and their total, the cart is emptied while other users' rows stay, and one purchase activity is logged per item in cart order |
| ServerCart.Placed | EcoNext/backend/shop_cart/api_views.py:182-211 | an accepted order is appended with the user, status pending, the request's shipping, the cart's lines and their total; the user's cart is emptied, other users' rows stay, and the purchases are logged in cart order |
| ServerCart.Purchases | EcoNext/backend/shop_cart/api_views.py:202-208 | one purchase activity per cart item, in order, with its product and quantity |
| ServerCart.UpdateOrderStatus | EcoNext/backend/shop_cart/api_views.py:266-300 | non-staff callers get 403; an unknown order or a missing status is refused; otherwise only the status of the one order with that id changes |
| ServerCart.AddTwiceAccumulates | EcoNext/backend/shop_cart/api_views.py:51-59 | adding a and then b holds a + b more of the product |
| ServerCart.NoSecondOrderFromSameCart | EcoNext/backend/shop_cart/api_views.py:171-211 | after an order the next one is refused until something is added |
| IntentSearch.JoinContainsParts | backend/ml_engine/intent_search.py:32 | the joined tag text contains every tag |
| IntentSearch.DocumentMentionsAll | backend/ml_engine/intent_search.py:30-33 | a product's indexed text mentions its name, its category and every tag |
| IntentSearch.ReasonFor | backend/ml_engine/intent_search.py:73-84 | the explanation's case is a name match exactly when the lowercased query is in the name, then a tag match, then a category match, else related |
| IntentSearch.ExplanationNamesReason | backend/ml_engine/intent_search.py:77-84 | the four explanation texts start with distinct letters, so the text tells its reason |
| IntentSearch.NameMatchWins | backend/ml_engine/intent_search.py:77-78 | a query found in the name is explained as a direct match whatever the tags and category say |
| IntentSearch.Ranked | backend/ml_engine/intent_search.py:59 | all indices, ordered by descending score |
| IntentSearch.TopK | backend/ml_engine/intent_search.py:59 | the last k of the ascending order reversed: at most k, and everything when k is 0 |
| IntentSearch.Passing | backend/ml_engine/intent_search.py:68 | exactly the candidates whose score is above the threshold, in order |
| IntentSearch.Selected | backend/ml_engine/intent_search.py:59-69 | the selected indices are in range, score above 0.1, come in descending score order and number at most k; every top-k index above 0.1 is kept, and with k = 0 or k at least the catalogue size every index above 0.1 is |
| IntentSearch.SelectionSound | backend/ml_engine/intent_search.py:59-68 | the kept indices are distinct catalogue positions above 0.1 in descending score order |
| IntentSearch.SelectionComplete | backend/ml_engine/intent_search.py:59-68 | when the top-k slice covers the catalogue, every index scoring above 0.1 is kept |
| IntentSearch.PassingInRange | backend/ml_engine/intent_search.py:67-68 | indices drawn from the catalogue that pass the threshold are positions whose score is above 0.1 |
| IntentSearch.SearchAsWritten | backend/ml_engine/intent_search.py:44-71 | an empty catalogue fails with the unpacking error; otherwise the hits are the selected products with score and explanation |
| IntentSearch.Search | backend/ml_engine/intent_search.py:44-71 | an empty catalogue gives no hits; otherwise the same hits as the code as written |
| IntentSearch.SearchShape | backend/ml_engine/intent_search.py:59-69 | every hit scores above the threshold, hits come in descending score order, and each carries its explanation |
| IntentSearch.ZeroKeepsEverything | backend/ml_engine/intent_search.py:59 | with top_k 0 a product is returned exactly when its score passes the threshold |
| IntentSearch.CutKeepsTheBest | backend/ml_engine/intent_search.py:59-69 | any returned hit scores at least as high as any passing product left out |
| IntentSearch.ExtractIntentTags | backend/ml_engine/intent_search.py:86-105 | the tags of every intent keyword in the query, in table order; the query itself when none matches |
| IntentSearch.MatchedTagsInTableOrder | backend/ml_engine/intent_search.py:86-100 | matching a split table gives the first part's tags followed by the second's, and one intent gives its own tags exactly when its keyword occurs |
| IntentSearch.KeywordBringsItsTags | backend/ml_engine/intent_search.py:101-103 | a query containing "gym" yields the gym tags |
| IntentSearch.OfCategory | backend/ml_engine/intent_search.py:113-117 | a category's group holds only hits of that category, taken from the hits |
| IntentSearch.GroupByCategory | backend/ml_engine/intent_search.py:112-117 | one group per category that occurs, in order of first occurrence, each holding exactly its hits in original order, with sizes adding up to the number of hits |
| IntentSearch.AddStep | backend/ml_engine/intent_search.py:113-117 | one loop step keeps the grouping exact |
| IntentSearch.SortGroups | backend/ml_engine/intent_search.py:119-124 | each group is put in descending score order as a permutation of itself |
| IntentSearch.CategoryRecommendations | backend/ml_engine/intent_search.py:107-126 | distinct category keys, each group in descending score order and holding only its category's hits |
| IntentSearch.SortingGroupsIsIdentity | backend/ml_engine/intent_search.py:119-124 | the per-group sort changes nothing, because grouping keeps the search's descending order |
| IntentSearch.GroupsCountEveryHit | backend/ml_engine/intent_search.py:107-126 | the group sizes add up to the number of hits of the top-20 search |
| ProductViews.IntOf | backend/products/api_views.py:28 | a number parameter is its value, an absent one its default, and anything else the int() error |
| ProductViews.ProductList | backend/products/api_views.py:21-44 | a bad parameter or a negative slice start gives 400; otherwise the products from (page-1)·per_page, at most per_page of them |
| ProductViews.ListIsWindow | backend/products/api_views.py:28-31 | a valid page is exactly the window of the catalogue starting at (page-1)·per_page |
| ProductViews.DefaultIsFirstTwelve | backend/products/api_views.py:24-25 | with no parameters the list is the first twelve products |
| ProductViews.PagesAreContiguous | backend/products/api_views.py:28-31 | consecutive pages concatenate into the corresponding prefix of the catalogue |
| ProductViews.ProductOnItsPage | backend/products/api_views.py:28-31 | the product at position i is on page i / per_page + 1 |
| ProductViews.NegativePageRefused | backend/products/api_views.py:28-31 | a page below 1 with a positive per_page is answered 400 with Django's negative-indexing message |
| ProductViews.Latest | backend/products/api_views.py:62 | the chosen prediction has the latest date of the product's predictions |
| ProductViews.ProductDetail | backend/products/api_views.py:47-83 | an unknown product gives 400 with the not-found message; a known one is returned with its latest prediction or none, and the view is logged only for a signed-in user |
| ProductViews.IntentView | backend/products/api_views.py:88-121 | a blank query gives 400 "Search query required" and logs nothing; otherwise the stripped query is logged and the grouped results of the corrected search are returned with their total |
| ProductViews.IntentViewAsWritten | backend/products/api_views.py:88-121 | agrees with IntentView on a blank query and on a non-empty catalogue; a non-blank query on an empty catalogue is logged and answered 400 with the unpacking error |
| ProductViews.EmptyCatalogueAnswers | backend/products/api_views.py:99-121 | on an empty catalogue a non-blank query gets 400 as written and 200 with no results and total 0 from the corrected view |
| ProductViews.BlankQueryRefused | backend/products/api_views.py:91-97 | a missing or all-whitespace query is refused |
| ProductViews.TotalFoundCountsGroups | backend/products/api_views.py:107-115 | total_found equals the number of hits of the top-20 search |
| ProductViews.VisualView | backend/products/api_views.py:178-220 | no image or an unreadable one gives 400; otherwise the nearest products come back with their similarity in order |
| ProductViews.Recent | backend/products/api_views.py:229-231 | exactly the rows of the last hour |
| ProductViews.TrendingNow | backend/products/api_views.py:223-252 | recent rows only, in ascending rank, exactly min(number recent, 10) of them, drawn from the recent rows as a sub-multiset, and all of them when at most ten are recent |
| ProductViews.TrendingKeepsBestRanks | backend/products/api_views.py:229-231 | no recent row left out has a better rank than one returned |
| ProductViews.LeftOutRanksNoBetter | backend/products/api_views.py:229-231 | in a list by ascending rank, anything past the first ten ranks no better than any of the ten |
| PricePredictor.PrepareFeatures | EcoNext/backend/ml_engine/price_predictor.py:33-42 | fewer than five prices give nothing; otherwise one feature per price |
| PricePredictor.Predictions | EcoNext/backend/ml_engine/price_predictor.py:59-62 | seven predictions, for positions n to n+6 on the fitted line |
| PricePredictor.MeanIsMiddleDay | EcoNext/backend/ml_engine/price_predictor.py:65 | the mean of the seven predictions is the line's value at the middle day n+3 |
| PricePredictor.ChangePercent | EcoNext/backend/ml_engine/price_predictor.py:66 | the percent change from the current price, or infinity or NaN when the current price is 0 |
| PricePredictor.BandOf | EcoNext/backend/ml_engine/price_predictor.py:68-73 | "wait" exactly below -5%, "best_price" exactly above +5%, otherwise "neutral", NaN included |
| PricePredictor.BandMonotone | EcoNext/backend/ml_engine/price_predictor.py:68-73 | a larger change never gives a lower band |
| PricePredictor.BandByPrice | EcoNext/backend/ml_engine/price_predictor.py:65-73 | for a positive current price: best price exactly when the mean exceeds 105% of it, and wait exactly when the mean is below 95% of it |
| PricePredictor.Confidence | EcoNext/backend/ml_engine/price_predictor.py:76-81 | the R² score floored at 0 |
| PricePredictor.TrainAndPredict | EcoNext/backend/ml_engine/price_predictor.py:44-83 | fewer than five prices give no forecast; otherwise seven predictions with their band, floored confidence and change |
| PricePredictor.StoredOf | EcoNext/backend/ml_engine/price_predictor.py:94-106 | the stored row's day k is the k-th prediction, with the forecast's band, confidence and change |
| PricePredictor.SaveAsWritten | EcoNext/backend/ml_engine/price_predictor.py:85-108 | short history gives nothing; any forecast fails on the keyword the model does not declare |
| PricePredictor.Save | EcoNext/backend/ml_engine/price_predictor.py:85-108 | short history gives nothing; otherwise the stored row holds day k as the k-th prediction |
| PricePredictor.SaveAsWrittenLosesEveryForecast | EcoNext/backend/ml_engine/price_predictor.py:94-106 | as written, saving fails exactly when a forecast exists |
| PricePredictor.AsCardInput | EcoNext/backend/ml_engine/price_predictor.py:94-106 | the stored row as the card receives it: days 1 to 7 with their prices |
| PricePredictor.CardToneFollowsBand | EcoNext/backend/ml_engine/price_predictor.py:68-73 | the card's tone is positive for best price, caution for wait and neutral otherwise |
| PricePredictor.CardShowsSavedForecast | EcoNext/backend/ml_engine/price_predictor.py:94-102 | each day of the card's chart is the saved prediction when it is non-zero |
| Trending.Bump | EcoNext/backend/products/management/commands/generate_trending.py:34 | the product's score rises by the amount and no other score changes |
| Trending.Accumulate | EcoNext/backend/products/management/commands/generate_trending.py:32-38 | rows with a falsy product are skipped; each other row adds its weighted count to its product |
| Trending.AccumulateLookup | EcoNext/backend/products/management/commands/generate_trending.py:32-38 | a product's score is the weighted sum of its own counts |
| Trending.ScoreTable | EcoNext/backend/products/management/commands/generate_trending.py:31-38 | the table has distinct products, exactly those with a truthy id in either list |
| Trending.ScoreIsWeightedCount | EcoNext/backend/products/management/commands/generate_trending.py:31-38 | a product scores twice its views plus its searches |
| Trending.WeightedScales | EcoNext/backend/products/management/commands/generate_trending.py:34 | the view weight doubles every count |
| Trending.Best | EcoNext/backend/products/management/commands/generate_trending.py:57 | exactly min(table size, 10) products in descending score order, drawn from the table |
| Trending.Ranking | EcoNext/backend/products/management/commands/generate_trending.py:41-74 | no scores give the first ten catalogue products; otherwise the best min(table size, 10) products; ranks run 1, 2, 3, ... |
| Trending.RanksFollowScores | EcoNext/backend/products/management/commands/generate_trending.py:57-59 | a better rank never has a lower score |
| Trending.CutKeepsTheBest | EcoNext/backend/products/management/commands/generate_trending.py:57 | no product left out scores higher than one ranked |
| Trending.Prune | EcoNext/backend/products/management/commands/generate_trending.py:17-18 | exactly the rows of the last 24 hours are kept |
| Trending.Handle | EcoNext/backend/products/management/commands/generate_trending.py:13-76 | the store holds exactly the pruned records plus one per ranked product; every record of the last day survives, every other surviving record is new, and the run ends with the ranking in order, stamped now |
| Trending.FreshRankingIsServed | EcoNext/backend/products/management/commands/generate_trending.py:41-74 | right after a run the trending endpoint serves the new ranking |
| Trending.RecentOfFresh | EcoNext/backend/products/management/commands/generate_trending.py:64-73 | the rows written now are all recent |
| Accounts.Validate | EcoNext/backend/accounts/serializers.py:27-37 | rejected exactly when the passwords differ, the username is taken or the email is taken, with one error; accepted data is the request without the confirmation |
| Accounts.ValidateNormalized | EcoNext/backend/accounts/serializers.py:27-42 | refused exactly when validate refuses or the email in its stored, normalised form is taken, with a non-empty error; otherwise the same accepted data |
| Accounts.MismatchIsReportedFirst | EcoNext/backend/accounts/serializers.py:28-29 | a mismatch is reported on 'password' alone, even when the username or email is also taken |
| Accounts.UsernameBeforeEmail | EcoNext/backend/accounts/serializers.py:31-35 | a taken username is reported before a taken email |
| Accounts.Create | EcoNext/backend/accounts/serializers.py:39-48 | a new user with the next id, its email normalised as the user manager stores it, empty names when absent, and exactly one new blank profile |
| Accounts.NormalizeEmail | EcoNext/backend/accounts/serializers.py:40-42 | without an '@' the address is kept; otherwise the stripped address keeps everything up to its last '@' and has the rest lower-cased |
| Accounts.NormalizeEmailLowersDomain | EcoNext/backend/accounts/serializers.py:40-42 | an address local@domain with no outer spaces is stored as local@ followed by the lower-cased domain |
| Accounts.Cleaned | EcoNext/backend/accounts/serializers.py:18-25 | the validated data keeps only the declared fields sent, each stripped of surrounding whitespace |
| Accounts.FieldErrors | EcoNext/backend/accounts/serializers.py:23-25 | the framework's field errors, plus the username unique validator's message exactly when the stripped username is taken and no other username error was found |
| Accounts.Signup | EcoNext/backend/accounts/auth_views.py:12-33 | 201 with the new user (stripped name and password, normalised email) and its tokens exactly when no field error, no password mismatch and no taken name or email is found; otherwise 400 with a non-empty error map and nothing stored |
| Accounts.Register | EcoNext/backend/accounts/auth_views.py:17-28 | the accepted request creates the next user with its blank profile and returns it with the tokens issued for its id |
| Accounts.SignupAsWritten | EcoNext/backend/accounts/auth_views.py:12-33 | as written: field errors refuse first; then validate on the cleaned data, comparing the email as sent, decides between refusal and registration |
| Accounts.SignupKeepsAccountsDistinct | EcoNext/backend/accounts/serializers.py:31-35 | sign-up keeps every username and every stored email unique |
| Accounts.DomainCaseDuplicatesEmail | EcoNext/backend/accounts/serializers.py:34-42 | an email free as sent but taken once normalised registers as written and leaves two accounts with one email, and is refused on email with nothing stored by the corrected sign-up |
| Accounts.AsWrittenStoresClash | EcoNext/backend/accounts/serializers.py:34-42 | as written, such a request appends a user whose stored email is the normalised one |
| Accounts.CorrectedRefusesClash | EcoNext/backend/accounts/serializers.py:34-35 | the corrected sign-up answers such a request with the email error and stores nothing |
| Accounts.SignupTwiceIsRefused | EcoNext/backend/accounts/serializers.py:18-25 | the same sign-up made again is refused with the unique validator's "A user with that username already exists." alone, and nothing is stored |
| Accounts.Authenticate | EcoNext/backend/accounts/auth_views.py:44 | a user is found exactly when one has this name and password |
| Accounts.ProfileFor | EcoNext/backend/accounts/auth_views.py:47-50 | the stored profile, or a blank one created now; afterwards the user has a profile |
| Accounts.Login | EcoNext/backend/accounts/auth_views.py:35-70 | field errors give 400; otherwise the stripped name and password are checked: no match gives 401 with nothing changed, and a match gives 200 with that user and their profile, created only when missing |
| Accounts.LoginTwiceCreatesOnce | EcoNext/backend/accounts/auth_views.py:47-50 | a second login changes nothing |
| Accounts.SignupThenLogin | EcoNext/backend/accounts/auth_views.py:35-65 | a signed-up user logs in with the same name and password, surrounding spaces included, and gets the blank profile sign-up made |
| Accounts.SignupStoresStripped | EcoNext/backend/accounts/serializers.py:39-47 | an accepted sign-up appends the stripped name and password under a name no earlier account has, with a blank profile |
| Accounts.NewNameAuthenticates | EcoNext/backend/accounts/auth_views.py:44 | a name no earlier account has, appended with its password, authenticates to the appended user |
| Accounts.UpdatedAccount | EcoNext/backend/accounts/auth_views.py:107-113 | first name, last name and email take the request's value when sent, and username and password never change |
| Accounts.AsWrittenProfile | EcoNext/backend/accounts/auth_views.py:116-126 | phone, address, city and country take the request's value when sent; state and zip code never change |
| Accounts.UpdatedProfile | EcoNext/backend/accounts/models.py:4-14 | every profile field, state and zip code included, takes the request's value when sent |
| Accounts.UpdateProfileAsWritten | EcoNext/backend/accounts/auth_views.py:98-138 | no profile gives 404 with nothing written; otherwise only this user's row and profile change, as the code reads them |
| Accounts.UpdateProfile | EcoNext/backend/accounts/auth_views.py:98-138 | no profile gives 404 with nothing written; otherwise only this user's row and profile change, with every sent field stored |
| Accounts.UpdateIsIdempotent | EcoNext/backend/accounts/auth_views.py:105-126 | an empty request changes nothing, and the same update twice equals once |
| Accounts.AgreeWithoutStateOrZip | EcoNext/backend/accounts/auth_views.py:116-126 | both update rules agree on every request that sends neither state nor zip code |
| Accounts.StateAndZipAreDropped | frontend/src/ProfilePage.js:18-19 | the profile page's state and zip code are answered 200 and not stored as written, and are stored by the corrected rule |

## Left out

- Network calls, storage and browser APIs are parameters: JSON parsing and serialising, the order, login and sign-up services, token signing, image decoding and feature extraction.
- TF-IDF vectorising and cosine similarity are a given score per product. Linear regression is a given fitted line with its R² score. OpenCV colour histograms and nearest-neighbour search are parameters.
- Password hashing is not modelled: a password is stored and compared as its text.
- Django's field-level serializer validation (required fields, email format, the username model validators) is a parameter `fieldErrors`. When it reports nothing, the required fields are present.
- Lower-casing covers ASCII letters only. Python's full Unicode `str.lower` is not modelled.
- Sorting ties: numpy's `argsort` does not fix the order of equal scores. The model breaks ties stably.
- The Cart and Order models are not part of this model. An order's total is taken as the sum of price times quantity over its lines. A new order's status is "pending".
- DecimalField rounding to two places when a price or prediction is saved is not modelled. Prices are exact reals.
- `update_or_create` in the trending job is treated as creation. The key includes an auto-set timestamp, so it never matches an existing row.
- The random counters the trending job writes are parameters.
- The product list echoes `page` back as sent. The model echoes the parsed parameter.
- ProductViews.Latest: ties between equal latest dates are broken by taking the first row. Django's `latest` leaves that order unspecified.
- ProductViews.TrendingNow: rows of equal rank keep their stored order. The database's `order_by('rank')` leaves that order unspecified.
- The visual search of the client turns an empty hit list into one empty category, as written.
- A token stored without a user survives start-up. The App reads it at the first render regardless of the user.
- Start-up with unreadable stored user text is a failure result where the App throws.
- Checkout sends null fields as the empty string.
- ForecastCard.Confidence: the percentage is not clamped to [0, 100], as written.
- Profile display formatting and the current-user and logout endpoints carry no logic beyond a lookup.
- Accounts.Create: the user manager's Unicode NFKC normalisation of the username is not modelled, and the email domain is lower-cased for ASCII letters only.
- Accounts.Signup: when the username breaks another field rule and is also taken, the framework reports both messages; the model keeps only the other rule's. Field rules other than username uniqueness remain the parameter `fieldErrors`.
- Accounts.Signup: sign-up checks the stored, normalised email. As written the email is compared as sent; that version is Accounts.SignupAsWritten (see Findings).
- ProductViews.IntentView: built on the corrected search. The as-written 400 on an empty catalogue is ProductViews.IntentViewAsWritten.
- ForecastCard.DayPrice: day prices are taken as numbers. If the backend serialises its decimal fields as strings (PricePredictorCard.js:116 and :72), `reduce` would concatenate text and the chart would not be numeric. That path is not modelled.
- The activity log keeps user, action, product and quantity. Timestamps and the details' JSON shape are not modelled.

## Findings

| source | as written | input that shows it | evidently intended | confidence | as-written member | corrected member |
|---|---|---|---|---|---|---|
| EcoNext/backend/accounts/auth_views.py:116-126 | the profile update reads `postal_code`, which the profile model does not have, and never reads `state` or `zipcode` | the profile page sends `{"city": "Lyon", "state": "Rhone", "zipcode": "69001"}`: the answer is 200, and state and zip code stay as they were | every profile field the page sends is stored, `state` and `zipcode` included | high, not executed | Accounts.UpdateProfileAsWritten | Accounts.UpdateProfile |
| backend/ml_engine/intent_search.py:36-50 | with no products, the catalogue builder returns `[]`, which the search unpacks into three names | an empty product table: the search raises ValueError and the endpoint answers 400 | an empty catalogue gives no results, as the `if not products` guard intends | high, not executed | IntentSearch.SearchAsWritten | IntentSearch.Search |
| EcoNext/backend/ml_engine/price_predictor.py:94-106 | the saved prediction passes `price_change`, which the prediction model does not declare | any product with five or more prices: object creation raises TypeError, and nothing is saved | the forecast is stored with its seven days, band and confidence | medium, not executed | PricePredictor.SaveAsWritten | PricePredictor.Save |
| EcoNext/backend/accounts/serializers.py:34-42 | the email is looked up as sent, but `create_user` stores it with its domain lower-cased | an account with email `ann@shop.com` exists; a new user signs up with `ann@SHOP.com`: the lookup finds nothing and a second account stores `ann@shop.com` | one account per email, so the lookup compares the normalised form the email is stored in | medium, not executed | Accounts.SignupAsWritten | Accounts.Signup |

=== FILE: accounts.dfy ===
/** The account endpoints of the shop server: the sign-up serializer's
    validation and creation, the sign-up and login views, and the partial
    profile update. The user table is a sequence whose index is the user id;
    profiles are keyed by the id of the user they belong to. Password hashing
    and the signing of tokens are left to parameters and equality. */
module Accounts {
  import opened Wrappers
  import opened Text
  import opened Forms

  datatype Account = Account(username: string, email: string, password: string,
                             firstName: string, lastName: string)

  datatype Profile = Profile(phone: string, address: string, city: string,
                             state: string, zipcode: string, country: string)

  /** What `UserProfile.objects.create(user=user)` stores: every text field blank. */
  const BlankProfile := Profile("", "", "", "", "", "")

  datatype Db = Db(users: seq<Account>, profiles: map<nat, Profile>)

  /** Every profile belongs to an existing user (the one-to-one foreign key). */
  predicate Consistent(db: Db) {
    forall id :: id in db.profiles ==> id < |db.users|
  }

  datatype Tokens = Tokens(access: string, refresh: string)

  const Created := 201
  const Ok := 200
  const BadRequest := 400
  const Unauthorized := 401
  const NotFound := 404

  // ---------------------------------------------------------------- sign-up

  const PasswordsDiffer := "Passwords do not match"
  const UsernameExists := "Username already exists"
  const EmailExists := "Email already exists"

  /** The message of the unique validator the user model puts on `username`. */
  const UsernameUnique := "A user with that username already exists."

  /** The fields the sign-up serializer requires; the framework refuses a
      request missing any of them before `validate` runs. */
  const SignupFields: set<string> := {"username", "email", "password", "password_confirm"}

  /** Every field the sign-up serializer declares. */
  const SignupDeclared: set<string> := SignupFields + {"first_name", "last_name"}

  /** The two fields of the login serializer. */
  const LoginFields: set<string> := {"username", "password"}

  predicate HasSignupFields(data: Form) {
    SignupFields <= data.Keys
  }

  /** A serializer's validated data: only its declared fields are kept, and
      each text field is stripped of surrounding whitespace (the framework's
      text fields trim by default, the password fields included). */
  function Cleaned(data: Form, fields: set<string>): (r: Form)
    ensures r.Keys == data.Keys * fields
    ensures forall k :: k in r ==> r[k] == PyStrip(data[k])
  {
    map k | k in data.Keys * fields :: PyStrip(data[k])
  }

  predicate UsernameTaken(db: Db, name: string) {
    exists i :: 0 <= i < |db.users| && db.users[i].username == name
  }

  predicate EmailTaken(db: Db, email: string) {
    exists i :: 0 <= i < |db.users| && db.users[i].email == email
  }

  /** No two accounts share a username, and no two share an email. */
  predicate DistinctAccounts(db: Db) {
    forall i, j :: 0 <= i < j < |db.users| ==>
      db.users[i].username != db.users[j].username && db.users[i].email != db.users[j].email
  }

  /** The position of the last '@' of a string, if it has one. */
  function LastAt(s: string): (r: Option<nat>)
    ensures r.Some? ==> r.value < |s| && s[r.value] == '@' && forall j :: r.value < j < |s| ==> s[j] != '@'
    ensures r.None? <==> forall j :: 0 <= j < |s| ==> s[j] != '@'
  {
    if |s| == 0 then None
    else if s[|s| - 1] == '@' then Some(|s| - 1)
    else
      var r := LastAt(s[..|s| - 1]);
      assert forall j :: 0 <= j < |s| - 1 ==> s[..|s| - 1][j] == s[j];
      r
  }

  /** The user manager's `normalize_email`: the stripped address with the part
      after its last '@' lower-cased; an address without '@' is kept as
      given. */
  function NormalizeEmail(e: string): (r: string)
    ensures LastAt(PyStrip(e)).None? ==> r == e
    ensures LastAt(PyStrip(e)).Some? ==>
      var s, i := PyStrip(e), LastAt(PyStrip(e)).value;
      && |r| == |s| && r[..i] == s[..i] && r[i] == '@'
      && forall j :: i < j < |s| ==> r[j] == LowerChar(s[j])
  {
    var s := PyStrip(e);
    match LastAt(s)
    case None => e
    case Some(i) => s[..i] + "@" + Lower(s[i + 1..])
  }

  /** An address whose ends are not spaces keeps its local part and has its
      domain lower-cased. */
  lemma NormalizeEmailLowersDomain(local: string, domain: string)
    requires |local| > 0 ==> !IsPySpace(local[0])
    requires |domain| > 0 ==> !IsPySpace(domain[|domain| - 1])
    requires forall j :: 0 <= j < |domain| ==> domain[j] != '@'
    ensures NormalizeEmail(local + "@" + domain) == local + "@" + Lower(domain)
  {
    var e := local + "@" + domain;
    assert e[|local|] == '@';
    PyStripKeeps(e);
    assert forall j :: |local| < j < |e| ==> e[j] == domain[j - |local| - 1];
    LastAtIs(e, |local|);
    assert e[..|local|] == local;
    assert e[|local| + 1..] == domain;
  }

  /** The position of the last '@', found from any '@' with none after it. */
  lemma LastAtIs(s: string, i: nat)
    requires i < |s| && s[i] == '@' && forall j :: i < j < |s| ==> s[j] != '@'
    ensures LastAt(s) == Some(i)
  {
    if i < |s| - 1 {
      LastAtIs(s[..|s| - 1], i);
    }
  }

  datatype Checked = Accepted(data: Form) | Rejected(errors: Errors)

  /** `SignUpSerializer.validate` on the data it receives: the password pair
      is compared first, then the username and then the email are looked up;
      the first failure is the only error reported. On success the
      confirmation is gone from the data. */
  function Validate(db: Db, data: Form): (r: Checked)
    requires HasSignupFields(data)
    ensures r.Rejected? <==>
      data["password"] != data["password_confirm"]
      || UsernameTaken(db, data["username"]) || EmailTaken(db, data["email"])
    ensures r.Rejected? ==> |r.errors.Keys| == 1 && r.errors != map[]
    ensures r.Accepted? ==> r.data.Keys == data.Keys - {"password_confirm"}
    ensures r.Accepted? ==> forall k :: k in r.data ==> r.data[k] == data[k]
  {
    if data["password"] != data["password_confirm"] then
      Rejected(map["password" := PasswordsDiffer])
    else if UsernameTaken(db, data["username"]) then
      Rejected(map["username" := UsernameExists])
    else if EmailTaken(db, data["email"]) then
      Rejected(map["email" := EmailExists])
    else
      Accepted(data - {"password_confirm"})
  }

  /** A mismatched confirmation is reported on `password` alone, whatever
      else is wrong with the request. */
  lemma MismatchIsReportedFirst(db: Db, data: Form)
    requires HasSignupFields(data)
    requires data["password"] != data["password_confirm"]
    ensures Validate(db, data) == Rejected(map["password" := PasswordsDiffer])
  {
  }

  /** A taken username is reported before a taken email, and neither is
      reported while the passwords differ. */
  lemma UsernameBeforeEmail(db: Db, data: Form)
    requires HasSignupFields(data)
    requires data["password"] == data["password_confirm"]
    ensures UsernameTaken(db, data["username"]) ==>
      Validate(db, data) == Rejected(map["username" := UsernameExists])
    ensures !UsernameTaken(db, data["username"]) && EmailTaken(db, data["email"]) ==>
      Validate(db, data) == Rejected(map["email" := EmailExists])
  {
  }

  /** `validate` with the email looked up the way it is stored: a request is
      also refused when its normalised email is taken. */
  function ValidateNormalized(db: Db, data: Form): (r: Checked)
    requires HasSignupFields(data)
    ensures r.Rejected? <==>
      Validate(db, data).Rejected? || EmailTaken(db, NormalizeEmail(data["email"]))
    ensures Validate(db, data).Rejected? ==> r == Validate(db, data)
    ensures r.Accepted? ==> r == Validate(db, data)
    ensures r.Rejected? ==> r.errors != map[]
  {
    var v := Validate(db, data);
    if v.Accepted? && EmailTaken(db, NormalizeEmail(data["email"])) then
      var m := map["email" := EmailExists];
      assert "email" in m;
      Rejected(m)
    else v
  }

  /** `SignUpSerializer.create`: the user takes the next id, the email is
      normalised, names default to empty, and exactly one blank profile is
      created for it. */
  function Create(db: Db, data: Form): (r: (Db, nat))
    requires Consistent(db)
    requires "username" in data && "email" in data && "password" in data
    ensures r.1 == |db.users| && r.1 !in db.profiles
    ensures |r.0.users| == |db.users| + 1 && r.0.users[..r.1] == db.users
    ensures r.0.users[r.1].username == data["username"]
    ensures r.0.users[r.1].email == NormalizeEmail(data["email"])
    ensures r.0.users[r.1].password == data["password"]
    ensures "first_name" !in data ==> r.0.users[r.1].firstName == ""
    ensures "last_name" !in data ==> r.0.users[r.1].lastName == ""
    ensures r.0.profiles == db.profiles[r.1 := BlankProfile]
    ensures Consistent(r.0)
  {
    var account := Account(data["username"], NormalizeEmail(data["email"]), data["password"],
                           Value(data, "first_name"), Value(data, "last_name"));
    var id := |db.users|;
    (Db(db.users + [account], db.profiles[id := BlankProfile]), id)
  }

  datatype SignupReply =
    | Registered(id: nat, user: Account, tokens: Tokens)
    | SignupFailed(errors: Errors)
  {
    function Status(): int {
      if Registered? then Created else BadRequest
    }
    function Message(): string {
      if Registered? then "User registered successfully" else "Signup failed"
    }
  }

  /** The field-level findings: those of the framework's own field rules
      (`fieldErrors`), plus the unique validator's on a username that is
      taken once stripped. That validator runs before `validate`, so a taken
      username never reaches `validate`'s own check. */
  function FieldErrors(db: Db, data: Form, fieldErrors: Errors): (e: Errors)
    ensures fieldErrors.Keys <= e.Keys
    ensures forall k :: k in fieldErrors ==> e[k] == fieldErrors[k]
    ensures e.Keys <= fieldErrors.Keys + {"username"}
    ensures "username" in e && "username" !in fieldErrors <==>
      "username" in data && "username" !in fieldErrors && UsernameTaken(db, PyStrip(data["username"]))
    ensures "username" in e && "username" !in fieldErrors ==> e["username"] == UsernameUnique
  {
    if "username" in data && "username" !in fieldErrors && UsernameTaken(db, PyStrip(data["username"])) then
      fieldErrors["username" := UsernameUnique]
    else fieldErrors
  }

  /** The outcome of a sign-up request: when the framework's field rules
      (`fieldErrors`) find nothing, every required field is present. */
  predicate SignupAccepted(db: Db, data: Form, fieldErrors: Errors)
    requires fieldErrors == map[] ==> HasSignupFields(data)
  {
    && FieldErrors(db, data, fieldErrors) == map[]
    && var c := Cleaned(data, SignupDeclared);
    && c["password"] == c["password_confirm"]
    && !UsernameTaken(db, c["username"]) && !EmailTaken(db, c["email"])
    && !EmailTaken(db, NormalizeEmail(c["email"]))
  }

  /** `signup_view`. The request is cleaned as the serializer cleans it,
      field-level findings refuse it first, then `validate` runs, with the
      email looked up in the normalised form it is stored in. `issue` stands
      for minting the token pair for a user id. */
  function Signup(db: Db, data: Form, fieldErrors: Errors, issue: nat -> Tokens): (r: (SignupReply, Db))
    requires Consistent(db)
    requires fieldErrors == map[] ==> HasSignupFields(data)
    ensures Consistent(r.1)
    ensures r.0.SignupFailed? ==> r.1 == db && r.0.errors != map[]
    ensures FieldErrors(db, data, fieldErrors) != map[] ==>
      r.0 == SignupFailed(FieldErrors(db, data, fieldErrors))
    ensures r.0.Registered? <==> SignupAccepted(db, data, fieldErrors)
    ensures r.0.Registered? ==>
      var c := Cleaned(data, SignupDeclared);
      && |r.1.users| == |db.users| + 1 && r.1.users[..|db.users|] == db.users
      && r.0.id == |db.users|
      && r.1.users[r.0.id] == r.0.user
      && r.0.user.username == c["username"] && r.0.user.password == c["password"]
      && r.0.user.email == NormalizeEmail(c["email"])
      && r.0.tokens == issue(r.0.id)
      && r.1.profiles == db.profiles[r.0.id := BlankProfile]
  {
    var errors := FieldErrors(db, data, fieldErrors);
    if errors != map[] then (SignupFailed(errors), db)
    else
      var c := Cleaned(data, SignupDeclared);
      CleanedKeepsFields(data);
      var v := ValidateNormalized(db, c);
      if v.Rejected? then (SignupFailed(v.errors), db)
      else Register(db, c, v.data, issue)
  }

  lemma CleanedKeepsFields(data: Form)
    requires HasSignupFields(data)
    ensures HasSignupFields(Cleaned(data, SignupDeclared))
  {
    assert SignupFields <= SignupDeclared;
  }

  /** The accepted half of `signup_view`: the user is created from the
      validated data and its tokens are issued. */
  function Register(db: Db, c: Form, valid: Form, issue: nat -> Tokens): (r: (SignupReply, Db))
    requires Consistent(db) && HasSignupFields(c) && valid == c - {"password_confirm"}
    ensures Consistent(r.1) && r.0.Registered?
    ensures |r.1.users| == |db.users| + 1 && r.1.users[..|db.users|] == db.users
    ensures r.0.id == |db.users| && r.1.users[r.0.id] == r.0.user
    ensures r.0.user.username == c["username"] && r.0.user.password == c["password"]
    ensures r.0.user.email == NormalizeEmail(c["email"])
    ensures r.0.tokens == issue(r.0.id)
    ensures r.1.profiles == db.profiles[r.0.id := BlankProfile]
  {
    assert "username" in valid && "email" in valid && "password" in valid;
    var made := Create(db, valid);
    (Registered(made.1, made.0.users[made.1], issue(made.1)), made.0)
  }

  /** `signup_view` as written: `validate` looks the submitted email up as
      sent, while `create` stores it normalised. It agrees with Signup except
      when only the normalised email is taken, and then it registers. */
  function SignupAsWritten(db: Db, data: Form, fieldErrors: Errors, issue: nat -> Tokens): (r: (SignupReply, Db))
    requires Consistent(db)
    requires fieldErrors == map[] ==> HasSignupFields(data)
    ensures Consistent(r.1)
    ensures FieldErrors(db, data, fieldErrors) != map[] ==>
      r == (SignupFailed(FieldErrors(db, data, fieldErrors)), db)
    ensures FieldErrors(db, data, fieldErrors) == map[] ==>
      var c := Cleaned(data, SignupDeclared);
      && HasSignupFields(c)
      && (Validate(db, c).Rejected? ==> r == (SignupFailed(Validate(db, c).errors), db))
      && (Validate(db, c).Accepted? ==> r == Register(db, c, Validate(db, c).data, issue))
  {
    var errors := FieldErrors(db, data, fieldErrors);
    if errors != map[] then (SignupFailed(errors), db)
    else
      var c := Cleaned(data, SignupDeclared);
      CleanedKeepsFields(data);
      var v := Validate(db, c);
      if v.Rejected? then (SignupFailed(v.errors), db)
      else Register(db, c, v.data, issue)
  }

  /** Sign-up keeps usernames and emails unique. */
  lemma SignupKeepsAccountsDistinct(db: Db, data: Form, fieldErrors: Errors, issue: nat -> Tokens)
    requires Consistent(db) && DistinctAccounts(db)
    requires fieldErrors == map[] ==> HasSignupFields(data)
    ensures DistinctAccounts(Signup(db, data, fieldErrors, issue).1)
  {
    var r := Signup(db, data, fieldErrors, issue);
    if r.0.Registered? {
      var c := Cleaned(data, SignupDeclared);
      var u := r.1.users;
      forall i, j | 0 <= i < j < |u|
        ensures u[i].username != u[j].username && u[i].email != u[j].email
      {
        assert u[..|db.users|] == db.users;
        if j == |db.users| {
          assert u[i] == db.users[i];
          assert u[j].username == c["username"] && u[j].email == NormalizeEmail(c["email"]);
          assert db.users[i].username != c["username"];
          assert db.users[i].email != NormalizeEmail(c["email"]);
        } else {
          assert u[i] == db.users[i] && u[j] == db.users[j];
        }
      }
    }
  }

  /** A sign-up request whose email is free as sent but taken once
      normalised (the same mailbox with its domain in other case), and which
      nothing else refuses. */
  predicate DomainCaseClash(db: Db, data: Form)
    requires HasSignupFields(data)
  {
    && PyStrip(data["password"]) == PyStrip(data["password_confirm"])
    && !UsernameTaken(db, PyStrip(data["username"]))
    && !EmailTaken(db, PyStrip(data["email"]))
    && EmailTaken(db, NormalizeEmail(PyStrip(data["email"])))
  }

  /** As written, such an address passes the lookup, and the new account is
      stored with an email another account already has. The corrected
      sign-up refuses it on `email` and stores nothing. */
  lemma DomainCaseDuplicatesEmail(db: Db, data: Form, issue: nat -> Tokens)
    requires Consistent(db) && HasSignupFields(data) && DomainCaseClash(db, data)
    ensures SignupAsWritten(db, data, map[], issue).0.Registered?
    ensures !DistinctAccounts(SignupAsWritten(db, data, map[], issue).1)
    ensures Signup(db, data, map[], issue) == (SignupFailed(map["email" := EmailExists]), db)
  {
    var r := SignupAsWritten(db, data, map[], issue);
    var email := NormalizeEmail(PyStrip(data["email"]));
    AsWrittenStoresClash(db, data, issue);
    var k :| 0 <= k < |db.users| && db.users[k].email == email;
    SharedEmail(db.users, r.1, k, email);
    CorrectedRefusesClash(db, data, issue);
  }

  lemma AsWrittenStoresClash(db: Db, data: Form, issue: nat -> Tokens)
    requires Consistent(db) && HasSignupFields(data) && DomainCaseClash(db, data)
    ensures var r := SignupAsWritten(db, data, map[], issue);
      && r.0.Registered?
      && |r.1.users| == |db.users| + 1 && r.1.users[..|db.users|] == db.users
      && r.1.users[|db.users|].email == NormalizeEmail(PyStrip(data["email"]))
  {
    var c := Cleaned(data, SignupDeclared);
    CleanedKeepsFields(data);
    assert FieldErrors(db, data, map[]) == map[];
    var v := Validate(db, c);
    assert v.Accepted?;
    assert SignupAsWritten(db, data, map[], issue) == Register(db, c, v.data, issue);
  }

  lemma CorrectedRefusesClash(db: Db, data: Form, issue: nat -> Tokens)
    requires Consistent(db) && HasSignupFields(data) && DomainCaseClash(db, data)
    ensures Signup(db, data, map[], issue) == (SignupFailed(map["email" := EmailExists]), db)
  {
    var c := Cleaned(data, SignupDeclared);
    CleanedKeepsFields(data);
    assert FieldErrors(db, data, map[]) == map[];
    assert Validate(db, c).Accepted?;
  }

  /** An account appended with the email of an earlier one makes the table
      hold that email twice. */
  lemma SharedEmail(before: seq<Account>, after: Db, k: nat, email: string)
    requires |after.users| == |before| + 1 && after.users[..|before|] == before
    requires k < |before| && before[k].email == email && after.users[|before|].email == email
    ensures !DistinctAccounts(after)
  {
    assert after.users[k] == after.users[..|before|][k];
  }

  /** After a successful sign-up the new name is taken, so the same request
      made again is refused by the username's unique validator, and nothing
      is stored. */
  lemma SignupTwiceIsRefused(db: Db, data: Form, issue: nat -> Tokens)
    requires Consistent(db)
    requires HasSignupFields(data)
    requires Signup(db, data, map[], issue).0.Registered?
    ensures var after := Signup(db, data, map[], issue).1;
      Signup(after, data, map[], issue) == (SignupFailed(map["username" := UsernameUnique]), after)
  {
    var r := Signup(db, data, map[], issue);
    assert r.1.users[r.0.id].username == PyStrip(data["username"]);
    assert UsernameTaken(r.1, PyStrip(data["username"]));
  }

  // ------------------------------------------------------------------ login

  /** Django's `authenticate` for the model backend: the user with this name
      whose password checks. The search starts at `from`. */
  function FindFrom(users: seq<Account>, name: string, password: string, from: nat): (r: Option<nat>)
    decreases |users| - from
    ensures r.Some? ==>
      && from <= r.value < |users|
      && users[r.value].username == name && users[r.value].password == password
    ensures r.None? <==> forall i :: from <= i < |users| ==>
      !(users[i].username == name && users[i].password == password)
  {
    if from >= |users| then None
    else if users[from].username == name && users[from].password == password then Some(from)
    else FindFrom(users, name, password, from + 1)
  }

  function Authenticate(db: Db, name: string, password: string): (r: Option<nat>)
    ensures r.Some? ==>
      && r.value < |db.users|
      && db.users[r.value].username == name && db.users[r.value].password == password
    ensures r.None? <==> forall i :: 0 <= i < |db.users| ==>
      !(db.users[i].username == name && db.users[i].password == password)
  {
    FindFrom(db.users, name, password, 0)
  }

  datatype LoginReply =
    | LoggedIn(id: nat, user: Account, profile: Profile, tokens: Tokens)
    | WrongCredentials
    | LoginInvalid(errors: Errors)
  {
    function Status(): int {
      match this
      case LoggedIn(_, _, _, _) => Ok
      case WrongCredentials => Unauthorized
      case LoginInvalid(_) => BadRequest
    }
    function Message(): string {
      match this
      case LoggedIn(_, _, _, _) => "Login successful"
      case WrongCredentials => "Invalid username or password"
      case LoginInvalid(_) => "Invalid credentials"
    }
  }

  /** The profile a login serves: the stored one, or a blank one created now. */
  function ProfileFor(db: Db, id: nat): (r: (Profile, Db))
    requires Consistent(db) && id < |db.users|
    ensures id in r.1.profiles && r.1.profiles[id] == r.0
    ensures r.1.users == db.users && Consistent(r.1)
    ensures id in db.profiles ==> r.1 == db
    ensures id !in db.profiles ==> r.1.profiles == db.profiles[id := BlankProfile]
  {
    if id in db.profiles then (db.profiles[id], db)
    else (BlankProfile, db.(profiles := db.profiles[id := BlankProfile]))
  }

  /** `login_view`. `fieldErrors` are the login serializer's field-level
      findings; when there are none, both fields are present. The name and
      password are stripped, as the serializer's text fields do, before they
      are checked. */
  function Login(db: Db, data: Form, fieldErrors: Errors, issue: nat -> Tokens): (r: (LoginReply, Db))
    requires Consistent(db)
    requires fieldErrors == map[] ==> "username" in data && "password" in data
    ensures Consistent(r.1) && r.1.users == db.users
    ensures !r.0.LoggedIn? ==> r.1 == db
    ensures fieldErrors != map[] <==> r.0 == LoginInvalid(fieldErrors)
    ensures r.0 == WrongCredentials <==>
      fieldErrors == map[] && Authenticate(db, PyStrip(data["username"]), PyStrip(data["password"])).None?
    ensures r.0.LoggedIn? ==>
      && r.0.id < |db.users|
      && r.0.user == db.users[r.0.id]
      && r.0.user.username == PyStrip(data["username"]) && r.0.user.password == PyStrip(data["password"])
      && r.0.id in r.1.profiles && r.0.profile == r.1.profiles[r.0.id]
      && r.0.tokens == issue(r.0.id)
      && (r.0.id in db.profiles ==> r.1 == db)
      && (r.0.id !in db.profiles ==> r.1.profiles == db.profiles[r.0.id := BlankProfile])
  {
    if fieldErrors != map[] then (LoginInvalid(fieldErrors), db)
    else
      var c := Cleaned(data, LoginFields);
      match Authenticate(db, c["username"], c["password"])
      case None => (WrongCredentials, db)
      case Some(id) =>
        var p := ProfileFor(db, id);
        (LoggedIn(id, db.users[id], p.0, issue(id)), p.1)
  }

  /** Logging in again changes nothing: the profile the first login created
      (or found) is the one the second login serves. */
  lemma LoginTwiceCreatesOnce(db: Db, data: Form, issue: nat -> Tokens)
    requires Consistent(db)
    requires "username" in data && "password" in data
    ensures var first := Login(db, data, map[], issue);
            Login(first.1, data, map[], issue) == (first.0, first.1)
  {
  }

  /** A signed-up user can log in with the same name and password, spaces
      around them included, and is served the blank profile sign-up
      created. */
  lemma SignupThenLogin(db: Db, data: Form, issue: nat -> Tokens)
    requires Consistent(db)
    requires HasSignupFields(data)
    requires Signup(db, data, map[], issue).0.Registered?
    ensures var after := Signup(db, data, map[], issue).1;
            Login(after, data, map[], issue).0.LoggedIn?
            && Login(after, data, map[], issue).0.profile == BlankProfile
            && Login(after, data, map[], issue).1 == after
  {
    var s := Signup(db, data, map[], issue);
    var name, password := PyStrip(data["username"]), PyStrip(data["password"]);
    SignupStoresStripped(db, data, issue);
    NewNameAuthenticates(db, s.1, name, password);
    assert Authenticate(s.1, name, password) == Some(|db.users|);
  }

  /** An accepted sign-up appends the stripped name and password under a
      name no earlier account has, and gives it a blank profile. */
  lemma SignupStoresStripped(db: Db, data: Form, issue: nat -> Tokens)
    requires Consistent(db) && HasSignupFields(data)
    requires Signup(db, data, map[], issue).0.Registered?
    ensures var s, n := Signup(db, data, map[], issue), |db.users|;
      && |s.1.users| == n + 1 && s.1.users[..n] == db.users
      && s.1.users[n].username == PyStrip(data["username"])
      && s.1.users[n].password == PyStrip(data["password"])
      && !UsernameTaken(db, PyStrip(data["username"]))
      && s.1.profiles == db.profiles[n := BlankProfile]
  {
    var c := Cleaned(data, SignupDeclared);
    assert SignupAccepted(db, data, map[]);
    assert c["username"] == PyStrip(data["username"]);
  }

  /** A name no earlier account has, appended with its password, is found
      by `authenticate` at the appended position. */
  lemma NewNameAuthenticates(before: Db, after: Db, name: string, password: string)
    requires |after.users| == |before.users| + 1 && after.users[..|before.users|] == before.users
    requires after.users[|before.users|].username == name
    requires after.users[|before.users|].password == password
    requires !UsernameTaken(before, name)
    ensures Authenticate(after, name, password) == Some(|before.users|)
  {
    var n := |before.users|;
    forall i | 0 <= i < n
      ensures after.users[i].username != name
    {
      assert after.users[i] == after.users[..n][i];
    }
  }

  // --------------------------------------------------------- profile update

  const ProfileMissing := "User profile not found"

  datatype UpdateReply = Updated(user: Account, profile: Profile) | NoProfile
  {
    function Status(): int {
      if Updated? then Ok else NotFound
    }
    function Message(): string {
      if Updated? then "Profile updated successfully" else ProfileMissing
    }
  }

  /** The request's value for `k` when it sends one, else the current value. */
  function Pick(data: Form, k: string, current: string): (r: string)
    ensures k in data ==> r == data[k]
    ensures k !in data ==> r == current
  {
    if k in data then data[k] else current
  }

  /** The user fields the update reads: first name, last name and email. */
  function UpdatedAccount(a: Account, data: Form): (r: Account)
    ensures r.username == a.username && r.password == a.password
    ensures r.firstName == Pick(data, "first_name", a.firstName)
    ensures r.lastName == Pick(data, "last_name", a.lastName)
    ensures r.email == Pick(data, "email", a.email)
  {
    a.(firstName := Pick(data, "first_name", a.firstName),
       lastName := Pick(data, "last_name", a.lastName),
       email := Pick(data, "email", a.email))
  }

  /** The profile fields `update_profile_view` reads as written: phone,
      address, city and country. It also reads `postal_code`, which is no
      field of the profile, so that value is set on the object and never
      stored; `state` and `zipcode` are never read. */
  function AsWrittenProfile(p: Profile, data: Form): (r: Profile)
    ensures r.phone == Pick(data, "phone", p.phone)
    ensures r.address == Pick(data, "address", p.address)
    ensures r.city == Pick(data, "city", p.city)
    ensures r.country == Pick(data, "country", p.country)
    ensures r.state == p.state && r.zipcode == p.zipcode
  {
    p.(phone := Pick(data, "phone", p.phone),
       address := Pick(data, "address", p.address),
       city := Pick(data, "city", p.city),
       country := Pick(data, "country", p.country))
  }

  /** The profile update the profile page relies on: every profile field the
      page sends, `state` and `zipcode` included, is stored. */
  function UpdatedProfile(p: Profile, data: Form): (r: Profile)
    ensures r.phone == Pick(data, "phone", p.phone)
    ensures r.address == Pick(data, "address", p.address)
    ensures r.city == Pick(data, "city", p.city)
    ensures r.state == Pick(data, "state", p.state)
    ensures r.zipcode == Pick(data, "zipcode", p.zipcode)
    ensures r.country == Pick(data, "country", p.country)
  {
    AsWrittenProfile(p, data).(state := Pick(data, "state", p.state),
                               zipcode := Pick(data, "zipcode", p.zipcode))
  }

  /** The view around either profile rule: the profile is fetched first, so
      a user without one gets 404 and nothing is written; otherwise only the
      signed-in user's row and profile change. */
  predicate UpdateShape(db: Db, id: nat, r: (UpdateReply, Db))
    requires id < |db.users|
  {
    && (id !in db.profiles <==> r.0 == NoProfile)
    && (id !in db.profiles ==> r.1 == db)
    && |r.1.users| == |db.users| && r.1.profiles.Keys == db.profiles.Keys
    && (forall i :: 0 <= i < |db.users| && i != id ==> r.1.users[i] == db.users[i])
    && (forall j :: j in db.profiles && j != id ==> r.1.profiles[j] == db.profiles[j])
    && (r.0.Updated? ==> r.1.users[id] == r.0.user && r.1.profiles[id] == r.0.profile)
  }

  /** `update_profile_view` as written, for the signed-in user `id`. */
  function UpdateProfileAsWritten(db: Db, id: nat, data: Form): (r: (UpdateReply, Db))
    requires id < |db.users|
    ensures UpdateShape(db, id, r)
    ensures r.0.Updated? ==>
      && r.0.user == UpdatedAccount(db.users[id], data)
      && r.0.profile == AsWrittenProfile(db.profiles[id], data)
  {
    if id !in db.profiles then (NoProfile, db)
    else
      var user := UpdatedAccount(db.users[id], data);
      var profile := AsWrittenProfile(db.profiles[id], data);
      (Updated(user, profile), Db(db.users[id := user], db.profiles[id := profile]))
  }

  /** The profile update with `state` and `zipcode` stored. */
  function UpdateProfile(db: Db, id: nat, data: Form): (r: (UpdateReply, Db))
    requires id < |db.users|
    ensures UpdateShape(db, id, r)
    ensures r.0.Updated? ==>
      && r.0.user == UpdatedAccount(db.users[id], data)
      && r.0.profile == UpdatedProfile(db.profiles[id], data)
  {
    if id !in db.profiles then (NoProfile, db)
    else
      var user := UpdatedAccount(db.users[id], data);
      var profile := UpdatedProfile(db.profiles[id], data);
      (Updated(user, profile), Db(db.users[id := user], db.profiles[id := profile]))
  }

  /** An empty request changes nothing, and sending the same fields twice is
      the same as sending them once. */
  lemma UpdateIsIdempotent(db: Db, id: nat, data: Form)
    requires id < |db.users|
    ensures UpdateProfile(db, id, map[]).1 == db
    ensures var once := UpdateProfile(db, id, data).1;
            UpdateProfile(once, id, data).1 == once
  {
  }

  /** The two rules agree on every request that sends neither `state` nor
      `zipcode`. */
  lemma AgreeWithoutStateOrZip(db: Db, id: nat, data: Form)
    requires id < |db.users|
    requires "state" !in data && "zipcode" !in data
    ensures UpdateProfileAsWritten(db, id, data) == UpdateProfile(db, id, data)
  {
  }

  /** The profile page sends `state` and `zipcode`; as written the server
      answers 200 and keeps the old values, while the corrected rule stores
      them. */
  lemma StateAndZipAreDropped()
    ensures var db := Db([Account("ana", "ana@example.com", "pw", "", "")], map[0 := BlankProfile]);
            var data := map["city" := "Lyon", "state" := "Rhone", "zipcode" := "69001"];
            && UpdateProfileAsWritten(db, 0, data).0.Status() == Ok
            && UpdateProfileAsWritten(db, 0, data).1.profiles[0] == BlankProfile.(city := "Lyon")
            && UpdateProfile(db, 0, data).1.profiles[0]
               == BlankProfile.(city := "Lyon", state := "Rhone", zipcode := "69001")
  {
  }
}

=== FILE: cart.dfy ===
/** The storefront's client-side cart: an ordered list of lines, one per
    product id, changed by add, set-quantity, remove and clear, and read through
    its total and its badge count. The three App variants of the front end
    carry the same handlers; this module is their common model. */
module CartEngine {
  import opened Wrappers

  /** The product fields the cart copies when a product is added. */
  datatype Product = Product(id: int, name: string, price: real)

  /** A cart line: the product's fields plus the quantity. */
  datatype Line = Line(id: int, name: string, price: real, quantity: int)

  type Cart = seq<Line>

  predicate HasId(c: Cart, id: int) {
    exists i :: 0 <= i < |c| && c[i].id == id
  }

  /** No two lines share a product id. */
  predicate UniqueIds(c: Cart) {
    forall i, j :: 0 <= i < j < |c| ==> c[i].id != c[j].id
  }

  /** No line is kept with a quantity below one. */
  predicate PositiveQuantities(c: Cart) {
    forall i :: 0 <= i < |c| ==> c[i].quantity >= 1
  }

  /** The cart invariant every mutation keeps. */
  predicate Valid(c: Cart) {
    UniqueIds(c) && PositiveQuantities(c)
  }

  /** `cart.find(item => item.id === id)`: the first line with that id. */
  function Find(c: Cart, id: int): (r: Option<Line>)
    ensures r.Some? <==> HasId(c, id)
    ensures r.Some? ==> r.value in c && r.value.id == id
  {
    if |c| == 0 then None
    else if c[0].id == id then Some(c[0])
    else
      var r := Find(c[1..], id);
      assert HasId(c, id) ==> HasId(c[1..], id) by {
        if HasId(c, id) {
          var i :| 0 <= i < |c| && c[i].id == id;
          assert c[1..][i - 1].id == id;
        }
      }
      r
  }

  /** The quantity held for a product; 0 when no line has its id. */
  function QuantityOf(c: Cart, id: int): int {
    match Find(c, id)
    case None => 0
    case Some(l) => l.quantity
  }

  /** Applies `f` to every line with the given id, leaving the others alone. */
  function UpdateLines(c: Cart, id: int, f: Line -> Line): (r: Cart)
    ensures |r| == |c|
    ensures forall i :: 0 <= i < |c| ==> r[i] == (if c[i].id == id then f(c[i]) else c[i])
  {
    if |c| == 0 then [] else [if c[0].id == id then f(c[0]) else c[0]] + UpdateLines(c[1..], id, f)
  }

  /** `cart.filter(item => item.id !== id)`. */
  function Remove(c: Cart, id: int): (r: Cart)
    ensures !HasId(r, id)
    ensures forall x :: x in r ==> x in c
    ensures !HasId(c, id) ==> r == c
    ensures Valid(c) ==> Valid(r)
  {
    if |c| == 0 then []
    else
      var rest := Remove(c[1..], id);
      assert c == [c[0]] + c[1..];
      assert HasId(c[1..], id) ==> HasId(c, id) by {
        if HasId(c[1..], id) {
          var i :| 0 <= i < |c[1..]| && c[1..][i].id == id;
          assert c[i + 1].id == id;
        }
      }
      assert Valid(c) ==> Valid([c[0]] + rest) by {
        if Valid(c) {
          HeadNotInTail(c);
          forall k | 0 <= k < |rest| ensures rest[k].id != c[0].id {
            assert rest[k] in c[1..];
          }
        }
      }
      (if c[0].id == id then [] else [c[0]]) + rest
  }

  /** In a cart with unique ids the first line's id does not occur again. */
  lemma HeadNotInTail(c: Cart)
    requires |c| > 0 && UniqueIds(c)
    ensures !HasId(c[1..], c[0].id)
    ensures UniqueIds(c[1..])
  {
    forall i | 0 <= i < |c[1..]| ensures c[1..][i].id != c[0].id {
      assert c[1..][i] == c[i + 1];
    }
  }

  function OneMore(l: Line): Line {
    l.(quantity := l.quantity + 1)
  }

  /** Add-to-cart: an existing line for the product gets one more unit; a new
      product gets a fresh line of quantity 1 at the end. */
  function Add(c: Cart, p: Product): (r: Cart)
    ensures HasId(c, p.id) ==> |r| == |c| && forall i :: 0 <= i < |c| ==>
      r[i] == (if c[i].id == p.id then c[i].(quantity := c[i].quantity + 1) else c[i])
    ensures !HasId(c, p.id) ==> r == c + [Line(p.id, p.name, p.price, 1)]
    ensures Valid(c) ==> Valid(r)
  {
    if Find(c, p.id).Some? then UpdateLines(c, p.id, OneMore)
    else c + [Line(p.id, p.name, p.price, 1)]
  }

  /** The quantity-change handler: zero or less removes the line, anything else
      becomes the line's new quantity (an absolute value, not a delta). */
  function SetQuantity(c: Cart, id: int, q: int): (r: Cart)
    ensures q <= 0 ==> r == Remove(c, id)
    ensures q > 0 ==> |r| == |c| && forall i :: 0 <= i < |c| ==>
      r[i] == (if c[i].id == id then c[i].(quantity := q) else c[i])
    ensures Valid(c) ==> Valid(r)
  {
    if q <= 0 then Remove(c, id) else UpdateLines(c, id, (l: Line) => l.(quantity := q))
  }

  /** What one line contributes to the total: unit price times quantity. */
  function Subtotal(l: Line): real {
    l.price * l.quantity as real
  }

  /** Sum of the line subtotals. */
  function Total(c: Cart): real {
    if |c| == 0 then 0.0 else Subtotal(c[0]) + Total(c[1..])
  }

  lemma OneMoreSubtotal(l: Line)
    ensures Subtotal(OneMore(l)) == Subtotal(l) + l.price
  {
  }

  /** The cart badge: the number of lines. */
  function LineCount(c: Cart): nat {
    |c|
  }

  /** The product ids present in the cart. */
  function Ids(c: Cart): set<int> {
    if |c| == 0 then {} else {c[0].id} + Ids(c[1..])
  }

  lemma {:induction false} IdsHasId(c: Cart, id: int)
    ensures id in Ids(c) <==> HasId(c, id)
  {
    if |c| > 0 {
      IdsHasId(c[1..], id);
      if HasId(c, id) && c[0].id != id {
        var i :| 0 <= i < |c| && c[i].id == id;
        assert c[1..][i - 1].id == id;
      }
    }
  }

  /** In a valid cart the badge counts distinct products, not units. */
  lemma {:induction false} BadgeCountsDistinctProducts(c: Cart)
    requires UniqueIds(c)
    ensures LineCount(c) == |Ids(c)|
  {
    if |c| > 0 {
      BadgeCountsDistinctProducts(c[1..]);
      IdsHasId(c[1..], c[0].id);
      HeadNotInTail(c);
    }
  }

  /** The badge and the number of units differ as soon as one line holds two. */
  lemma BadgeIsNotUnitCount()
    ensures var c := Add(Add([], Product(7, "Bamboo brush", 3.5)), Product(7, "Bamboo brush", 3.5));
      LineCount(c) == 1 && QuantityOf(c, 7) == 2
  {
    var p := Product(7, "Bamboo brush", 3.5);
    var c1 := Add([], p);
    assert c1 == [Line(7, "Bamboo brush", 3.5, 1)];
    assert HasId(c1, 7) by { assert c1[0].id == 7; }
  }

  lemma {:induction false} TotalAppend(a: Cart, b: Cart)
    ensures Total(a + b) == Total(a) + Total(b)
  {
    if |a| > 0 {
      assert (a + b)[0] == a[0];
      assert (a + b)[1..] == a[1..] + b;
      TotalAppend(a[1..], b);
    } else {
      assert a + b == b;
    }
  }

  /** Adding a product raises the total by exactly one unit price: the new
      product's price, or the price already recorded on its line. */
  lemma {:induction false} AddRaisesTotal(c: Cart, p: Product)
    requires UniqueIds(c)
    ensures !HasId(c, p.id) ==> Total(Add(c, p)) == Total(c) + p.price
    ensures HasId(c, p.id) ==> Total(Add(c, p)) == Total(c) + Find(c, p.id).value.price
  {
    if HasId(c, p.id) {
      BumpTotal(c, p.id);
    } else {
      TotalAppend(c, [Line(p.id, p.name, p.price, 1)]);
    }
  }

  lemma {:induction false} BumpTotal(c: Cart, id: int)
    requires UniqueIds(c) && HasId(c, id)
    ensures Total(UpdateLines(c, id, OneMore)) == Total(c) + Find(c, id).value.price
  {
    var r := UpdateLines(c, id, OneMore);
    var rest := UpdateLines(c[1..], id, OneMore);
    assert r == [if c[0].id == id then OneMore(c[0]) else c[0]] + rest;
    assert r[1..] == rest;
    HeadNotInTail(c);
    if c[0].id == id {
      UpdateAbsent(c[1..], id, OneMore);
      assert Find(c, id) == Some(c[0]);
      OneMoreSubtotal(c[0]);
      assert Total(r) == Subtotal(OneMore(c[0])) + Total(c[1..]);
    } else {
      var i :| 0 <= i < |c| && c[i].id == id;
      assert c[1..][i - 1].id == id;
      BumpTotal(c[1..], id);
      assert Find(c, id) == Find(c[1..], id);
    }
  }

  lemma UpdateAbsent(c: Cart, id: int, f: Line -> Line)
    requires !HasId(c, id)
    ensures UpdateLines(c, id, f) == c
  {
    var r := UpdateLines(c, id, f);
    forall i | 0 <= i < |c| ensures r[i] == c[i] {
      assert c[i].id != id;
    }
  }

  /** Removing a product lowers the total by exactly that line's subtotal. */
  lemma {:induction false} RemoveLowersTotal(c: Cart, id: int)
    requires UniqueIds(c)
    ensures Total(Remove(c, id)) == Total(c) - (match Find(c, id)
      case None => 0.0
      case Some(l) => Subtotal(l))
  {
    if |c| > 0 {
      HeadNotInTail(c);
      RemoveLowersTotal(c[1..], id);
      var rest := Remove(c[1..], id);
      if c[0].id != id {
        assert Remove(c, id) == [c[0]] + rest;
        assert ([c[0]] + rest)[1..] == rest;
      } else {
        assert rest == c[1..];
        assert Remove(c, id) == rest;
        assert Find(c, id) == Some(c[0]);
      }
    }
  }

  /** Remove distributes over concatenation ... */
  lemma {:induction false} RemoveAppend(a: Cart, b: Cart, id: int)
    ensures Remove(a + b, id) == Remove(a, id) + Remove(b, id)
  {
    if |a| > 0 {
      var h := if a[0].id == id then [] else [a[0]];
      var t, ab := a[1..], a + b;
      assert ab[0] == a[0] && ab[1..] == t + b;
      var rt, rb := Remove(t, id), Remove(b, id);
      RemoveAppend(t, b, id);
      assert Remove(ab, id) == h + (rt + rb);
      assert Remove(a, id) == h + rt;
      assert h + (rt + rb) == (h + rt) + rb;
    } else {
      assert a + b == b;
    }
  }

  /** ... and keeps a single line exactly when its id differs: together with
      RemoveAppend this pins Remove down as the order-preserving filter. */
  lemma RemoveSingle(x: Line, id: int)
    ensures Remove([x], id) == (if x.id == id then [] else [x])
  {
  }

  /** Removing twice is removing once. */
  lemma {:induction false} RemoveIdempotent(c: Cart, id: int)
    ensures Remove(Remove(c, id), id) == Remove(c, id)
  {
    var r := Remove(c, id);
    assert !HasId(r, id);
  }

  /** After a quantity change the line holds exactly the requested quantity,
      or is gone when that quantity is not positive. */
  lemma {:induction false} SetQuantityIsAbsolute(c: Cart, id: int, q: int)
    requires UniqueIds(c) && HasId(c, id)
    ensures q > 0 ==> QuantityOf(SetQuantity(c, id, q), id) == q
    ensures q <= 0 ==> !HasId(SetQuantity(c, id, q), id)
  {
    if q > 0 {
      var r := SetQuantity(c, id, q);
      var i :| 0 <= i < |c| && c[i].id == id;
      assert r[i].id == id;
      assert UniqueIds(r) by {
        forall a, b | 0 <= a < b < |r| ensures r[a].id != r[b].id {
          assert r[a].id == c[a].id && r[b].id == c[b].id;
        }
      }
    }
  }

  /** Looking a product up after an update sees the updated line. */
  lemma {:induction false} FindAfterUpdate(c: Cart, id: int, f: Line -> Line, x: int)
    requires forall l: Line :: f(l).id == l.id
    ensures Find(UpdateLines(c, id, f), x) == (match Find(c, x)
      case None => None
      case Some(l) => Some(if l.id == id then f(l) else l))
  {
    if |c| > 0 {
      var r := UpdateLines(c, id, f);
      assert r[1..] == UpdateLines(c[1..], id, f);
      FindAfterUpdate(c[1..], id, f, x);
    }
  }

  /** Looking a product up after appending a line. */
  lemma {:induction false} FindAfterAppend(c: Cart, l: Line, x: int)
    ensures Find(c + [l], x) == (if HasId(c, x) then Find(c, x) else if l.id == x then Some(l) else None)
  {
    if |c| > 0 {
      assert (c + [l])[1..] == c[1..] + [l];
      FindAfterAppend(c[1..], l, x);
      assert HasId(c, x) <==> c[0].id == x || HasId(c[1..], x) by {
        if HasId(c, x) && c[0].id != x {
          var i :| 0 <= i < |c| && c[i].id == x;
          assert c[1..][i - 1].id == x;
        }
        if HasId(c[1..], x) {
          var i :| 0 <= i < |c[1..]| && c[1..][i].id == x;
          assert c[i + 1].id == x;
        }
      }
    } else {
      assert c + [l] == [l];
    }
  }

  /** Add-to-cart raises the added product's quantity by one and leaves every
      other product's quantity as it was. */
  lemma AddChangesOnlyItsProduct(c: Cart, p: Product, other: int)
    ensures QuantityOf(Add(c, p), p.id) == QuantityOf(c, p.id) + 1
    ensures other != p.id ==> QuantityOf(Add(c, p), other) == QuantityOf(c, other)
  {
    if HasId(c, p.id) {
      FindAfterUpdate(c, p.id, OneMore, p.id);
      FindAfterUpdate(c, p.id, OneMore, other);
    } else {
      FindAfterAppend(c, Line(p.id, p.name, p.price, 1), p.id);
      FindAfterAppend(c, Line(p.id, p.name, p.price, 1), other);
    }
  }

  /** Looking another product up after a removal sees what it saw before. */
  lemma {:induction false} FindAfterRemove(c: Cart, id: int, x: int)
    requires x != id
    ensures Find(Remove(c, id), x) == Find(c, x)
  {
    if |c| > 0 {
      FindAfterRemove(c[1..], id, x);
      var rest := Remove(c[1..], id);
      if c[0].id != id {
        assert Remove(c, id) == [c[0]] + rest;
        assert ([c[0]] + rest)[1..] == rest;
      } else {
        assert Remove(c, id) == rest;
      }
    }
  }

  /** A quantity change sets the changed product's quantity to the requested
      positive value and leaves every other product's quantity as it was. */
  lemma SetQuantityChangesOnlyItsProduct(c: Cart, id: int, q: int)
    ensures q > 0 && HasId(c, id) ==> QuantityOf(SetQuantity(c, id, q), id) == q
    ensures forall other :: other != id ==> QuantityOf(SetQuantity(c, id, q), other) == QuantityOf(c, other)
  {
    var f := (l: Line) => l.(quantity := q);
    if q > 0 {
      assert SetQuantity(c, id, q) == UpdateLines(c, id, f);
      FindAfterUpdate(c, id, f, id);
    }
    forall other | other != id
      ensures QuantityOf(SetQuantity(c, id, q), other) == QuantityOf(c, other)
    {
      if q > 0 {
        FindAfterUpdate(c, id, f, other);
      } else {
        FindAfterRemove(c, id, other);
      }
    }
  }

  /** The cart operations a user can trigger. */
  datatype CartOp = AddOp(p: Product) | SetQuantityOp(id: int, q: int) | RemoveOp(id: int)

  function Step(c: Cart, op: CartOp): Cart {
    match op
    case AddOp(p) => Add(c, p)
    case SetQuantityOp(id, q) => SetQuantity(c, id, q)
    case RemoveOp(id) => Remove(c, id)
  }

  function Run(c: Cart, ops: seq<CartOp>): Cart
    decreases |ops|
  {
    if |ops| == 0 then c else Run(Step(c, ops[0]), ops[1..])
  }

  /** Any sequence of cart operations from the empty cart leaves ids unique
      and every quantity positive. */
  lemma {:induction false} RunKeepsValid(c: Cart, ops: seq<CartOp>)
    requires Valid(c)
    ensures Valid(Run(c, ops))
    decreases |ops|
  {
    if |ops| > 0 {
      RunKeepsValid(Step(c, ops[0]), ops[1..]);
    }
  }

  /** Adding a product twice gives one line of quantity two, whose subtotal the
      total reflects; with a second product the total sums both subtotals. */
  lemma TotalExample()
    ensures var c := Add(Add(Add([], Product(1, "Tote", 10.0)), Product(1, "Tote", 10.0)), Product(2, "Soap", 3.5));
      |c| == 2 && c[0].quantity == 2 && Total(c) == 23.5
  {
    var c1 := Add([], Product(1, "Tote", 10.0));
    assert HasId(c1, 1) by { assert c1[0].id == 1; }
    var c2 := Add(c1, Product(1, "Tote", 10.0));
    assert c2 == [Line(1, "Tote", 10.0, 2)];
    assert !HasId(c2, 2);
  }
}

=== FILE: checkout_form.dfy ===
/** The checkout page: nine required shipping and contact fields, validation
    into an error map, the order request built from five of them, and the
    handling of the order service's answer. The service is a parameter: the
    answer it gives for the shipping data the page sends. */
module CheckoutForm {
  import opened Wrappers
  import opened Text
  import opened Sums
  import opened CartEngine
  import opened Forms

  /** Each required field with the message shown when it is blank. */
  const Required: map<string, string> := map[
    "firstName" := "First name is required",
    "lastName" := "Last name is required",
    "email" := "Email is required",
    "phone" := "Phone is required",
    "address" := "Address is required",
    "city" := "City is required",
    "state" := "State is required",
    "zipcode" := "Zipcode is required",
    "country" := "Country is required"]

  /** The page's initial form: every required field present and empty. */
  function InitialForm(): (f: Form)
    ensures f.Keys == Required.Keys
    ensures forall k :: k in f ==> f[k] == ""
  {
    map k | k in Required :: ""
  }

  /** validateForm: one error per blank required field, under that field's
      key and with that field's message, and nothing else. */
  function Validate(form: Form): (errors: Errors)
    ensures forall k :: k in errors <==> k in Required && AllSpace(Value(form, k), IsJsSpace)
    ensures forall k :: k in errors ==> errors[k] == Required[k]
  {
    var r := map k | k in Required && Blank(Value(form, k)) :: Required[k];
    forall k | k in Required
      ensures Blank(Value(form, k)) <==> AllSpace(Value(form, k), IsJsSpace)
    {
      BlankIffAllSpace(Value(form, k));
    }
    r
  }

  /** The form is valid exactly when no required field is blank. */
  lemma ValidIffFilled(form: Form)
    ensures |Validate(form)| == 0 <==>
      forall k :: k in Required ==> !AllSpace(Value(form, k), IsJsSpace)
  {
    var e := Validate(form);
    if |e| != 0 {
      var k :| k in e;
      assert k in Required && AllSpace(Value(form, k), IsJsSpace);
    } else {
      assert e.Keys == {};
    }
  }

  /** The untouched form fails on every one of the nine fields. */
  lemma InitialFormFailsEverywhere()
    ensures Validate(InitialForm()).Keys == Required.Keys
  {
    var f := InitialForm();
    forall k | k in Required
      ensures AllSpace(Value(f, k), IsJsSpace)
    {
      assert Value(f, k) == "";
    }
  }

  /** The shipping part of the order request. */
  datatype Shipping = Shipping(address: string, city: string, state: string, zipcode: string, country: string)

  function ShippingOf(form: Form): (s: Shipping)
    ensures s.address == Value(form, "address") && s.city == Value(form, "city")
    ensures s.state == Value(form, "state") && s.zipcode == Value(form, "zipcode")
    ensures s.country == Value(form, "country")
  {
    Shipping(Value(form, "address"), Value(form, "city"), Value(form, "state"),
             Value(form, "zipcode"), Value(form, "country"))
  }

  /** The order service's answer: the created order's id, a non-success
      answer with an optional error text, or a thrown request. */
  datatype OrderAnswer = Created(order: int) | Refused(error: Option<string>) | Threw

  datatype CheckoutState = CheckoutState(form: Form, errors: Errors, placed: bool)

  /** What submitting did: the new page state, the shipping data sent (if a
      request was made) and the order handed to the App (if any). */
  datatype Submission = Submission(state: CheckoutState, sent: Option<Shipping>, forwarded: Option<int>)

  const RefusedDefault: string := "Failed to place order"
  const ThrownMessage: string := "Failed to place order. Please try again."

  /** handleSubmit: validation first; an invalid form sends nothing. A valid
      form sends its shipping data; success marks the order placed and hands
      it on, anything else sets the single `submit` error. */
  function Submit(st: CheckoutState, service: Shipping -> OrderAnswer): (r: Submission)
    ensures r.state.form == st.form
    ensures r.sent.Some? <==> |Validate(st.form)| == 0
    ensures r.sent.None? ==> r.state == st.(errors := Validate(st.form)) && r.forwarded.None?
    ensures r.sent.Some? ==> r.sent.value == ShippingOf(st.form)
    ensures r.forwarded.Some? <==> r.sent.Some? && service(r.sent.value).Created?
    ensures r.state.placed == (st.placed || r.forwarded.Some?)
    ensures r.sent.Some? && service(r.sent.value).Created? ==>
      r.forwarded == Some(service(r.sent.value).order) && r.state.errors == map[]
    ensures r.sent.Some? && service(r.sent.value).Refused? ==>
      r.state.errors == map["submit" := OrDefault(service(r.sent.value).error, RefusedDefault)]
    ensures r.sent.Some? && service(r.sent.value).Threw? ==>
      r.state.errors == map["submit" := ThrownMessage]
  {
    var errors := Validate(st.form);
    if |errors| != 0 then Submission(st.(errors := errors), None, None)
    else
      var shipping := ShippingOf(st.form);
      match service(shipping)
      case Created(order) => Submission(st.(errors := errors, placed := true), Some(shipping), Some(order))
      case Refused(e) => Submission(st.(errors := map["submit" := OrDefault(e, RefusedDefault)]), Some(shipping), None)
      case Threw => Submission(st.(errors := map["submit" := ThrownMessage]), Some(shipping), None)
  }

  /** handleChange: the field takes the new text and only its own error is
      cleared. */
  function Change(st: CheckoutState, name: string, text: string): (r: CheckoutState)
    ensures Value(r.form, name) == text
    ensures !Shown(r.errors, name)
    ensures forall k :: k != name ==> Value(r.form, k) == Value(st.form, k)
    ensures forall k :: k != name ==> (k in r.errors <==> k in st.errors)
    ensures forall k :: k != name && k in r.errors ==> r.errors[k] == st.errors[k]
    ensures r.placed == st.placed
  {
    st.(form := Edit(st.form, name, text), errors := ClearOnEdit(st.errors, name))
  }

  /** A blank required field blocks the order: nothing is sent and that
      field's error is shown. */
  lemma BlankFieldBlocksOrder(st: CheckoutState, service: Shipping -> OrderAnswer, k: string)
    requires k in Required && AllSpace(Value(st.form, k), IsJsSpace)
    ensures var r := Submit(st, service);
      r.sent.None? && r.forwarded.None? && Shown(r.state.errors, k)
  {
    var e := Validate(st.form);
    assert k in e;
    assert |e| != 0;
    assert e[k] == Required[k];
    MessagesNonEmpty();
  }

  lemma MessagesNonEmpty()
    ensures forall k :: k in Required ==> Required[k] != ""
  {
  }

  /** The amount each summary line shows: its price times its quantity. */
  function LineAmounts(cart: Cart): (a: seq<real>)
    ensures |a| == |cart|
    ensures forall i :: 0 <= i < |cart| ==> a[i] == cart[i].price * cart[i].quantity as real
  {
    seq(|cart|, i requires 0 <= i < |cart| => Subtotal(cart[i]))
  }

  /** The summary's total is the sum of the amounts its lines show, and equals
      the App's cart total. */
  lemma {:induction false} SummaryAddsUp(cart: Cart)
    ensures Sum(LineAmounts(cart)) == Total(cart)
  {
    if |cart| > 0 {
      SummaryAddsUp(cart[1..]);
      assert LineAmounts(cart)[1..] == LineAmounts(cart[1..]);
    }
  }
}

=== FILE: client_app.dfy ===
/** The App component's state machine: the page shown, the cart, the session,
    the current search results and the featured-product carousel, and the
    handlers that move between them. Network calls are replaced by their
    responses, passed in as values. */
module ClientApp {
  import opened Wrappers
  import opened Text
  import opened CartEngine
  import opened SessionStore

  datatype Page =
    | Home | SearchPage | LoginPage | SignupPage | CartPage | CheckoutPage
    | TrendingPage | VisualPage | ProfilePage | ProductPage(productId: int)

  /** One search hit as the results page receives it. */
  datatype MatchItem = MatchItem(product: Product, score: real, explanation: string)

  /** Search results: category label to hits, in display order. */
  type SearchResults = seq<(string, seq<MatchItem>)>

  /** One hit of the visual search endpoint. */
  datatype VisualHit = VisualHit(product: Product, score: real)

  datatype AppState = AppState(
    page: Page,
    cart: Cart,
    session: Session,
    storage: Storage,
    results: Option<SearchResults>,
    carousel: int)

  /** What an awaited API call produced. */
  datatype Response<T> = Ok(data: T) | NotOk | Threw

  const VisualCategory: string := "Visual Search Results"

  /** The label shown under a visual hit. */
  function SimilarityLabel(score: real): string {
    "Similarity: " + ToFixed1(score * 100.0) + "%"
  }

  /** The label reads back as the similarity percentage rounded to one decimal. */
  lemma {:induction false} SimilarityLabelReadsBack(score: real)
    ensures var l := SimilarityLabel(score);
      && |l| > 13 && l[..12] == "Similarity: " && l[|l| - 1] == '%'
      && var t := l[12..|l| - 1];
         && (IsUnsignedFixed1(t) || (|t| > 0 && t[0] == '-' && IsUnsignedFixed1(t[1..])))
         && ParseFixed1(t) == Round1(score * 100.0)
         && score * 100.0 - 1.0 / 20.0 <= ParseFixed1(t) <= score * 100.0 + 1.0 / 20.0
  {
    var t := ToFixed1(score * 100.0);
    ToFixed1RoundTrip(score * 100.0);
    Round1Close(score * 100.0);
    var l := SimilarityLabel(score);
    assert l[12..|l| - 1] == t;
  }

  lemma SimilarityLabelExample()
    ensures SimilarityLabel(0.8734) == "Similarity: 87.3%"
  {
    assert TenthsOf(87.34) == 873;
  }

  /** The visual search response becomes a single synthetic category holding
      one hit per input item, in input order, each with its similarity label. */
  function VisualResults(hits: seq<VisualHit>): (r: SearchResults)
    ensures |r| == 1 && r[0].0 == VisualCategory && |r[0].1| == |hits|
    ensures forall i :: 0 <= i < |hits| ==>
      && r[0].1[i].product == hits[i].product && r[0].1[i].score == hits[i].score
      && r[0].1[i].explanation == SimilarityLabel(hits[i].score)
  {
    [(VisualCategory, seq(|hits|, i requires 0 <= i < |hits| =>
      MatchItem(hits[i].product, hits[i].score, SimilarityLabel(hits[i].score))))]
  }

  /** On the results page each visual hit's explanation reads back as its
      similarity percentage, rounded to one decimal. */
  lemma {:induction false} VisualExplanationReadsBack(hits: seq<VisualHit>, i: nat)
    requires i < |hits|
    ensures var l := VisualResults(hits)[0].1[i].explanation;
      && |l| > 13 && l[..12] == "Similarity: " && l[|l| - 1] == '%'
      && ParseFixed1(l[12..|l| - 1]) == Round1(hits[i].score * 100.0)
  {
    SimilarityLabelReadsBack(hits[i].score);
  }

  /** The search form handler: a blank query does nothing; otherwise a
      successful response replaces the results and shows them. A failed or
      thrown request leaves the state alone (it only raises an alert). */
  function Search(s: AppState, query: string, response: Response<SearchResults>): (r: AppState)
    ensures AllSpace(query, IsJsSpace) ==> r == s
    ensures !response.Ok? ==> r == s
    ensures !AllSpace(query, IsJsSpace) && response.Ok? ==>
      r == s.(results := Some(response.data), page := SearchPage)
  {
    StripEmptyIffBlank(query, IsJsSpace);
    if JsTrim(query) == "" then s
    else match response
      case Ok(results) => s.(results := Some(results), page := SearchPage)
      case _ => s
  }

  /** The image upload handler: no file does nothing; a successful response is
      shaped into the single visual category and shown. */
  function VisualSearch(s: AppState, hasFile: bool, response: Response<seq<VisualHit>>): (r: AppState)
    ensures !hasFile || !response.Ok? ==> r == s
    ensures hasFile && response.Ok? ==>
      && r.page == SearchPage && r.results.Some?
      && |r.results.value| == 1 && r.results.value[0].0 == VisualCategory
      && |r.results.value[0].1| == |response.data|
      && forall i :: 0 <= i < |response.data| ==>
        var m := r.results.value[0].1[i];
        && m.product == response.data[i].product && m.score == response.data[i].score
        && m.explanation == SimilarityLabel(response.data[i].score)
    ensures r.(results := s.results, page := s.page) == s
  {
    if !hasFile then s
    else match response
      case Ok(hits) => s.(results := Some(VisualResults(hits)), page := SearchPage)
      case _ => s
  }

  function AddToCart(s: AppState, p: Product): (r: AppState)
    ensures Valid(s.cart) ==> Valid(r.cart)
    ensures QuantityOf(r.cart, p.id) == QuantityOf(s.cart, p.id) + 1
    ensures r.(cart := s.cart) == s
  {
    AddChangesOnlyItsProduct(s.cart, p, p.id);
    s.(cart := Add(s.cart, p))
  }

  function CartQuantityChange(s: AppState, id: int, q: int): (r: AppState)
    ensures Valid(s.cart) ==> Valid(r.cart)
    ensures q <= 0 ==> !HasId(r.cart, id)
    ensures q > 0 && HasId(s.cart, id) ==> QuantityOf(r.cart, id) == q
    ensures forall j :: j != id ==> QuantityOf(r.cart, j) == QuantityOf(s.cart, j)
    ensures r.(cart := s.cart) == s
  {
    SetQuantityChangesOnlyItsProduct(s.cart, id, q);
    s.(cart := SetQuantity(s.cart, id, q))
  }

  function RemoveFromCart(s: AppState, id: int): (r: AppState)
    ensures Valid(s.cart) ==> Valid(r.cart)
    ensures !HasId(r.cart, id)
    ensures r.(cart := s.cart) == s
  {
    s.(cart := Remove(s.cart, id))
  }

  /** The App's start: token read at the first render, then checkUserSession. */
  function Start(st: Storage, parse: string -> Option<User>): (r: Result<AppState, string>)
    ensures r.Success? ==> r.value.cart == [] && r.value.storage == st && r.value.page == Home
    ensures r.Success? && r.value.session.user.Some? ==>
      Truthy(Get(st, AuthTokenKey)) && Truthy(Get(st, UserKey))
    ensures r.Failure? <==> Hydrate(Initial(st), st, parse).Failure?
    ensures r.Success? ==> Hydrate(Initial(st), st, parse) == Success(r.value.session)
  {
    var h := Hydrate(Initial(st), st, parse);
    if h.Failure? then Failure(h.error) else Success(AppState(Home, [], h.value, st, None, 0))
  }

  /** handleLoginSuccess / handleSignupSuccess: storage was already written by
      the login or signup page; the App installs user and token and goes home. */
  function AuthSuccess(s: AppState, u: User, access: string): (r: AppState)
    ensures r.session.user == Some(u) && r.session.token == Some(access)
    ensures r.page == Home && r.cart == s.cart && r.storage == s.storage
  {
    s.(session := Establish(u, access), page := Home)
  }

  /** handleLogout: the three stored keys go, user and token become null, the
      cart is emptied and the home page shown. */
  function Logout(s: AppState): (r: AppState)
    ensures r.cart == [] && r.session.user.None? && r.session.token.None?
    ensures forall k :: k in SessionKeys() ==> k !in r.storage
    ensures forall k :: k !in SessionKeys() ==> Get(r.storage, k) == Get(s.storage, k)
    ensures r.page == Home
  {
    s.(storage := ClearStorage(s.storage), session := Cleared(), cart := [], page := Home)
  }

  /** Logging out twice is logging out once. */
  lemma LogoutIdempotent(s: AppState)
    ensures Logout(Logout(s)) == Logout(s)
  {
    ClearStorageIdempotent(s.storage);
  }

  /** The checkout button: without a truthy auth token the login page is shown
      instead of the checkout page. */
  function ProceedToCheckout(s: AppState): (r: AppState)
    ensures r.page == CheckoutPage <==> Truthy(s.session.token)
    ensures !Truthy(s.session.token) ==> r.page == LoginPage
    ensures r.(page := s.page) == s
  {
    if !Truthy(s.session.token) then s.(page := LoginPage) else s.(page := CheckoutPage)
  }

  /** After logout checkout is refused. */
  lemma NoCheckoutAfterLogout(s: AppState)
    ensures ProceedToCheckout(Logout(s)).page == LoginPage
  {
  }

  /** A successful order empties the cart; the move home happens later on a
      timer. */
  function OrderSuccess(s: AppState): (r: AppState)
    ensures r.cart == [] && Total(r.cart) == 0.0
    ensures r.(cart := s.cart) == s
  {
    s.(cart := [])
  }

  /** The carousel timer: runs only when there are featured products, and
      then advances the index modulo their number. */
  function CarouselTick(i: int, n: int): (r: int)
    ensures n > 0 && i >= 0 ==> 0 <= r < n
    ensures n <= 0 ==> r == i
  {
    if n > 0 then (i + 1) % n else i
  }

  function CarouselAfter(i: int, n: int, k: nat): int
    decreases k
  {
    if k == 0 then i else CarouselTick(CarouselAfter(i, n, k - 1), n)
  }

  /** One tick from a valid slide moves to the next one, wrapping to the
      first after the last. */
  lemma TickStep(i: int, n: int)
    requires 0 <= i < n
    ensures CarouselTick(i, n) == if i + 1 < n then i + 1 else 0
  {
    if i + 1 == n {
      assert (i + 1) % n == n % n;
    }
  }

  /** Within one round the carousel advances one slide per tick and wraps
      around once. */
  lemma {:induction false} CarouselAfterIsShift(i: int, n: int, k: nat)
    requires 0 <= i < n && k <= n
    ensures CarouselAfter(i, n, k) == if i + k < n then i + k else i + k - n
  {
    if k > 0 {
      CarouselAfterIsShift(i, n, k - 1);
      TickStep(CarouselAfter(i, n, k - 1), n);
    }
  }

  /** n ticks bring the carousel back to where it started. */
  lemma CarouselCycles(i: int, n: int)
    requires 0 <= i < n
    ensures CarouselAfter(i, n, n) == i
  {
    CarouselAfterIsShift(i, n, n);
  }

  /** End to end: log in, add one product twice, log out. The cart held one
      line of quantity two while logged in, and afterwards nobody is logged in
      on the next start and checkout is refused. */
  lemma SessionScenario(st: Storage, u: User, access: string, refresh: string, p: Product,
                        serialize: User -> string, parse: string -> Option<User>)
    requires access != "" && serialize(u) != "" && parse(serialize(u)) == Some(u)
    ensures var st1 := Persist(st, access, refresh, u, serialize);
      var s0 := AppState(LoginPage, [], Initial(st1), st1, None, 0);
      var s1 := AddToCart(AddToCart(AuthSuccess(s0, u, access), p), p);
      var s2 := Logout(s1);
      && QuantityOf(s1.cart, p.id) == 2
      && ProceedToCheckout(s1).page == CheckoutPage
      && s2.cart == []
      && Hydrate(Initial(s2.storage), s2.storage, parse) == Success(Session(None, None))
  {
    var st1 := Persist(st, access, refresh, u, serialize);
    var s2 := Logout(AddToCart(AddToCart(AuthSuccess(AppState(LoginPage, [], Initial(st1), st1, None, 0), u, access), p), p));
    HydrateAfterClear(st1, parse);
    assert s2.storage == ClearStorage(st1);
  }
}

=== FILE: forecast_card.dfy ===
/** The price-forecast card of the product page: what it shows for a stored
    prediction and the product's current price. A prediction carries up to
    seven day prices (keys 1 to 7), a recommendation, a confidence score and a
    price change; missing and zero values are JavaScript-falsy and take the
    fall-backs the card defines. */
module ForecastCard {
  import opened Wrappers
  import opened Text
  import opened Sums

  datatype Prediction = Prediction(
    dayPrices: map<nat, real>,
    recommendation: string,
    confidenceScore: Option<real>,
    priceChange: Option<real>)

  /** How the card colours itself: one tone per recommendation case. */
  datatype Tone = Positive | Caution | Neutral

  datatype CardView =
    | Placeholder
    | Card(tone: Tone, series: seq<real>, average: real, low: real, high: real,
           bars: seq<real>, confidence: int, change: real)

  const Days: nat := 7

  /** A number is truthy when present and non-zero. */
  predicate TruthyNum(v: Option<real>) {
    v.Some? && v.value != 0.0
  }

  /** `day{i}_price` as stored, or None when absent, null or zero. */
  function DayPrice(p: Prediction, i: nat): (r: Option<real>)
    ensures r.Some? <==> i in p.dayPrices && p.dayPrices[i] != 0.0
    ensures r.Some? ==> r.value == p.dayPrices[i]
  {
    if i in p.dayPrices && p.dayPrices[i] != 0.0 then Some(p.dayPrices[i]) else None
  }

  /** The card keeps the last prediction it was given: a new prediction replaces
      it, an absent one leaves it in place. */
  function Displayed(shown: Option<Prediction>, incoming: Option<Prediction>): (r: Option<Prediction>)
    ensures incoming.Some? ==> r == incoming
    ensures incoming.None? ==> r == shown
  {
    if incoming.Some? then incoming else shown
  }

  /** The seven-day series: day i is its stored price, or the current price
      when that is falsy. */
  function Series(p: Prediction, current: real): (s: seq<real>)
    ensures |s| == Days
    ensures forall i :: 0 <= i < Days ==>
      s[i] == (if DayPrice(p, i + 1).Some? then p.dayPrices[i + 1] else current)
  {
    seq(Days, i requires 0 <= i < Days => DayPrice(p, i + 1).GetOr(current))
  }

  /** The "7-Day Avg" figure: the sum of the series divided by seven. */
  function Average(s: seq<real>): (a: real)
    ensures a * Days as real == Sum(s)
  {
    Sum(s) / Days as real
  }

  function Min(s: seq<real>): (m: real)
    requires |s| > 0
    ensures m in s && forall i :: 0 <= i < |s| ==> m <= s[i]
  {
    if |s| == 1 then s[0]
    else
      var t := Min(s[1..]);
      assert t in s[1..];
      if s[0] <= t then s[0] else t
  }

  function Max(s: seq<real>): (m: real)
    requires |s| > 0
    ensures m in s && forall i :: 0 <= i < |s| ==> s[i] <= m
  {
    if |s| == 1 then s[0]
    else
      var t := Max(s[1..]);
      assert t in s[1..];
      if s[0] >= t then s[0] else t
  }

  /** A bar's height in percent: the flat chart draws every bar at 50, otherwise
      the price is scaled from the range [low, high] onto [20, 120]. */
  function Height(p: real, low: real, high: real): real {
    if high - low > 0.0 then (p - low) / (high - low) * 100.0 + 20.0 else 50.0
  }

  lemma FlatHeight(p: real, low: real, high: real)
    requires high == low
    ensures Height(p, low, high) == 50.0
  {
  }

  /** On a non-flat chart every price in range gets a height within [20, 120];
      the lowest price gets 20 and the highest 120. */
  lemma HeightRange(p: real, low: real, high: real)
    requires low < high && low <= p <= high
    ensures 20.0 <= Height(p, low, high) <= 120.0
    ensures p == low ==> Height(p, low, high) == 20.0
    ensures p == high ==> Height(p, low, high) == 120.0
  {
    var d := high - low;
    Fraction(p - low, d);
    assert Height(p, low, high) == (p - low) / d * 100.0 + 20.0;
  }

  /** A share of a positive whole lies in [0, 1], with 0 and 1 at the ends. */
  lemma Fraction(a: real, d: real)
    requires 0.0 <= a <= d && d > 0.0
    ensures 0.0 <= a / d <= 1.0
    ensures a == 0.0 ==> a / d == 0.0
    ensures a == d ==> a / d == 1.0
  {
    var f := a / d;
    assert f * d == a;
    assert (1.0 - f) * d == d - a;
  }

  /** Dividing by a positive number keeps the order. */
  lemma DivideKeepsOrder(a: real, b: real, d: real)
    requires a <= b && d > 0.0
    ensures a / d <= b / d
  {
    assert b / d - a / d == (b - a) / d;
    assert (b - a) / d * d == b - a;
  }

  /** Higher prices never get shorter bars. */
  lemma HeightMonotone(p: real, q: real, low: real, high: real)
    requires p <= q
    ensures Height(p, low, high) <= Height(q, low, high)
  {
    if high - low > 0.0 {
      DivideKeepsOrder(p - low, q - low, high - low);
    }
  }

  /** The bar heights of a series, in series order. */
  function Bars(s: seq<real>): (b: seq<real>)
    requires |s| > 0
    ensures |b| == |s|
    ensures Min(s) == Max(s) ==> forall i :: 0 <= i < |b| ==> b[i] == 50.0
    ensures Min(s) < Max(s) ==> forall i :: 0 <= i < |b| ==> 20.0 <= b[i] <= 120.0
    ensures forall i :: 0 <= i < |b| ==> b[i] == Height(s[i], Min(s), Max(s))
  {
    var lo, hi := Min(s), Max(s);
    var b := seq(|s|, i requires 0 <= i < |s| => Height(s[i], lo, hi));
    forall i | 0 <= i < |b| && lo < hi
      ensures 20.0 <= b[i] <= 120.0
    {
      HeightRange(s[i], lo, hi);
    }
    b
  }

  /** The series' lowest day is drawn at 20 and its highest at 120, unless the
      chart is flat. */
  lemma BarsHitEnds(s: seq<real>)
    requires |s| > 0 && Min(s) < Max(s)
    ensures exists i :: 0 <= i < |s| && Bars(s)[i] == 20.0
    ensures exists i :: 0 <= i < |s| && Bars(s)[i] == 120.0
  {
    var lo, hi := Min(s), Max(s);
    var i :| 0 <= i < |s| && s[i] == lo;
    var j :| 0 <= j < |s| && s[j] == hi;
    var b := Bars(s);
    HeightRange(s[i], lo, hi);
    HeightRange(s[j], lo, hi);
    assert b[i] == 20.0;
    assert b[j] == 120.0;
  }

  /** The average lies between the lowest and the highest day. */
  lemma AverageWithinRange(s: seq<real>)
    requires |s| == Days
    ensures Min(s) <= Average(s) <= Max(s)
  {
    var lo, hi := Min(s), Max(s);
    SumBounds(s, lo, hi);
    var t := Sum(s);
    assert 7.0 * lo <= t <= 7.0 * hi;
    assert Average(s) == t / 7.0;
  }

  /** With no usable day price the chart is flat at the current price: all bars
      are 50 and the average is the current price. */
  lemma NoForecastIsFlat(p: Prediction, current: real)
    requires forall i :: 1 <= i <= Days ==> DayPrice(p, i).None?
    ensures var s := Series(p, current);
      && Average(s) == current
      && forall i :: 0 <= i < Days ==> Bars(s)[i] == 50.0
  {
    var s := Series(p, current);
    assert forall i :: 0 <= i < Days ==> s[i] == current by {
      forall i | 0 <= i < Days
        ensures s[i] == current
      {
        assert DayPrice(p, i + 1).None?;
      }
    }
    SumConstant(s, current);
    assert Min(s) == Max(s) by {
      assert Min(s) in s && Max(s) in s;
    }
  }

  /** The confidence percentage: 0 for a falsy score, otherwise the score in
      percent rounded to the nearest integer. It is not clamped. */
  function Confidence(p: Prediction): (c: int)
    ensures !TruthyNum(p.confidenceScore) ==> c == 0
    ensures TruthyNum(p.confidenceScore) ==>
      p.confidenceScore.value * 100.0 - 1.0 / 2.0 < c as real <= p.confidenceScore.value * 100.0 + 1.0 / 2.0
  {
    if !TruthyNum(p.confidenceScore) then 0 else JsRound(p.confidenceScore.value * 100.0)
  }

  /** A score within [0, 1] gives a percentage within [0, 100]. */
  lemma ConfidenceIsPercent(p: Prediction)
    requires p.confidenceScore.Some? && 0.0 <= p.confidenceScore.value <= 1.0
    ensures 0 <= Confidence(p) <= 100
  {
  }

  /** Nothing caps the percentage: a score above one shows above 100. */
  lemma ConfidenceNotClamped()
    ensures Confidence(Prediction(map[], "neutral", Some(3.0 / 2.0), None)) == 150
  {
  }

  /** The expected-change figure as a number: 0 when falsy, otherwise the
      change rounded to one decimal. */
  function Change(p: Prediction): (v: real)
    ensures !TruthyNum(p.priceChange) ==> v == 0.0
    ensures TruthyNum(p.priceChange) ==>
      p.priceChange.value - 1.0 / 20.0 <= v <= p.priceChange.value + 1.0 / 20.0
    ensures TruthyNum(p.priceChange) ==> (v * 10.0).Floor as real == v * 10.0
  {
    if !TruthyNum(p.priceChange) then 0.0
    else
      Round1Close(p.priceChange.value);
      Round1IsTenths(p.priceChange.value);
      Round1(p.priceChange.value)
  }

  /** The expected-change text: a plus sign when the shown value is positive,
      the value (the bare 0 when falsy, one decimal otherwise) and a percent
      sign. */
  function ChangeLabel(p: Prediction): string {
    var digits := if !TruthyNum(p.priceChange) then "0" else ToFixed1(p.priceChange.value);
    (if Change(p) > 0.0 then "+" else "") + digits + "%"
  }

  /** The label starts with '+' exactly when the rounded change is positive,
      and a sign character is never doubled. */
  lemma ChangeLabelSign(p: Prediction)
    ensures var l := ChangeLabel(p);
      && (l[0] == '+' <==> Change(p) > 0.0)
      && (Change(p) < 0.0 ==> l[0] == '-')
  {
    var l := ChangeLabel(p);
    if TruthyNum(p.priceChange) {
      var x := p.priceChange.value;
      ToFixed1RoundTrip(x);
      if Change(p) <= 0.0 {
        assert l == ToFixed1(x) + "%";
        if x >= 0.0 {
          assert IsDigit(ToFixed1(x)[0]);
        }
      }
      if Change(p) < 0.0 {
        assert x < 0.0;
      }
    } else {
      assert l == "0%";
    }
  }

  function ToneOf(recommendation: string): (t: Tone)
    ensures t == Positive <==> recommendation == "best_price"
    ensures t == Caution <==> recommendation == "wait"
  {
    if recommendation == "best_price" then Positive
    else if recommendation == "wait" then Caution
    else Neutral
  }

  /** The card's background class for each tone. */
  function BgClass(t: Tone): (c: string)
    ensures c in {"bg-success", "bg-warning", "bg-neutral"}
  {
    match t
    case Positive => "bg-success"
    case Caution => "bg-warning"
    case Neutral => "bg-neutral"
  }

  /** The recommendation text for each tone. */
  function ToneText(t: Tone): string {
    match t
    case Positive => "Best Price Now! \U{1F7E2}"
    case Caution => "Wait for Better Offer \U{1F7E1}"
    case Neutral => "Neutral Price \U{1F535}"
  }

  /** Distinct tones have distinct classes and texts, so the class and the
      text each identify the recommendation case. */
  lemma ToneDisplayInjective(t: Tone, u: Tone)
    ensures BgClass(t) == BgClass(u) <==> t == u
    ensures ToneText(t) == ToneText(u) <==> t == u
  {
    if t != u {
      assert BgClass(t)[3] != BgClass(u)[3];
      assert ToneText(t)[0] != ToneText(u)[0];
    }
  }

  /** The card: a placeholder while no prediction has been shown, otherwise
      the figures computed from the shown prediction. */
  function Render(shown: Option<Prediction>, current: real): (v: CardView)
    ensures v.Placeholder? <==> shown.None?
    ensures v.Card? ==>
      && v.series == Series(shown.value, current)
      && v.average == Average(v.series)
      && v.low == Min(v.series) && v.high == Max(v.series)
      && v.bars == Bars(v.series)
      && v.low <= v.average <= v.high
      && |v.bars| == Days
      && (v.low < v.high ==> forall i :: 0 <= i < Days ==> 20.0 <= v.bars[i] <= 120.0)
      && (v.low == v.high ==> forall i :: 0 <= i < Days ==> v.bars[i] == 50.0)
      && v.tone == ToneOf(shown.value.recommendation)
      && v.confidence == Confidence(shown.value)
      && v.change == Change(shown.value)
  {
    match shown
    case None => Placeholder
    case Some(p) =>
      var s := Series(p, current);
      AverageWithinRange(s);
      Card(ToneOf(p.recommendation), s, Average(s), Min(s), Max(s), Bars(s), Confidence(p), Change(p))
  }

  /** Once a prediction is shown, a later render without one keeps it. */
  lemma CardSticks(shown: Option<Prediction>, p: Prediction, current: real)
    ensures var after := Displayed(Displayed(shown, Some(p)), None);
      Render(after, current).Card? && after == Some(p)
  {
  }
}

=== FILE: forms.dfy ===
/** What the client's forms share: the form data as a map from field name to
    text, and the error map the pages render. An error is shown when its key
    holds a non-empty message; a page "clears" an error by overwriting it with
    an empty value rather than deleting the key. */
module Forms {
  import opened Wrappers
  import opened Text

  type Form = map<string, string>

  /** Field name to message. */
  type Errors = map<string, string>

  /** A field's text; a field the form does not hold reads as empty. */
  function Value(form: Form, k: string): string {
    if k in form then form[k] else ""
  }

  /** The input handler's state update: the edited field takes the new text. */
  function Edit(form: Form, name: string, text: string): (r: Form)
    ensures Value(r, name) == text
    ensures forall k :: k != name ==> Value(r, k) == Value(form, k)
    ensures r.Keys == form.Keys + {name}
  {
    form[name := text]
  }

  /** The message under `k` is truthy, so the page renders it. */
  predicate Shown(errors: Errors, k: string) {
    k in errors && errors[k] != ""
  }

  /** The error clearing the input handlers perform: when the edited field's
      error is shown, it is overwritten with an empty value. */
  function ClearOnEdit(errors: Errors, name: string): (r: Errors)
    ensures !Shown(r, name)
    ensures forall k :: k != name ==> (k in r <==> k in errors)
    ensures forall k :: k != name && k in r ==> r[k] == errors[k]
  {
    if Shown(errors, name) then errors[name := ""] else errors
  }

  /** Editing leaves every other field's error exactly as it was, so editing
      two different fields clears both, in either order. */
  lemma ClearOnEditCommutes(errors: Errors, a: string, b: string)
    ensures ClearOnEdit(ClearOnEdit(errors, a), b) == ClearOnEdit(ClearOnEdit(errors, b), a)
  {
  }

  /** JavaScript `v || d` for a possibly-null string. */
  function OrDefault(v: Option<string>, d: string): (r: string)
    ensures v.Some? && v.value != "" ==> r == v.value
    ensures v.None? || v.value == "" ==> r == d
  {
    if v.Some? && v.value != "" then v.value else d
  }

  /** A field is blank when trimming leaves nothing. */
  predicate Blank(s: string) {
    JsTrim(s) == ""
  }

  lemma BlankIffAllSpace(s: string)
    ensures Blank(s) <==> AllSpace(s, IsJsSpace)
  {
    StripEmptyIffBlank(s, IsJsSpace);
  }
}

=== FILE: intent_search.dfy ===
/** The intent searcher of the server: the text each product is indexed under,
    the top-k cut with its similarity threshold, the explanation attached to
    each hit, the keyword-to-tags expansion and the grouping of hits by
    category. The TF-IDF similarity of the query to each product is an input:
    one score per catalogue product, in catalogue order. */
module IntentSearch {
  import opened Wrappers
  import opened Text
  import opened Sorting

  datatype CatalogProduct = CatalogProduct(id: int, name: string, category: string, tags: seq<string>)

  /** One search hit: the product, its score and the explanation. */
  datatype Hit = Hit(product: CatalogProduct, score: real, explanation: string)

  const Threshold: real := 0.1

  /** `' '.join(parts)`. */
  function Join(parts: seq<string>): (r: string)
    ensures |parts| == 0 ==> r == ""
    ensures |parts| == 1 ==> r == parts[0]
  {
    if |parts| == 0 then ""
    else if |parts| == 1 then parts[0]
    else parts[0] + " " + Join(parts[1..])
  }

  /** The text a product is indexed under: name, category name and tags,
      separated by single spaces. */
  function DocumentText(p: CatalogProduct): string {
    p.name + " " + p.category + " " + Join(p.tags)
  }

  /** Each tag occurs in the joined tag text. */
  lemma {:induction false} JoinContainsParts(parts: seq<string>, i: nat)
    requires i < |parts|
    ensures Contains(Join(parts), parts[i])
  {
    if |parts| == 1 {
      ContainsFactor("", parts[0], "");
      assert "" + parts[0] + "" == parts[0];
    } else if i == 0 {
      ContainsFactor("", parts[0], " " + Join(parts[1..]));
      assert "" + parts[0] + (" " + Join(parts[1..])) == Join(parts);
    } else {
      JoinContainsParts(parts[1..], i - 1);
      ContainsWithin(parts[0] + " ", Join(parts[1..]), "", parts[i]);
      assert (parts[0] + " ") + Join(parts[1..]) + "" == Join(parts);
    }
  }

  /** The indexed text mentions the name, the category and every tag. */
  lemma DocumentMentionsAll(p: CatalogProduct)
    ensures Contains(DocumentText(p), p.name)
    ensures Contains(DocumentText(p), p.category)
    ensures forall i :: 0 <= i < |p.tags| ==> Contains(DocumentText(p), p.tags[i])
  {
    var d := DocumentText(p);
    var rest := " " + p.category + " " + Join(p.tags);
    assert "" + p.name + rest == d;
    ContainsFactor("", p.name, rest);
    var front := p.name + " ";
    var back := " " + Join(p.tags);
    assert front + p.category + back == d;
    ContainsFactor(front, p.category, back);
    forall i | 0 <= i < |p.tags|
      ensures Contains(d, p.tags[i])
    {
      TagInDocument(p, i);
    }
  }

  lemma TagInDocument(p: CatalogProduct, i: nat)
    requires i < |p.tags|
    ensures Contains(DocumentText(p), p.tags[i])
  {
    var front := p.name + " " + p.category + " ";
    JoinContainsParts(p.tags, i);
    ContainsWithin(front, Join(p.tags), "", p.tags[i]);
    assert front + Join(p.tags) + "" == DocumentText(p);
  }

  /** Which branch of the explanation applies. */
  datatype Reason = NameMatch | TagMatch | CategoryMatch | Related

  /** Some tag, lowercased, occurs in the lowercased query. */
  predicate AnyTagInQuery(tags: seq<string>, q: string) {
    exists i :: 0 <= i < |tags| && Contains(q, Lower(tags[i]))
  }

  /** The explanation's branch, checked in priority order on lowercased text. */
  function ReasonFor(query: string, p: CatalogProduct): (r: Reason)
    ensures r == NameMatch <==> Contains(Lower(p.name), Lower(query))
    ensures r == TagMatch <==> !Contains(Lower(p.name), Lower(query)) && AnyTagInQuery(p.tags, Lower(query))
    ensures r == CategoryMatch <==>
      && !Contains(Lower(p.name), Lower(query)) && !AnyTagInQuery(p.tags, Lower(query))
      && Contains(Lower(p.category), Lower(query))
  {
    var q := Lower(query);
    if Contains(Lower(p.name), q) then NameMatch
    else if AnyTagInQuery(p.tags, q) then TagMatch
    else if Contains(Lower(p.category), q) then CategoryMatch
    else Related
  }

  /** _get_intent_explanation. */
  function Explanation(query: string, p: CatalogProduct): string {
    match ReasonFor(query, p)
    case NameMatch => "Direct match in product name"
    case TagMatch => "Matches intent: " + query
    case CategoryMatch => "Found in " + p.category + " category"
    case Related => "Related to: " + query
  }

  /** The text tells its branch apart: the four texts start with different
      letters, so a reader can recover which rule fired. */
  lemma ExplanationNamesReason(query: string, p: CatalogProduct)
    ensures var e := Explanation(query, p);
      && |e| > 0
      && (ReasonFor(query, p) == NameMatch <==> e[0] == 'D')
      && (ReasonFor(query, p) == TagMatch <==> e[0] == 'M')
      && (ReasonFor(query, p) == CategoryMatch <==> e[0] == 'F')
      && (ReasonFor(query, p) == Related <==> e[0] == 'R')
  {
    match ReasonFor(query, p)
    case NameMatch =>
    case TagMatch => assert ("Matches intent: " + query)[0] == 'M';
    case CategoryMatch => assert ("Found in " + p.category + " category")[0] == 'F';
    case Related => assert ("Related to: " + query)[0] == 'R';
  }

  /** A query that names the product gets the name explanation whatever its
      tags and category say. */
  lemma NameMatchWins(query: string, a: string, b: string, p: CatalogProduct)
    requires Lower(p.name) == a + Lower(query) + b
    ensures Explanation(query, p) == "Direct match in product name"
  {
    ContainsFactor(a, Lower(query), b);
  }

  /** 0, 1, ..., n - 1. */
  function Indices(n: nat): (r: seq<nat>)
    ensures |r| == n && forall i :: 0 <= i < n ==> r[i] == i
  {
    seq(n, i requires 0 <= i < n => i)
  }

  function ScoreOf(scores: seq<real>): nat -> real {
    (i: nat) => if i < |scores| then scores[i] else 0.0
  }

  /** The products' indices from the highest score to the lowest. */
  function Ranked(scores: seq<real>): (r: seq<nat>)
    ensures NonIncreasing(r, ScoreOf(scores))
    ensures multiset(r) == multiset(Indices(|scores|))
    ensures |r| == |scores|
  {
    SortDesc(Indices(|scores|), ScoreOf(scores))
  }

  /** Python's `xs[-k:]` taken from the descending end: the first k, and all
      of them when k is zero (since `-0` is `0`) or at least the length. */
  function TopK<T>(xs: seq<T>, k: nat): (r: seq<T>)
    ensures k == 0 || k >= |xs| ==> r == xs
    ensures 0 < k < |xs| ==> r == xs[..k]
    ensures k > 0 ==> |r| <= k
  {
    if k == 0 || k >= |xs| then xs else xs[..k]
  }

  /** The indices whose score passes the threshold, order kept. */
  function Passing(ix: seq<nat>, scores: seq<real>): (r: seq<nat>)
    ensures forall j :: j in r <==> j in ix && ScoreOf(scores)(j) > Threshold
    ensures multiset(r) <= multiset(ix)
    ensures |r| <= |ix|
  {
    if |ix| == 0 then []
    else
      assert ix == [ix[0]] + ix[1..];
      (if ScoreOf(scores)(ix[0]) > Threshold then [ix[0]] else []) + Passing(ix[1..], scores)
  }

  /** Filtering keeps the descending order. */
  lemma {:induction false} PassingSorted(ix: seq<nat>, scores: seq<real>)
    requires NonIncreasing(ix, ScoreOf(scores))
    ensures NonIncreasing(Passing(ix, scores), ScoreOf(scores))
  {
    if |ix| > 0 {
      PassingSorted(ix[1..], scores);
      var rest := Passing(ix[1..], scores);
      forall k | 0 <= k < |rest|
        ensures ScoreOf(scores)(ix[0]) >= ScoreOf(scores)(rest[k])
      {
        assert rest[k] in ix[1..];
        var m :| 0 <= m < |ix[1..]| && ix[1..][m] == rest[k];
        assert ix[m + 1] == rest[k];
      }
    }
  }

  function HitAt(catalog: seq<CatalogProduct>, scores: seq<real>, query: string, i: nat): Hit
    requires |scores| == |catalog| && i < |catalog|
  {
    Hit(catalog[i], scores[i], Explanation(query, catalog[i]))
  }

  /** An index drawn from 0 .. n - 1 is below n. */
  lemma IndexBelow(j: nat, n: nat)
    requires j in multiset(Indices(n))
    ensures j < n
  {
    assert j in Indices(n);
  }

  /** The first k of a sequence are among its elements and keep its order. */
  lemma TopKIsPrefix(xs: seq<nat>, k: nat, key: nat -> real)
    requires NonIncreasing(xs, key)
    ensures NonIncreasing(TopK(xs, k), key)
    ensures multiset(TopK(xs, k)) <= multiset(xs)
  {
    if 0 < k < |xs| {
      assert xs == xs[..k] + xs[k..];
    }
  }

  /** Every product index appears in the ranking. */
  lemma EveryIndexRanked(scores: seq<real>, j: nat)
    requires j < |scores|
    ensures j in Ranked(scores)
  {
    var ix := Indices(|scores|);
    assert ix[j] == j;
    assert j in multiset(ix);
    assert j in multiset(Ranked(scores));
  }

  /** The indices search_by_intent keeps: the top k by score, then only those
      above the threshold. */
  function Selected(scores: seq<real>, k: nat): (r: seq<nat>)
    ensures NonIncreasing(r, ScoreOf(scores))
    ensures forall j :: j in r ==> j < |scores| && scores[j] > Threshold
    ensures forall i :: 0 <= i < |r| ==> r[i] < |scores|
    ensures k > 0 ==> |r| <= k
    ensures multiset(r) <= multiset(Indices(|scores|))
    ensures forall j :: j in TopK(Ranked(scores), k) && ScoreOf(scores)(j) > Threshold ==> j in r
    ensures k == 0 || k >= |scores| ==>
      forall j :: 0 <= j < |scores| && scores[j] > Threshold ==> j in r
  {
    SelectionSound(scores, k);
    SelectionComplete(scores, k);
    var r := Passing(TopK(Ranked(scores), k), scores);
    assert forall i :: 0 <= i < |r| ==> r[i] in r;
    r
  }

  /** The kept indices are distinct positions of the catalogue, pass the
      threshold, and keep the ranking's descending order. */
  lemma SelectionSound(scores: seq<real>, k: nat)
    ensures var r := Passing(TopK(Ranked(scores), k), scores);
      && NonIncreasing(r, ScoreOf(scores))
      && (forall j :: j in r ==> j < |scores| && scores[j] > Threshold)
      && multiset(r) <= multiset(Indices(|scores|))
  {
    var ranked := Ranked(scores);
    var top := TopK(ranked, k);
    TopKIsPrefix(ranked, k, ScoreOf(scores));
    PassingSorted(top, scores);
    PassingInRange(top, scores);
  }

  /** Indices drawn from the catalogue's positions that pass the threshold
      are positions whose score is above it. */
  lemma PassingInRange(ix: seq<nat>, scores: seq<real>)
    requires multiset(ix) <= multiset(Indices(|scores|))
    ensures multiset(Passing(ix, scores)) <= multiset(Indices(|scores|))
    ensures forall j :: j in Passing(ix, scores) ==> j < |scores| && scores[j] > Threshold
  {
    var r := Passing(ix, scores);
    forall j | j in r
      ensures j < |scores| && scores[j] > Threshold
    {
      assert j in multiset(ix);
      IndexBelow(j, |scores|);
    }
  }

  /** With no cut in effect, every product above the threshold is kept. */
  lemma SelectionComplete(scores: seq<real>, k: nat)
    ensures k == 0 || k >= |scores| ==>
      forall j :: 0 <= j < |scores| && scores[j] > Threshold ==> j in Passing(TopK(Ranked(scores), k), scores)
  {
    if k == 0 || k >= |scores| {
      assert TopK(Ranked(scores), k) == Ranked(scores);
      forall j | 0 <= j < |scores| && scores[j] > Threshold
        ensures j in Passing(Ranked(scores), scores)
      {
        EveryIndexRanked(scores, j);
      }
    }
  }

  /** The hits for a list of indices, in the same order. */
  function HitsFor(catalog: seq<CatalogProduct>, scores: seq<real>, query: string, ix: seq<nat>): (r: seq<Hit>)
    requires |scores| == |catalog|
    requires forall i :: 0 <= i < |ix| ==> ix[i] < |catalog|
    ensures |r| == |ix|
    ensures forall i :: 0 <= i < |ix| ==> r[i] == HitAt(catalog, scores, query, ix[i])
  {
    seq(|ix|, i requires 0 <= i < |ix| => HitAt(catalog, scores, query, ix[i]))
  }

  /** search_by_intent as written: an empty catalogue makes the catalogue
      builder return an empty list, which cannot be unpacked into three names,
      so the call raises. */
  function SearchAsWritten(catalog: seq<CatalogProduct>, scores: seq<real>, query: string, k: nat): (r: Result<seq<Hit>, string>)
    requires |scores| == |catalog|
    ensures r.Failure? <==> |catalog| == 0
    ensures r.Success? ==> r.value == HitsFor(catalog, scores, query, Selected(scores, k))
  {
    if |catalog| == 0 then Failure("not enough values to unpack (expected 3, got 0)")
    else Success(HitsFor(catalog, scores, query, Selected(scores, k)))
  }

  /** search_by_intent as its own guard intends: no products, no hits. Each
      hit is the product at a selected index, with that product's score and
      explanation; hence at most k hits, all above the threshold, best first. */
  function Search(catalog: seq<CatalogProduct>, scores: seq<real>, query: string, k: nat): (r: seq<Hit>)
    requires |scores| == |catalog|
    ensures |catalog| == 0 ==> r == []
    ensures |catalog| > 0 ==> SearchAsWritten(catalog, scores, query, k) == Success(r)
    ensures |r| == |Selected(scores, k)|
    ensures forall i :: 0 <= i < |r| ==>
      var j := Selected(scores, k)[i];
      j < |catalog| && r[i] == Hit(catalog[j], scores[j], Explanation(query, catalog[j]))
    ensures k > 0 ==> |r| <= k
  {
    var sel := Selected(scores, k);
    assert forall i :: 0 <= i < |sel| ==> sel[i] in sel;
    if |catalog| == 0 then
      assert sel == [];
      []
    else HitsFor(catalog, scores, query, sel)
  }

  /** The hits come best first, all above the threshold, each explained. */
  lemma SearchShape(catalog: seq<CatalogProduct>, scores: seq<real>, query: string, k: nat)
    requires |scores| == |catalog|
    ensures var r := Search(catalog, scores, query, k);
      && (forall i :: 0 <= i < |r| ==> r[i].score > Threshold)
      && (forall i, j :: 0 <= i < j < |r| ==> r[i].score >= r[j].score)
      && (forall i :: 0 <= i < |r| ==> r[i].explanation == Explanation(query, r[i].product))
  {
    var sel := Selected(scores, k);
    var r := Search(catalog, scores, query, k);
    forall i | 0 <= i < |r|
      ensures r[i].score > Threshold
    {
      assert sel[i] in sel;
    }
    forall i, j | 0 <= i < j < |r|
      ensures r[i].score >= r[j].score
    {
      assert ScoreOf(scores)(sel[i]) >= ScoreOf(scores)(sel[j]);
    }
  }

  /** With k = 0 nothing is cut: a product is selected exactly when its score
      passes the threshold. */
  lemma ZeroKeepsEverything(scores: seq<real>, j: nat)
    requires j < |scores|
    ensures j in Selected(scores, 0) <==> scores[j] > Threshold
  {
    assert j in multiset(Indices(|scores|)) by {
      assert Indices(|scores|)[j] == j;
    }
    assert j in Ranked(scores);
  }

  /** A product left out by the top-k cut scores no higher than any hit. */
  lemma CutKeepsTheBest(scores: seq<real>, k: nat, j: nat, h: nat)
    requires 0 < k && j < |scores| && h in Selected(scores, k)
    requires j !in TopK(Ranked(scores), k)
    ensures scores[j] <= scores[h]
  {
    var ranked := Ranked(scores);
    assert Indices(|scores|)[j] == j;
    assert j in multiset(ranked);
    var m :| 0 <= m < |ranked| && ranked[m] == j;
    assert k < |ranked|;
    assert m >= k;
    var top := TopK(ranked, k);
    assert h in top;
    var n :| 0 <= n < |top| && top[n] == h;
    assert ranked[n] == h && n < m;
  }

  /** The five keyword intents and their tags, in the order they are tried. */
  const Intents: seq<(string, seq<string>)> := [
    ("gym", ["gym shoes", "water bottle", "yoga mat", "dumbbells", "athlete"]),
    ("office", ["desk", "chair", "stationery", "monitor", "laptop"]),
    ("cooking", ["knife", "pan", "spoon", "cutting board", "apron"]),
    ("travel", ["luggage", "backpack", "pillow", "passport holder"]),
    ("beach", ["swimsuit", "sunscreen", "flip flops", "beach bag", "sunglasses"])]

  /** The tags of every intent whose keyword occurs in `q`, in intent order. */
  function MatchedTags(intents: seq<(string, seq<string>)>, q: string): (r: seq<string>)
    ensures forall t :: t in r <==> exists i :: 0 <= i < |intents| && Contains(q, intents[i].0) && t in intents[i].1
  {
    if |intents| == 0 then []
    else
      var rest := MatchedTags(intents[1..], q);
      assert forall i :: 1 <= i < |intents| ==> intents[i] == intents[1..][i - 1];
      (if Contains(q, intents[0].0) then intents[0].1 else []) + rest
  }

  /** Matching a table split in two gives the first part's tags followed by
      the second's, so tags come in table order, each intent's in its own
      order. */
  lemma {:induction false} MatchedTagsInTableOrder(a: seq<(string, seq<string>)>, b: seq<(string, seq<string>)>, q: string)
    ensures MatchedTags(a + b, q) == MatchedTags(a, q) + MatchedTags(b, q)
    ensures |a| == 1 ==> MatchedTags(a, q) == if Contains(q, a[0].0) then a[0].1 else []
  {
    if |a| > 0 {
      assert (a + b)[1..] == a[1..] + b;
      MatchedTagsInTableOrder(a[1..], b, q);
      if |a| == 1 {
        assert a[1..] == [];
      }
    } else {
      assert a + b == b;
    }
  }

  /** extract_intent_tags: the matched intents' tags, or the query itself
      when none matched; never empty. */
  function ExtractIntentTags(query: string): (r: seq<string>)
    ensures |r| > 0
    ensures MatchedTags(Intents, Lower(query)) == [] ==> r == [query]
    ensures MatchedTags(Intents, Lower(query)) != [] ==> r == MatchedTags(Intents, Lower(query))
  {
    var m := MatchedTags(Intents, Lower(query));
    if m == [] then [query] else m
  }

  /** A query mentioning an intent keyword yields all of that intent's tags. */
  lemma KeywordBringsItsTags(query: string, i: nat, t: string)
    requires i < |Intents| && Contains(Lower(query), Intents[i].0) && t in Intents[i].1
    ensures t in ExtractIntentTags(query)
  {
  }

  /** Hits grouped by category: (category, hits) pairs in the order the
      categories first appear. */
  type Groups = seq<(string, seq<Hit>)>

  /** The hits of one category, in their original order. */
  function OfCategory(hits: seq<Hit>, c: string): (r: seq<Hit>)
    ensures forall h :: h in r ==> h in hits && h.product.category == c
  {
    if |hits| == 0 then []
    else OfCategory(hits[..|hits| - 1], c) + (if hits[|hits| - 1].product.category == c then [hits[|hits| - 1]] else [])
  }

  predicate DistinctKeys(g: Groups) {
    forall i, j :: 0 <= i < j < |g| ==> g[i].0 != g[j].0
  }

  function TotalSize(g: Groups): nat {
    if |g| == 0 then 0 else |g[0].1| + TotalSize(g[1..])
  }

  /** The position of category `c` among the groups, if present. */
  function KeyIndex(g: Groups, c: string): (r: Option<nat>)
    ensures r.Some? ==> r.value < |g| && g[r.value].0 == c
    ensures r.None? ==> forall i :: 0 <= i < |g| ==> g[i].0 != c
  {
    if |g| == 0 then None
    else if g[|g| - 1].0 == c then Some(|g| - 1)
    else KeyIndex(g[..|g| - 1], c)
  }

  /** One step of the grouping loop: append to the hit's category group, or
      open a new group at the end. */
  function AddToGroups(g: Groups, h: Hit): (r: Groups)
    ensures var c := h.product.category;
      match KeyIndex(g, c)
      case Some(i) => r == g[i := (c, g[i].1 + [h])]
      case None => r == g + [(c, [h])]
  {
    var c := h.product.category;
    match KeyIndex(g, c)
    case Some(i) => g[i := (c, g[i].1 + [h])]
    case None => g + [(c, [h])]
  }

  lemma {:induction false} TotalSizeAppend(g: Groups, e: (string, seq<Hit>))
    ensures TotalSize(g + [e]) == TotalSize(g) + |e.1|
  {
    if |g| > 0 {
      assert (g + [e])[1..] == g[1..] + [e];
      TotalSizeAppend(g[1..], e);
    } else {
      assert g + [e] == [e];
    }
  }

  lemma {:induction false} TotalSizeUpdate(g: Groups, i: nat, e: (string, seq<Hit>))
    requires i < |g|
    ensures TotalSize(g[i := e]) == TotalSize(g) - |g[i].1| + |e.1|
  {
    if i > 0 {
      assert g[i := e][1..] == g[1..][i - 1 := e];
      TotalSizeUpdate(g[1..], i - 1, e);
    } else {
      assert g[i := e][1..] == g[1..];
    }
  }

  /** `g` is the grouping of `hits`: one group per category that occurs, each
      holding exactly that category's hits in their original order. */
  predicate GroupsOf(g: Groups, hits: seq<Hit>) {
    && DistinctKeys(g)
    && (forall i :: 0 <= i < |g| ==> g[i].1 == OfCategory(hits, g[i].0))
    && (forall h :: h in hits ==> KeyIndex(g, h.product.category).Some?)
    && TotalSize(g) == |hits|
  }

  lemma OfCategoryAppend(hits: seq<Hit>, h: Hit, c: string)
    ensures OfCategory(hits + [h], c) == OfCategory(hits, c) + (if h.product.category == c then [h] else [])
  {
    assert (hits + [h])[..|hits|] == hits;
  }

  /** A category none of the hits has gets no hits. */
  lemma {:induction false} OfCategoryAbsent(hits: seq<Hit>, c: string)
    requires forall x :: x in hits ==> x.product.category != c
    ensures OfCategory(hits, c) == []
  {
    if |hits| > 0 {
      assert hits[|hits| - 1] in hits;
      OfCategoryAbsent(hits[..|hits| - 1], c);
    }
  }

  /** A hit of a category already grouped joins that group. */
  lemma AddToExisting(g: Groups, hits: seq<Hit>, h: Hit, i: nat)
    requires GroupsOf(g, hits)
    requires KeyIndex(g, h.product.category) == Some(i)
    ensures GroupsOf(AddToGroups(g, h), hits + [h])
  {
    var c := h.product.category;
    var g1 := AddToGroups(g, h);
    TotalSizeUpdate(g, i, (c, g[i].1 + [h]));
    forall j | 0 <= j < |g1|
      ensures g1[j].1 == OfCategory(hits + [h], g1[j].0)
    {
      OfCategoryAppend(hits, h, g1[j].0);
    }
    forall x | x in hits + [h]
      ensures KeyIndex(g1, x.product.category).Some?
    {
      if x in hits {
        var j := KeyIndex(g, x.product.category).value;
        assert g1[j].0 == x.product.category;
      } else {
        assert g1[i].0 == c;
      }
    }
  }

  /** A hit of a new category opens a group at the end. */
  lemma AddToNew(g: Groups, hits: seq<Hit>, h: Hit)
    requires GroupsOf(g, hits)
    requires KeyIndex(g, h.product.category).None?
    ensures GroupsOf(AddToGroups(g, h), hits + [h])
  {
    var c := h.product.category;
    var g1 := g + [(c, [h])];
    assert AddToGroups(g, h) == g1;
    TotalSizeAppend(g, (c, [h]));
    NewKeyIsAbsent(g, hits, c);
    NewGroupContents(g, hits, h);
    NewGroupIndexes(g, hits, h);
    NewKeyStaysDistinct(g, (c, [h]));
  }

  lemma NewKeyStaysDistinct(g: Groups, e: (string, seq<Hit>))
    requires DistinctKeys(g) && KeyIndex(g, e.0).None?
    ensures DistinctKeys(g + [e])
  {
  }

  lemma NewGroupContents(g: Groups, hits: seq<Hit>, h: Hit)
    requires GroupsOf(g, hits)
    requires KeyIndex(g, h.product.category).None?
    requires forall x :: x in hits ==> x.product.category != h.product.category
    ensures var g1 := g + [(h.product.category, [h])];
      forall j :: 0 <= j < |g1| ==> g1[j].1 == OfCategory(hits + [h], g1[j].0)
  {
    var c := h.product.category;
    var g1 := g + [(c, [h])];
    forall j | 0 <= j < |g1|
      ensures g1[j].1 == OfCategory(hits + [h], g1[j].0)
    {
      OfCategoryAppend(hits, h, g1[j].0);
      if j < |g| {
        assert g1[j] == g[j] && g[j].0 != c;
      } else {
        assert g1[j] == (c, [h]);
        OfCategoryAbsent(hits, c);
        assert [] + [h] == [h];
      }
    }
  }

  lemma NewGroupIndexes(g: Groups, hits: seq<Hit>, h: Hit)
    requires GroupsOf(g, hits)
    ensures var g1 := g + [(h.product.category, [h])];
      forall x :: x in hits + [h] ==> KeyIndex(g1, x.product.category).Some?
  {
    var c := h.product.category;
    var g1 := g + [(c, [h])];
    forall x | x in hits + [h]
      ensures KeyIndex(g1, x.product.category).Some?
    {
      if x in hits {
        var j := KeyIndex(g, x.product.category).value;
        assert g1[j].0 == x.product.category;
      } else {
        assert g1[|g|].0 == c;
      }
    }
  }

  /** A category without a group is the category of none of the hits. */
  lemma NewKeyIsAbsent(g: Groups, hits: seq<Hit>, c: string)
    requires GroupsOf(g, hits)
    requires KeyIndex(g, c).None?
    ensures forall x :: x in hits ==> x.product.category != c
  {
    forall x | x in hits
      ensures x.product.category != c
    {
      var j := KeyIndex(g, x.product.category).value;
      assert g[j].0 == x.product.category;
    }
  }

  /** The grouping loop of get_category_recommendations, before sorting. */
  function GroupByCategory(hits: seq<Hit>): (g: Groups)
    ensures GroupsOf(g, hits)
  {
    if |hits| == 0 then []
    else
      var prefix := hits[..|hits| - 1];
      var h := hits[|hits| - 1];
      var g0 := GroupByCategory(prefix);
      assert prefix + [h] == hits;
      AddStep(g0, prefix, h);
      AddToGroups(g0, h)
  }

  /** One step of the grouping loop keeps the grouping exact. */
  lemma AddStep(g: Groups, hits: seq<Hit>, h: Hit)
    requires GroupsOf(g, hits)
    ensures GroupsOf(AddToGroups(g, h), hits + [h])
  {
    match KeyIndex(g, h.product.category)
    case Some(i) => AddToExisting(g, hits, h, i);
    case None => AddToNew(g, hits, h);
  }

  function ScoreKey(h: Hit): real { h.score }

  /** Each group sorted by descending score (Python's stable sort). */
  function SortGroups(g: Groups): (r: Groups)
    ensures |r| == |g|
    ensures forall i :: 0 <= i < |g| ==> r[i].0 == g[i].0 && NonIncreasing(r[i].1, ScoreKey)
    ensures forall i :: 0 <= i < |g| ==> multiset(r[i].1) == multiset(g[i].1)
  {
    seq(|g|, i requires 0 <= i < |g| => (g[i].0, SortDesc(g[i].1, ScoreKey)))
  }

  /** Sorting inside the groups keeps the keys distinct and every hit under
      its own category. */
  lemma SortGroupsKeepsCategories(g: Groups, hits: seq<Hit>)
    requires GroupsOf(g, hits)
    ensures var r := SortGroups(g);
      && DistinctKeys(r)
      && forall i :: 0 <= i < |r| ==> forall h :: h in r[i].1 ==> h.product.category == r[i].0
  {
    var r := SortGroups(g);
    forall i | 0 <= i < |r|
      ensures forall h :: h in r[i].1 ==> h.product.category == r[i].0
    {
      forall h | h in r[i].1
        ensures h.product.category == r[i].0
      {
        assert h in multiset(g[i].1);
      }
    }
  }

  /** get_category_recommendations with the corrected search (top 20). */
  function CategoryRecommendations(catalog: seq<CatalogProduct>, scores: seq<real>, query: string): (r: Groups)
    requires |scores| == |catalog|
    ensures DistinctKeys(r)
    ensures forall i :: 0 <= i < |r| ==> NonIncreasing(r[i].1, ScoreKey)
    ensures forall i :: 0 <= i < |r| ==> forall h :: h in r[i].1 ==> h.product.category == r[i].0
  {
    var hits := Search(catalog, scores, query, 20);
    var g := GroupByCategory(hits);
    SortGroupsKeepsCategories(g, hits);
    SortGroups(g)
  }

  /** A subsequence taken in order from a descending list is descending. */
  lemma {:induction false} OfCategorySorted(hits: seq<Hit>, c: string)
    requires NonIncreasing(hits, ScoreKey)
    ensures NonIncreasing(OfCategory(hits, c), ScoreKey)
  {
    if |hits| > 0 {
      var prefix := hits[..|hits| - 1];
      var last := hits[|hits| - 1];
      OfCategorySorted(prefix, c);
      var f := OfCategory(prefix, c);
      forall k | 0 <= k < |f|
        ensures ScoreKey(f[k]) >= ScoreKey(last)
      {
        assert f[k] in prefix;
        var m :| 0 <= m < |prefix| && prefix[m] == f[k];
        assert hits[m] == f[k];
      }
    }
  }

  /** The per-group sort changes nothing: the search already returns its hits
      in descending order and grouping keeps that order. */
  lemma SortingGroupsIsIdentity(catalog: seq<CatalogProduct>, scores: seq<real>, query: string)
    requires |scores| == |catalog|
    ensures var g := GroupByCategory(Search(catalog, scores, query, 20));
      SortGroups(g) == g
  {
    var hits := Search(catalog, scores, query, 20);
    SearchShape(catalog, scores, query, 20);
    assert NonIncreasing(hits, ScoreKey);
    SortedGroupsStaySorted(hits);
  }

  lemma SortedGroupsStaySorted(hits: seq<Hit>)
    requires NonIncreasing(hits, ScoreKey)
    ensures var g := GroupByCategory(hits);
      SortGroups(g) == g
  {
    var g := GroupByCategory(hits);
    forall i | 0 <= i < |g|
      ensures SortDesc(g[i].1, ScoreKey) == g[i].1
    {
      OfCategorySorted(hits, g[i].0);
      SortDescOfSorted(g[i].1, ScoreKey);
    }
  }

  /** The groups hold exactly the search's hits: their sizes add up to the
      number of hits. */
  lemma GroupsCountEveryHit(catalog: seq<CatalogProduct>, scores: seq<real>, query: string)
    requires |scores| == |catalog|
    ensures TotalSize(CategoryRecommendations(catalog, scores, query)) == |Search(catalog, scores, query, 20)|
  {
    var g := GroupByCategory(Search(catalog, scores, query, 20));
    SortingGroupsIsIdentity(catalog, scores, query);
  }
}

=== FILE: login_form.dfy ===
/** The login page in its two client variants. The EcoNext variant refuses a
    blank username or password before sending anything, can remember the
    username, and shows a success message; the older variant sends whatever
    was typed. Both write the session into storage on success. */
module LoginForm {
  import opened Wrappers
  import opened Text
  import opened Forms
  import opened SessionStore

  const RememberKey: string := "rememberMe"
  const UsernameKey: string := "username"

  const BlankMessage: string := "Please fill in all fields"
  const RejectedDefault: string := "Login failed"
  const SuccessMessage: string := "Login successful! Redirecting..."
  const ThrownMessage: string := "Invalid username or password. Please try again."
  const BasicThrownMessage: string := "Invalid username or password"

  /** The login service's answer. */
  datatype LoginAnswer =
    | LoggedIn(access: string, refresh: string, user: User)
    | Rejected(message: Option<string>)
    | Threw

  /** The page's messages and storage after a submit, whether a request was
      sent, and the user handed to the App on success. */
  datatype Outcome = Outcome(error: string, success: string, storage: Storage, requested: bool, loggedIn: Option<User>)

  /** The EcoNext handleSubmit. */
  function Submit(form: Form, remember: bool, st: Storage, service: Form -> LoginAnswer,
                  serialize: User -> string): (r: Outcome)
    ensures r.requested <==>
      !AllSpace(Value(form, "username"), IsJsSpace) && !AllSpace(Value(form, "password"), IsJsSpace)
    ensures !r.requested ==> r.error == BlankMessage && r.storage == st && r.loggedIn.None?
    ensures r.loggedIn.Some? <==> r.requested && service(form).LoggedIn?
    ensures r.loggedIn.Some? ==>
      var a := service(form);
      && r.loggedIn == Some(a.user) && r.error == "" && r.success == SuccessMessage
      && Get(r.storage, AuthTokenKey) == Some(a.access)
      && Get(r.storage, RefreshTokenKey) == Some(a.refresh)
      && Get(r.storage, UserKey) == Some(serialize(a.user))
      && (remember ==> Get(r.storage, RememberKey) == Some("true")
                       && Get(r.storage, UsernameKey) == Some(Value(form, "username")))
      && (!remember ==> Get(r.storage, RememberKey) == Get(st, RememberKey)
                        && Get(r.storage, UsernameKey) == Get(st, UsernameKey))
      && (forall k :: k !in SessionKeys() && k != RememberKey && k != UsernameKey ==>
            Get(r.storage, k) == Get(st, k))
    ensures r.requested && service(form).Rejected? ==>
      r.storage == st && r.error == OrDefault(service(form).message, RejectedDefault)
    ensures r.requested && service(form).Threw? ==>
      r.storage == st && r.error == ThrownMessage
  {
    BlankIffAllSpace(Value(form, "username"));
    BlankIffAllSpace(Value(form, "password"));
    if Blank(Value(form, "username")) || Blank(Value(form, "password")) then
      Outcome(BlankMessage, "", st, false, None)
    else match service(form)
      case LoggedIn(access, refresh, u) =>
        var st1 := Persist(st, access, refresh, u, serialize);
        var st2 := Remember(st1, remember, Value(form, "username"));
        KeysDistinct();
        Outcome("", SuccessMessage, st2, true, Some(u))
      case Rejected(m) => Outcome(OrDefault(m, RejectedDefault), "", st, true, None)
      case Threw => Outcome(ThrownMessage, "", st, true, None)
  }

  /** The remember-me keys are not session keys. */
  lemma KeysDistinct()
    ensures RememberKey !in SessionKeys() && UsernameKey !in SessionKeys()
  {
  }

  /** The remember-me writes: both keys when asked, nothing otherwise. */
  function Remember(st: Storage, remember: bool, username: string): (r: Storage)
    ensures remember ==> Get(r, RememberKey) == Some("true") && Get(r, UsernameKey) == Some(username)
    ensures !remember ==> r == st
    ensures forall k :: k != RememberKey && k != UsernameKey ==> Get(r, k) == Get(st, k)
  {
    if remember then st[RememberKey := "true"][UsernameKey := username] else st
  }

  /** The older handleSubmit: no blank check, no remember-me, and a shorter
      message for a thrown request. */
  function SubmitBasic(form: Form, st: Storage, service: Form -> LoginAnswer,
                       serialize: User -> string): (r: Outcome)
    ensures r.requested
    ensures r.loggedIn.Some? <==> service(form).LoggedIn?
    ensures r.loggedIn.Some? ==>
      var a := service(form);
      r.loggedIn == Some(a.user) && r.error == "" && r.storage == Persist(st, a.access, a.refresh, a.user, serialize)
    ensures service(form).Rejected? ==> r.storage == st && r.error == OrDefault(service(form).message, RejectedDefault)
    ensures service(form).Threw? ==> r.storage == st && r.error == BasicThrownMessage
    ensures r.success == ""
  {
    match service(form)
    case LoggedIn(access, refresh, u) => Outcome("", "", Persist(st, access, refresh, u, serialize), true, Some(u))
    case Rejected(m) => Outcome(OrDefault(m, RejectedDefault), "", st, true, None)
    case Threw => Outcome(BasicThrownMessage, "", st, true, None)
  }

  /** The EcoNext handleChange: the field takes the new text and both
      messages are cleared. */
  function Change(form: Form, name: string, text: string): (r: (Form, string, string))
    ensures Value(r.0, name) == text
    ensures forall k :: k != name ==> Value(r.0, k) == Value(form, k)
    ensures r.1 == "" && r.2 == ""
  {
    (Edit(form, name, text), "", "")
  }

  /** The older handleChange clears the error (there is no success message). */
  function ChangeBasic(form: Form, name: string, text: string): (r: (Form, string))
    ensures Value(r.0, name) == text
    ensures forall k :: k != name ==> Value(r.0, k) == Value(form, k)
    ensures r.1 == ""
  {
    (Edit(form, name, text), "")
  }

  /** On the same non-blank form the two variants reach the same user and the
      same session keys; they differ only in the remember-me keys. */
  lemma VariantsAgreeOnSession(form: Form, remember: bool, st: Storage, service: Form -> LoginAnswer,
                               serialize: User -> string)
    requires !AllSpace(Value(form, "username"), IsJsSpace) && !AllSpace(Value(form, "password"), IsJsSpace)
    ensures var a := Submit(form, remember, st, service, serialize);
      var b := SubmitBasic(form, st, service, serialize);
      && a.loggedIn == b.loggedIn
      && (forall k :: k in SessionKeys() ==> Get(a.storage, k) == Get(b.storage, k))
      && (!remember ==> a.storage == b.storage)
  {
  }

  /** A remembered username outlives logout: clearing the session keeps the
      remember-me keys. */
  lemma RememberSurvivesLogout(form: Form, st: Storage, service: Form -> LoginAnswer, serialize: User -> string)
    requires !AllSpace(Value(form, "username"), IsJsSpace) && !AllSpace(Value(form, "password"), IsJsSpace)
    requires service(form).LoggedIn?
    ensures var r := Submit(form, true, st, service, serialize);
      && Get(ClearStorage(r.storage), RememberKey) == Some("true")
      && Get(ClearStorage(r.storage), UsernameKey) == Some(Value(form, "username"))
      && Get(ClearStorage(r.storage), AuthTokenKey) == None
  {
    KeysDistinct();
  }
}

=== FILE: price_predictor.dfy ===
/** The server's seven-day price forecaster: the history guard, the fitted
    line's seven predictions, the expected change against the current price,
    the wait / neutral / best_price bands, the confidence floor and the stored
    record. The regression itself is an input: the fitted line (in units of
    history positions, which standard scaling leaves affine) and its R². */
module PricePredictor {
  import opened Wrappers
  import opened Sums
  import ForecastCard

  const MinHistory: nat := 5
  const Horizon: nat := 7

  /** prepare_features: the positions 0 .. n - 1 against the prices, or
      nothing for a history shorter than five points. */
  function PrepareFeatures(prices: seq<real>): (r: Option<(seq<real>, seq<real>)>)
    ensures r.None? <==> |prices| < MinHistory
    ensures r.Some? ==> |r.value.0| == |prices| && r.value.1 == prices
    ensures r.Some? ==> forall i :: 0 <= i < |prices| ==> r.value.0[i] == i as real
  {
    if |prices| < MinHistory then None
    else Some((seq(|prices|, i requires 0 <= i < |prices| => i as real), prices))
  }

  /** A fitted line, price = intercept + slope * position, with its R² on the
      history it was fitted to. */
  datatype Fit = Fit(intercept: real, slope: real, r2: real)

  /** The line at the seven positions after an n-point history. */
  function Predictions(fit: Fit, n: nat): (p: seq<real>)
    ensures |p| == Horizon
    ensures forall k :: 0 <= k < Horizon ==> p[k] == fit.intercept + fit.slope * (n + k) as real
  {
    seq(Horizon, k requires 0 <= k < Horizon => fit.intercept + fit.slope * (n + k) as real)
  }

  function Mean(p: seq<real>): real
    requires |p| > 0
  {
    Sum(p) / |p| as real
  }

  lemma SumSeven(p: seq<real>)
    requires |p| == 7
    ensures Sum(p) == p[0] + p[1] + p[2] + p[3] + p[4] + p[5] + p[6]
  {
    var t6, t5, t4, t3, t2, t1 := p[6..], p[5..], p[4..], p[3..], p[2..], p[1..];
    assert t6[1..] == [];
    assert Sum(t6) == p[6];
    assert t5[1..] == t6;
    assert Sum(t5) == p[5] + Sum(t6);
    assert t4[1..] == t5;
    assert Sum(t4) == p[4] + Sum(t5);
    assert t3[1..] == t4;
    assert Sum(t3) == p[3] + Sum(t4);
    assert t2[1..] == t3;
    assert Sum(t2) == p[2] + Sum(t3);
    assert t1[1..] == t2;
    assert Sum(t1) == p[1] + Sum(t2);
  }

  /** The average of the seven predictions is the line's value at the middle
      day, position n + 3. */
  lemma MeanIsMiddleDay(fit: Fit, n: nat)
    ensures Mean(Predictions(fit, n)) == fit.intercept + fit.slope * (n + 3) as real
  {
    var p := Predictions(fit, n);
    SumSeven(p);
    var a, b, m := fit.intercept, fit.slope, n as real;
    assert Sum(p) == 7.0 * a + b * (7.0 * m + 21.0);
  }

  /** The expected change in percent. A current price of zero makes numpy's
      division give an infinity, or not-a-number for 0 / 0. */
  datatype Change = Finite(percent: real) | PosInf | NegInf | NaN

  function ChangePercent(mean: real, current: real): (c: Change)
    ensures current != 0.0 ==> c.Finite? && c.percent * current == (mean - current) * 100.0
    ensures current == 0.0 ==> (c == PosInf <==> mean > 0.0) && (c == NegInf <==> mean < 0.0) && (c == NaN <==> mean == 0.0)
  {
    if current != 0.0 then Finite((mean - current) / current * 100.0)
    else if mean > 0.0 then PosInf
    else if mean < 0.0 then NegInf
    else NaN
  }

  /** The three recommendations, in order from "hold off" to "buy now". */
  datatype Band = Wait | Neutral | BestPrice

  /** The stored recommendation text. */
  function Name(b: Band): string {
    match b
    case Wait => "wait"
    case Neutral => "neutral"
    case BestPrice => "best_price"
  }

  const Threshold: real := 5.0

  /** The banding: below -5 waits, above 5 is the best price, anything else
      (including exactly ±5) is neutral. An infinite change compares like any
      large number; not-a-number fails both tests. */
  function BandOf(c: Change): (b: Band)
    ensures b == Wait <==> (c.Finite? && c.percent < -Threshold) || c.NegInf?
    ensures b == BestPrice <==> (c.Finite? && c.percent > Threshold) || c.PosInf?
  {
    match c
    case Finite(v) => if v < -Threshold then Wait else if v > Threshold then BestPrice else Neutral
    case PosInf => BestPrice
    case NegInf => Wait
    case NaN => Neutral
  }

  function Rank(b: Band): int {
    match b
    case Wait => 0
    case Neutral => 1
    case BestPrice => 2
  }

  /** A larger change never gives a more cautious recommendation. */
  lemma BandMonotone(u: real, v: real)
    requires u <= v
    ensures Rank(BandOf(Finite(u))) <= Rank(BandOf(Finite(v)))
  {
  }

  /** For a positive current price the bands are price thresholds: best_price
      exactly when the mean forecast exceeds 105% of the price, wait exactly
      when it is below 95%. */
  lemma BandByPrice(mean: real, current: real)
    requires current > 0.0
    ensures BandOf(ChangePercent(mean, current)) == BestPrice <==> mean * 20.0 > current * 21.0
    ensures BandOf(ChangePercent(mean, current)) == Wait <==> mean * 20.0 < current * 19.0
  {
    var c := ChangePercent(mean, current);
    var v := c.percent;
    assert v * current == (mean - current) * 100.0;
    if v > Threshold {
      ScaleStrict(5.0, v, current);
    } else {
      Scale(v, 5.0, current);
    }
    if v < -Threshold {
      ScaleStrict(v, -5.0, current);
    } else {
      Scale(-5.0, v, current);
    }
  }

  lemma ScaleStrict(x: real, y: real, c: real)
    requires x < y && c > 0.0
    ensures x * c < y * c
  {
  }

  lemma Scale(x: real, y: real, c: real)
    requires x <= y && c > 0.0
    ensures x * c <= y * c
  {
  }

  /** confidence: the R² score floored at zero. */
  function Confidence(r2: real): (c: real)
    ensures c >= 0.0 && c >= r2
    ensures c == r2 || c == 0.0
  {
    if r2 >= 0.0 then r2 else 0.0
  }

  /** What train_and_predict returns. */
  datatype Forecast = Forecast(predictions: seq<real>, recommendation: Band, confidence: real, change: Change)

  /** train_and_predict: nothing for a short history; otherwise the seven
      predictions of the line fitted to it, the change of their mean against
      the current price, its band and the floored R². */
  function TrainAndPredict(prices: seq<real>, current: real, fit: seq<real> -> Fit): (r: Option<Forecast>)
    ensures r.None? <==> |prices| < MinHistory
    ensures r.Some? ==>
      var line := fit(prices);
      && r.value.predictions == Predictions(line, |prices|)
      && r.value.change == ChangePercent(line.intercept + line.slope * (|prices| + 3) as real, current)
      && r.value.recommendation == BandOf(r.value.change)
      && r.value.confidence >= 0.0
      && r.value.confidence == Confidence(line.r2)
  {
    match PrepareFeatures(prices)
    case None => None
    case Some(_) =>
      var line := fit(prices);
      var predictions := Predictions(line, |prices|);
      MeanIsMiddleDay(line, |prices|);
      var change := ChangePercent(Mean(predictions), current);
      Some(Forecast(predictions, BandOf(change), Confidence(line.r2), change))
  }

  /** A stored prediction: the seven day prices in order, the change, the
      recommendation and the confidence. */
  datatype Stored = Stored(days: seq<real>, change: Change, recommendation: Band, confidence: real)

  function StoredOf(f: Forecast): (s: Stored)
    requires |f.predictions| == Horizon
    ensures |s.days| == Horizon && forall i :: 0 <= i < Horizon ==> s.days[i] == f.predictions[i]
    ensures s.change == f.change && s.recommendation == f.recommendation && s.confidence == f.confidence
  {
    Stored(f.predictions, f.change, f.recommendation, f.confidence)
  }

  const UnknownField: string := "PricePrediction() got unexpected keyword arguments: 'price_change'"

  /** save_predictions as written: a history too short for a forecast stores
      nothing; any forecast is passed to the create call with a `price_change`
      argument the prediction model does not declare, which Django refuses. */
  function SaveAsWritten(prices: seq<real>, current: real, fit: seq<real> -> Fit): (r: Result<Option<Stored>, string>)
    ensures r == Success(None) <==> |prices| < MinHistory
    ensures r.Failure? <==> |prices| >= MinHistory
  {
    match TrainAndPredict(prices, current, fit)
    case None => Success(None)
    case Some(_) => Failure(UnknownField)
  }

  /** save_predictions with the field the serializer also expects: nothing
      for a short history, otherwise day k holds the k-th prediction. */
  function Save(prices: seq<real>, current: real, fit: seq<real> -> Fit): (r: Option<Stored>)
    ensures r.None? <==> |prices| < MinHistory
    ensures r.Some? ==>
      var f := TrainAndPredict(prices, current, fit).value;
      && |r.value.days| == Horizon
      && (forall i :: 0 <= i < Horizon ==> r.value.days[i] == fit(prices).intercept + fit(prices).slope * (|prices| + i) as real)
      && r.value.recommendation == f.recommendation
      && r.value.confidence == f.confidence
      && r.value.change == f.change
  {
    match TrainAndPredict(prices, current, fit)
    case None => None
    case Some(f) => Some(StoredOf(f))
  }

  /** Every forecast the corrected save would store is refused by the
      as-written one. */
  lemma SaveAsWrittenLosesEveryForecast(prices: seq<real>, current: real, fit: seq<real> -> Fit)
    requires Save(prices, current, fit).Some?
    ensures SaveAsWritten(prices, current, fit) == Failure(UnknownField)
  {
  }

  /** The stored record as the product card receives it: day prices under
      keys 1 to 7, and the change only when it is a finite number. */
  function AsCardInput(s: Stored): (p: ForecastCard.Prediction)
    requires |s.days| == Horizon
    ensures forall i :: 1 <= i <= Horizon ==> i in p.dayPrices && p.dayPrices[i] == s.days[i - 1]
    ensures p.recommendation == Name(s.recommendation)
    ensures p.confidenceScore == Some(s.confidence)
  {
    ForecastCard.Prediction(
      map[1 := s.days[0], 2 := s.days[1], 3 := s.days[2], 4 := s.days[3],
          5 := s.days[4], 6 := s.days[5], 7 := s.days[6]],
      Name(s.recommendation),
      Some(s.confidence),
      if s.change.Finite? then Some(s.change.percent) else None)
  }

  /** The card's tone follows the server's band: best_price is shown
      positive, wait cautious, neutral neutral. */
  lemma CardToneFollowsBand(b: Band)
    ensures ForecastCard.ToneOf(Name(b)) == (match b
      case BestPrice => ForecastCard.Positive
      case Wait => ForecastCard.Caution
      case Neutral => ForecastCard.Neutral)
  {
    match b
    case BestPrice =>
    case Wait =>
      assert Name(b) != "best_price" by {
        assert Name(b)[0] != "best_price"[0];
      }
    case Neutral =>
      assert Name(b) != "best_price" by {
        assert Name(b)[0] != "best_price"[0];
      }
      assert Name(b) != "wait" by {
        assert Name(b)[0] != "wait"[0];
      }
  }

  /** A saved forecast never shows a negative confidence on the card, and its
      series is the seven predictions whenever none of them is zero. */
  lemma CardShowsSavedForecast(prices: seq<real>, current: real, fit: seq<real> -> Fit, shownPrice: real)
    requires Save(prices, current, fit).Some?
    requires forall i :: 0 <= i < Horizon ==> Save(prices, current, fit).value.days[i] != 0.0
    ensures var card := AsCardInput(Save(prices, current, fit).value);
      && ForecastCard.Confidence(card) >= 0
      && ForecastCard.Series(card, shownPrice) == Save(prices, current, fit).value.days
  {
    var s := Save(prices, current, fit).value;
    var card := AsCardInput(s);
    var series := ForecastCard.Series(card, shownPrice);
    forall i | 0 <= i < Horizon
      ensures series[i] == s.days[i]
    {
      assert ForecastCard.DayPrice(card, i + 1).Some?;
    }
  }
}

=== FILE: product_views.dfy ===
/** The product endpoints of the server: the paginated product list, the
    product detail with its latest price prediction, the intent and visual
    search endpoints, and the trending list. Every view wraps its work in a
    catch-all that answers 400 with the exception's text; the model returns
    that text in `BadRequest`. Database contents are inputs: the catalogue in
    its default order, prediction rows, trending rows and the clock. */
module ProductViews {
  import opened Wrappers
  import opened Text
  import opened Sorting
  import opened IntentSearch

  /** The answers these views give: 200 with a body, or 400 with a message. */
  datatype Reply<T> = Ok(body: T) | BadRequest(error: string)

  function Min(a: int, b: int): int { if a <= b then a else b }
  function Max(a: int, b: int): int { if a >= b then a else b }

  // ---------------------------------------------------------------------
  // product_list

  /** A query-string parameter: absent, an integer, or text `int()` rejects. */
  datatype Param = Absent | Number(n: int) | NotANumber(text: string)

  /** `int(request.GET.get(name, default))`. */
  function IntOf(p: Param, default: int): (r: Result<int, string>)
    ensures p.Absent? ==> r == Success(default)
    ensures p.Number? ==> r == Success(p.n)
    ensures r.Failure? <==> p.NotANumber?
  {
    match p
    case Absent => Success(default)
    case Number(n) => Success(n)
    case NotANumber(t) => Failure("invalid literal for int() with base 10: '" + t + "'")
  }

  const NegativeIndexing: string := "Negative indexing is not supported."

  /** A queryset slice `[start:end]`: refused when either bound is negative,
      otherwise the elements from `start` up to `end`, cut at the end of the
      sequence, and none when `end <= start`. */
  function Slice<T>(xs: seq<T>, start: int, end: int): (r: Result<seq<T>, string>)
    ensures r.Failure? <==> start < 0 || end < 0
    ensures r.Failure? ==> r.error == NegativeIndexing
    ensures r.Success? ==> |r.value| == Max(0, Min(end, |xs|) - start)
    ensures r.Success? ==> forall i :: 0 <= i < |r.value| ==> start + i < end && r.value[i] == xs[start + i]
  {
    if start < 0 || end < 0 then Failure(NegativeIndexing)
    else if start >= Min(end, |xs|) then Success([])
    else Success(xs[start..Min(end, |xs|)])
  }

  /** The list body: the catalogue size, the page as it was given, and the
      page's products. */
  datatype ListBody<T> = ListBody(totalCount: nat, page: Param, products: seq<T>)

  const DefaultPage: int := 1
  const DefaultPerPage: int := 12

  /** The first and last positions `int(page)` and `int(per_page)` give. */
  function Bounds(page: Param, perPage: Param): (r: Result<(int, int), string>)
    ensures r.Failure? <==> page.NotANumber? || perPage.NotANumber?
    ensures r.Success? ==>
      var p := IntOf(page, DefaultPage).value;
      var pp := IntOf(perPage, DefaultPerPage).value;
      r.value.0 == Start(p, pp) && r.value.1 == r.value.0 + pp
  {
    match (IntOf(page, DefaultPage), IntOf(perPage, DefaultPerPage))
    case (Failure(e), _) => Failure(e)
    case (_, Failure(e)) => Failure(e)
    case (Success(p), Success(pp)) => Success((Start(p, pp), Start(p, pp) + pp))
  }

  /** product_list: page `page` of `perPage` products, i.e. products
      (page - 1) * perPage up to page * perPage; at most `perPage` of them. */
  function ProductList<T>(catalog: seq<T>, page: Param, perPage: Param): (r: Reply<ListBody<T>>)
    ensures Bounds(page, perPage).Failure? ==> r == BadRequest(Bounds(page, perPage).error)
    ensures Bounds(page, perPage).Success? ==>
      var (start, end) := Bounds(page, perPage).value;
      && (r.BadRequest? <==> start < 0 || end < 0)
      && (r.BadRequest? ==> r.error == NegativeIndexing)
      && (r.Ok? ==>
        && r.body.totalCount == |catalog|
        && r.body.page == (if page.Absent? then Number(DefaultPage) else page)
        && |r.body.products| == Max(0, Min(end, |catalog|) - start) <= Max(0, end - start)
        && forall i :: 0 <= i < |r.body.products| ==> r.body.products[i] == catalog[start + i])
  {
    match Bounds(page, perPage)
    case Failure(e) => BadRequest(e)
    case Success((start, end)) =>
      match Slice(catalog, start, end)
      case Failure(e) => BadRequest(e)
      case Success(s) => Ok(ListBody(|catalog|, if page.Absent? then Number(DefaultPage) else page, s))
  }

  /** The first position of a page. */
  function Start(page: int, perPage: int): int { (page - 1) * perPage }

  /** The products a valid page holds. */
  function Window<T>(catalog: seq<T>, page: nat, perPage: nat): (r: seq<T>)
    requires page >= 1
    ensures r == catalog[Min(Start(page, perPage), |catalog|)..Min(Start(page, perPage) + perPage, |catalog|)]
  {
    var lo := Min(Start(page, perPage), |catalog|);
    var hi := Min(Start(page, perPage) + perPage, |catalog|);
    catalog[lo..hi]
  }

  /** For page >= 1 and a non-negative page size the view answers with that
      page's window. */
  lemma ListIsWindow<T>(catalog: seq<T>, page: nat, perPage: nat)
    requires page >= 1
    ensures ProductList(catalog, Number(page), Number(perPage)).Ok?
    ensures ProductList(catalog, Number(page), Number(perPage)).body.products == Window(catalog, page, perPage)
  {
    var start := Start(page, perPage);
    assert start >= 0 by {
      assert (page - 1) * perPage >= 0;
    }
  }

  /** With no parameters the view shows the first twelve products. */
  lemma DefaultIsFirstTwelve<T>(catalog: seq<T>)
    ensures ProductList(catalog, Absent, Absent) == Ok(ListBody(|catalog|, Number(1), catalog[..Min(12, |catalog|)]))
  {
  }

  /** Consecutive pages meet: page p followed by page p + 1 is the run of
      products from the start of page p to the end of page p + 1. */
  lemma {:induction false} PagesAreContiguous<T>(catalog: seq<T>, page: nat, perPage: nat)
    requires page >= 1
    ensures Window(catalog, page, perPage) + Window(catalog, page + 1, perPage)
      == catalog[Min(Start(page, perPage), |catalog|)..Min(Start(page + 2, perPage), |catalog|)]
  {
    assert Start(page + 1, perPage) == Start(page, perPage) + perPage;
    assert Start(page + 2, perPage) == Start(page + 1, perPage) + perPage;
    assert Start(page, perPage) >= 0 by {
      assert (page - 1) * perPage >= 0;
    }
    var a := Min(Start(page, perPage), |catalog|);
    var b := Min(Start(page + 1, perPage), |catalog|);
    var c := Min(Start(page + 2, perPage), |catalog|);
    assert catalog[a..b] + catalog[b..c] == catalog[a..c];
  }

  /** Every product is on exactly the page its position says: product i is
      item i % perPage of page i / perPage + 1. */
  lemma ProductOnItsPage<T>(catalog: seq<T>, perPage: nat, i: nat)
    requires perPage > 0 && i < |catalog|
    ensures var w := Window(catalog, i / perPage + 1, perPage);
      i % perPage < |w| && w[i % perPage] == catalog[i]
  {
    var q := i / perPage;
    assert i == q * perPage + i % perPage;
    assert Start(q + 1, perPage) == q * perPage;
  }

  /** A page size or page number that puts a bound below zero is refused with
      Django's message, not answered with an empty page. */
  lemma NegativePageRefused<T>(catalog: seq<T>)
    ensures ProductList(catalog, Number(0), Number(12)) == BadRequest(NegativeIndexing)
    ensures ProductList(catalog, Number(2), Number(-3)) == BadRequest(NegativeIndexing)
  {
  }

  // ---------------------------------------------------------------------
  // product_detail

  /** A stored price prediction: the product it belongs to, its date and its
      contents. */
  datatype PredictionRow<T> = PredictionRow(productId: int, date: int, value: T)

  /** The latest prediction of a product, by date. Ties between equal dates
      are resolved by the database; the model takes the first such row. */
  function Latest<T>(rows: seq<PredictionRow<T>>, id: int): (r: Option<nat>)
    ensures r.None? <==> forall j :: 0 <= j < |rows| ==> rows[j].productId != id
    ensures r.Some? ==> r.value < |rows| && rows[r.value].productId == id
    ensures r.Some? ==> forall j :: 0 <= j < |rows| && rows[j].productId == id ==> rows[j].date <= rows[r.value].date
  {
    if |rows| == 0 then None
    else
      var rest := Latest(rows[..|rows| - 1], id);
      var last := |rows| - 1;
      if rows[last].productId != id then rest
      else if rest.None? || rows[rest.value].date < rows[last].date then Some(last)
      else rest
  }

  datatype DetailBody<P, T> = DetailBody(product: P, prediction: Option<T>)

  /** What the detail view did: its answer and whether it logged a view. */
  datatype Detail<P, T> = Detail(reply: Reply<DetailBody<P, T>>, logged: bool)

  /** `get_object_or_404`'s message, which the catch-all turns into a 400. */
  function NotFound(model: string): string {
    "No " + model + " matches the given query."
  }

  /** product_detail: a missing product answers 400 with the not-found text;
      an existing one is logged as viewed when the user is signed in, and
      answered with its latest prediction or with none. */
  function ProductDetail<P, T>(catalog: map<int, P>, rows: seq<PredictionRow<T>>, id: int, signedIn: bool): (r: Detail<P, T>)
    ensures id !in catalog ==> r == Detail(BadRequest(NotFound("Product")), false)
    ensures r.logged <==> signedIn && id in catalog
    ensures id in catalog ==> r.reply.Ok? && r.reply.body.product == catalog[id]
    ensures id in catalog ==>
      (r.reply.body.prediction.None? <==> forall j :: 0 <= j < |rows| ==> rows[j].productId != id)
    ensures id in catalog && r.reply.body.prediction.Some? ==>
      exists j :: 0 <= j < |rows| && rows[j].productId == id && r.reply.body.prediction.value == rows[j].value
        && forall k :: 0 <= k < |rows| && rows[k].productId == id ==> rows[k].date <= rows[j].date
  {
    if id !in catalog then Detail(BadRequest(NotFound("Product")), false)
    else
      var prediction := match Latest(rows, id)
        case None => None
        case Some(j) => Some(rows[j].value);
      Detail(Ok(DetailBody(catalog[id], prediction)), signedIn)
  }

  // ---------------------------------------------------------------------
  // intent_search

  const QueryRequired: string := "Search query required"

  datatype IntentBody = IntentBody(query: string, results: Groups, totalFound: nat)

  /** What the intent view did: its answer and the query it logged, if any. */
  datatype IntentAnswer = IntentAnswer(reply: Reply<IntentBody>, logged: Option<string>)

  /** intent_search: the `q` parameter (empty when absent) stripped; a blank
      query is refused before anything is logged or searched. Otherwise the
      query is logged and answered with the per-category recommendations and
      their total. `scores` are the catalogue's similarities to the stripped
      query. */
  function IntentView(q: Option<string>, catalog: seq<CatalogProduct>, scores: seq<real>): (r: IntentAnswer)
    requires |scores| == |catalog|
    ensures PyStrip(q.GetOr("")) == "" <==> r.reply.BadRequest?
    ensures r.reply.BadRequest? ==> r == IntentAnswer(BadRequest(QueryRequired), None)
    ensures r.reply.Ok? ==>
      var query := PyStrip(q.GetOr(""));
      && r.logged == Some(query)
      && r.reply.body.query == query
      && r.reply.body.results == CategoryRecommendations(catalog, scores, query)
      && r.reply.body.totalFound == |Search(catalog, scores, query, 20)|
  {
    var query := PyStrip(q.GetOr(""));
    if query == "" then IntentAnswer(BadRequest(QueryRequired), None)
    else
      var groups := CategoryRecommendations(catalog, scores, query);
      GroupsCountEveryHit(catalog, scores, query);
      IntentAnswer(Ok(IntentBody(query, groups, TotalSize(groups))), Some(query))
  }

  /** A query of spaces only is refused without logging. */
  lemma BlankQueryRefused(q: string, catalog: seq<CatalogProduct>, scores: seq<real>)
    requires |scores| == |catalog|
    requires AllSpace(q, IsPySpace)
    ensures IntentView(Some(q), catalog, scores) == IntentAnswer(BadRequest(QueryRequired), None)
  {
    StripEmptyIffBlank(q, IsPySpace);
  }

  /** intent_search on the search as written: the query is logged before the
      search runs, so an empty catalogue, on which the search raises, is
      answered 400 with the error's text while the log entry stays. On a
      non-empty catalogue it answers as IntentView does. */
  function IntentViewAsWritten(q: Option<string>, catalog: seq<CatalogProduct>, scores: seq<real>): (r: IntentAnswer)
    requires |scores| == |catalog|
    ensures PyStrip(q.GetOr("")) == "" || |catalog| > 0 ==> r == IntentView(q, catalog, scores)
    ensures PyStrip(q.GetOr("")) != "" && |catalog| == 0 ==>
      && r.reply.BadRequest? && r.reply.error != QueryRequired
      && r.logged == Some(PyStrip(q.GetOr("")))
  {
    var query := PyStrip(q.GetOr(""));
    if query == "" then IntentAnswer(BadRequest(QueryRequired), None)
    else match SearchAsWritten(catalog, scores, query, 20)
      case Failure(e) => IntentAnswer(BadRequest(e), Some(query))
      case Success(_) => IntentView(q, catalog, scores)
  }

  /** On an empty catalogue a non-blank query is answered 400 as written, and
      with no results by the view on the corrected search. */
  lemma EmptyCatalogueAnswers(q: string)
    requires PyStrip(q) != ""
    ensures IntentViewAsWritten(Some(q), [], []).reply.BadRequest?
    ensures IntentView(Some(q), [], []).reply == Ok(IntentBody(PyStrip(q), [], 0))
  {
    var query := PyStrip(q);
    assert Search([], [], query, 20) == [];
    assert GroupByCategory([]) == [];
  }

  /** total_found counts every hit of every group. */
  lemma TotalFoundCountsGroups(q: Option<string>, catalog: seq<CatalogProduct>, scores: seq<real>)
    requires |scores| == |catalog|
    ensures var r := IntentView(q, catalog, scores);
      r.reply.Ok? ==> r.reply.body.totalFound == TotalSize(r.reply.body.results)
  {
  }

  // ---------------------------------------------------------------------
  // visual_search

  const ImageRequired: string := "Image file required"
  const ImageUnreadable: string := "Could not process image"

  datatype VisualResult<P> = VisualResult(product: P, similarity: real)
  datatype VisualBody<P> = VisualBody(results: seq<VisualResult<P>>, totalFound: nat)

  /** visual_search: no uploaded image, or one the feature extractor cannot
      read, is refused; otherwise the engine's ten nearest products become the
      results, one per pair and in the engine's order. */
  function VisualView<I, F, P>(image: Option<I>, extract: I -> Option<F>, nearest: (F, nat) -> seq<(P, real)>): (r: Reply<VisualBody<P>>)
    ensures image.None? ==> r == BadRequest(ImageRequired)
    ensures image.Some? && extract(image.value).None? ==> r == BadRequest(ImageUnreadable)
    ensures r.Ok? <==> image.Some? && extract(image.value).Some?
    ensures r.Ok? ==>
      var pairs := nearest(extract(image.value).value, 10);
      && |r.body.results| == |pairs| == r.body.totalFound
      && forall i :: 0 <= i < |pairs| ==> r.body.results[i] == VisualResult(pairs[i].0, pairs[i].1)
  {
    match image
    case None => BadRequest(ImageRequired)
    case Some(img) =>
      match extract(img)
      case None => BadRequest(ImageUnreadable)
      case Some(f) =>
        var pairs := nearest(f, 10);
        var results := seq(|pairs|, i requires 0 <= i < |pairs| => VisualResult(pairs[i].0, pairs[i].1));
        Ok(VisualBody(results, |results|))
  }

  // ---------------------------------------------------------------------
  // trending_now

  /** A stored trending record: the product's id, its rank, when it was
      written (in seconds) and its three counters. */
  datatype TrendingRow = TrendingRow(productId: int, rank: int, timestamp: int, views: int, searches: int, purchases: int)

  const OneHour: int := 3600
  const TrendingLimit: nat := 10

  /** The records written in the last hour, in stored order. */
  function Recent(rows: seq<TrendingRow>, now: int): (r: seq<TrendingRow>)
    ensures forall t :: t in r <==> t in rows && t.timestamp >= now - OneHour
    ensures multiset(r) <= multiset(rows)
  {
    if |rows| == 0 then []
    else
      assert rows == [rows[0]] + rows[1..];
      (if rows[0].timestamp >= now - OneHour then [rows[0]] else []) + Recent(rows[1..], now)
  }

  function RankKey(t: TrendingRow): real { -(t.rank as real) }

  /** No record is followed by one of smaller rank. */
  predicate AscendingRank(s: seq<TrendingRow>) {
    forall i, j :: 0 <= i < j < |s| ==> s[i].rank <= s[j].rank
  }

  /** The first ten of a sequence, or all of it when shorter. */
  function FirstTen<T>(s: seq<T>): (r: seq<T>)
    ensures |r| <= TrendingLimit
    ensures |s| <= TrendingLimit ==> r == s
    ensures |s| > TrendingLimit ==> s == r + s[TrendingLimit..]
  {
    if |s| <= TrendingLimit then s else s[..TrendingLimit]
  }

  /** trending_now: the last hour's records by ascending rank, at most ten.
      The order of equal ranks is the database's; the model keeps stored
      order. */
  function TrendingNow(rows: seq<TrendingRow>, now: int): (r: seq<TrendingRow>)
    ensures |r| <= TrendingLimit
    ensures AscendingRank(r)
    ensures forall t :: t in r ==> t in rows && t.timestamp >= now - OneHour
    ensures |Recent(rows, now)| <= TrendingLimit ==> multiset(r) == multiset(Recent(rows, now))
    ensures |r| == Min(|Recent(rows, now)|, TrendingLimit)
    ensures multiset(r) <= multiset(Recent(rows, now))
  {
    var recent := Recent(rows, now);
    var sorted := SortDesc(recent, RankKey);
    var r := FirstTen(sorted);
    assert NonIncreasing(r, RankKey);
    assert multiset(r) <= multiset(sorted);
    assert forall t :: t in r ==> t in multiset(recent);
    r
  }

  /** A recent record left out of the ten ranks no better than any shown. */
  lemma TrendingKeepsBestRanks(rows: seq<TrendingRow>, now: int, t: TrendingRow, u: TrendingRow)
    requires u in TrendingNow(rows, now)
    requires multiset(TrendingNow(rows, now))[t] < multiset(Recent(rows, now))[t]
    ensures u.rank <= t.rank
  {
    var recent := Recent(rows, now);
    var sorted := SortDesc(recent, RankKey);
    var r := FirstTen(sorted);
    assert TrendingNow(rows, now) == r;
    assert multiset(r)[t] < multiset(sorted)[t];
    assert |sorted| > TrendingLimit;
    LeftOutRanksNoBetter(sorted, r, t, u);
  }

  /** In a list sorted by ascending rank, an element the first ten leave out
      ranks no better than any of the ten. */
  lemma LeftOutRanksNoBetter(sorted: seq<TrendingRow>, r: seq<TrendingRow>, t: TrendingRow, u: TrendingRow)
    requires NonIncreasing(sorted, RankKey) && |sorted| > TrendingLimit
    requires sorted == r + sorted[TrendingLimit..]
    requires u in r && multiset(r)[t] < multiset(sorted)[t]
    ensures u.rank <= t.rank
  {
    var rest := sorted[TrendingLimit..];
    assert multiset(sorted) == multiset(r) + multiset(rest);
    assert t in rest;
    var k :| 0 <= k < |rest| && rest[k] == t;
    var n :| 0 <= n < |r| && r[n] == u;
    assert sorted[n] == u && sorted[|r| + k] == t;
  }
}

=== FILE: server_cart.dfy ===
/** The server's cart and order endpoints over an abstract database: the set of
    users who own a cart, the cart-item table, the products' current prices and
    the order table, and the activity log. Each endpoint returns a reply and the database after it.
    Every error the views catch becomes a 400 reply, including the "not found"
    that `get_object_or_404` raises inside their `try` blocks. */
module ServerCart {
  import opened Wrappers
  import opened Sums

  /** One cart-item row: its id, the owning user, the product and the
      quantity. */
  datatype Item = Item(id: nat, owner: int, productId: int, quantity: int)

  datatype OrderLine = OrderLine(productId: int, quantity: int, priceAtPurchase: real)

  datatype Shipping = Shipping(address: string, city: string, state: string, zipcode: string, country: string)

  datatype Order = Order(id: nat, owner: int, total: real, shipping: Shipping, status: string, lines: seq<OrderLine>)

  /** One activity-log entry: who did what to which product, and how many. */
  datatype Activity = Activity(user: int, action: string, productId: int, quantity: int)

  datatype Db = Db(
    carts: set<int>,
    items: seq<Item>,
    prices: map<int, real>,
    orders: seq<Order>,
    log: seq<Activity>,
    nextItemId: nat,
    nextOrderId: nat)

  datatype Reply = Ok | BadRequest(error: string) | Forbidden(error: string)

  /** No two rows share a key. */
  predicate Distinct<K(==)>(s: seq<Item>, key: Item -> K) {
    forall i, j :: 0 <= i < j < |s| ==> key(s[i]) != key(s[j])
  }

  function ItemId(x: Item): nat { x.id }
  function Slot(x: Item): (int, int) { (x.owner, x.productId) }

  /** No two orders share an id. */
  predicate DistinctOrderIds(orders: seq<Order>) {
    forall i, j :: 0 <= i < j < |orders| ==> orders[i].id != orders[j].id
  }

  /** The database's standing facts: item ids are unique and below the next
      id, a user holds at most one item per product, every item's product
      exists and its owner has a cart; order ids are unique and below the
      next order id. */
  predicate Valid(db: Db) {
    && Distinct(db.items, ItemId)
    && Distinct(db.items, Slot)
    && (forall i :: 0 <= i < |db.items| ==> db.items[i].id < db.nextItemId)
    && (forall i :: 0 <= i < |db.items| ==> db.items[i].productId in db.prices)
    && (forall i :: 0 <= i < |db.items| ==> db.items[i].owner in db.carts)
    && (forall i :: 0 <= i < |db.orders| ==> db.orders[i].id < db.nextOrderId)
    && DistinctOrderIds(db.orders)
  }

  /** The rows that `drop` does not select, in table order. */
  function Keep(items: seq<Item>, drop: Item -> bool): (r: seq<Item>)
    ensures forall x :: x in r <==> x in items && !drop(x)
    ensures |r| <= |items|
  {
    if |items| == 0 then []
    else if drop(items[0]) then Keep(items[1..], drop)
    else [items[0]] + Keep(items[1..], drop)
  }

  lemma {:induction false} KeepDistinct<K>(items: seq<Item>, drop: Item -> bool, key: Item -> K)
    requires Distinct(items, key)
    ensures Distinct(Keep(items, drop), key)
  {
    if |items| > 0 {
      KeepDistinct(items[1..], drop, key);
      var rest := Keep(items[1..], drop);
      if !drop(items[0]) {
        forall j | 0 <= j < |rest|
          ensures key(items[0]) != key(rest[j])
        {
          assert rest[j] in items[1..];
          var m :| 0 <= m < |items[1..]| && items[1..][m] == rest[j];
          assert items[m + 1] == rest[j];
        }
      }
    }
  }

  /** A user's cart items, in table order. */
  function ItemsOf(items: seq<Item>, user: int): (r: seq<Item>)
    ensures forall x :: x in r <==> x in items && x.owner == user
  {
    Keep(items, (x: Item) => x.owner != user)
  }

  /** A user's items are taken in table order: the items of a concatenation
      are the items of each part, in turn, and a single row is kept exactly
      when the user owns it. */
  lemma {:induction false} ItemsOfKeepsTableOrder(a: seq<Item>, b: seq<Item>, x: Item, user: int)
    ensures ItemsOf(a + b, user) == ItemsOf(a, user) + ItemsOf(b, user)
    ensures ItemsOf([x], user) == (if x.owner == user then [x] else [])
  {
    KeepAppend(a, b, (y: Item) => y.owner != user);
    assert [x][1..] == [];
  }

  lemma {:induction false} KeepAppend(a: seq<Item>, b: seq<Item>, drop: Item -> bool)
    ensures Keep(a + b, drop) == Keep(a, drop) + Keep(b, drop)
  {
    if |a| > 0 {
      assert (a + b)[0] == a[0];
      assert (a + b)[1..] == a[1..] + b;
      KeepAppend(a[1..], b, drop);
    } else {
      assert a + b == b;
    }
  }

  /** The row with this id in this user's cart, if any. */
  function FindItem(items: seq<Item>, user: int, itemId: nat): (r: Option<Item>)
    ensures r.Some? ==> r.value in items && r.value.id == itemId && r.value.owner == user
    ensures r.None? ==> forall x :: x in items ==> !(x.id == itemId && x.owner == user)
  {
    if |items| == 0 then None
    else if items[0].id == itemId && items[0].owner == user then Some(items[0])
    else FindItem(items[1..], user, itemId)
  }

  /** This user's row for this product, if any. */
  function FindSlot(items: seq<Item>, user: int, productId: int): (r: Option<Item>)
    ensures r.Some? ==> r.value in items && Slot(r.value) == (user, productId)
    ensures r.None? ==> forall x :: x in items ==> Slot(x) != (user, productId)
  {
    if |items| == 0 then None
    else if Slot(items[0]) == (user, productId) then Some(items[0])
    else FindSlot(items[1..], user, productId)
  }

  /** Every row with this id takes quantity `q`; all other rows are kept. */
  function SetRowQuantity(items: seq<Item>, itemId: nat, q: int): (r: seq<Item>)
    ensures |r| == |items|
    ensures forall i :: 0 <= i < |items| ==>
      r[i] == (if items[i].id == itemId then items[i].(quantity := q) else items[i])
  {
    seq(|items|, i requires 0 <= i < |items| =>
      if items[i].id == itemId then items[i].(quantity := q) else items[i])
  }

  /** The quantity this user holds of this product (0 when there is no row). */
  function HeldQuantity(db: Db, user: int, productId: int): int {
    match FindSlot(db.items, user, productId)
    case Some(x) => x.quantity
    case None => 0
  }

  function NotFound(model: string): string {
    "No " + model + " matches the given query."
  }

  /** add_to_cart. `productId` is None when absent or null and `quantity` is
      None when absent (it then defaults to 1). A falsy product id or an
      unknown product is refused with nothing changed; otherwise the user gets
      a cart if needed and the product's row is created with the quantity or
      increased by it. The quantity is not checked for sign. */
  function AddToCart(db: Db, user: int, productId: Option<int>, quantity: Option<int>): (r: (Reply, Db))
    requires Valid(db)
    ensures Valid(r.1)
    ensures productId.None? || productId.value == 0 ==> r == (BadRequest("product_id required"), db)
    ensures productId.Some? && productId.value != 0 && productId.value !in db.prices ==>
      r == (BadRequest(NotFound("Product")), db)
    ensures r.0.Ok? <==> productId.Some? && productId.value != 0 && productId.value in db.prices
    ensures r.0.Ok? ==>
      && user in r.1.carts
      && FindSlot(r.1.items, user, productId.value).Some?
      && HeldQuantity(r.1, user, productId.value) == HeldQuantity(db, user, productId.value) + quantity.GetOr(1)
      && r.1.orders == db.orders && r.1.prices == db.prices
      && AgreeOutside(db.items, r.1.items, (user, productId.value))
      && r.1.log == db.log + [Activity(user, "add_to_cart", productId.value, quantity.GetOr(1))]
  {
    if productId.None? || productId.value == 0 then (BadRequest("product_id required"), db)
    else if productId.value !in db.prices then (BadRequest(NotFound("Product")), db)
    else AddQuantity(db, user, productId.value, quantity.GetOr(1))
  }

  /** The accepted half of add_to_cart: the user gets a cart if needed, and
      the product's row is created with `q` or increased by `q`. */
  function AddQuantity(db: Db, user: int, p: int, q: int): (r: (Reply, Db))
    requires Valid(db) && p in db.prices
    ensures r.0 == Ok && Valid(r.1)
    ensures user in r.1.carts
    ensures FindSlot(r.1.items, user, p).Some?
    ensures HeldQuantity(r.1, user, p) == HeldQuantity(db, user, p) + q
    ensures r.1.orders == db.orders && r.1.prices == db.prices
    ensures AgreeOutside(db.items, r.1.items, (user, p))
    ensures r.1.log == db.log + [Activity(user, "add_to_cart", p, q)]
  {
    match FindSlot(db.items, user, p)
    case Some(x) =>
      IncreasedRow(db, x, q);
      (Ok, Increased(db, x, q))
    case None => (Ok, Inserted(db, user, p, q))
  }

  /** add_to_cart on a product the user already holds: the row grows by q. */
  function Increased(db: Db, x: Item, q: int): (d: Db)
    requires Valid(db) && x in db.items
    ensures Valid(d) && x.owner in d.carts
    ensures d.orders == db.orders && d.prices == db.prices
    ensures d.log == db.log + [Activity(x.owner, "add_to_cart", x.productId, q)]
  {
    var items := SetRowQuantity(db.items, x.id, x.quantity + q);
    var d1 := db.(items := items);
    SetRowKeepsValid(db, x.id, x.quantity + q);
    GrowCartsKeepsValid(d1, x.owner);
    var d2 := d1.(carts := d1.carts + {x.owner});
    LogKeepsValid(d2, db.log + [Activity(x.owner, "add_to_cart", x.productId, q)]);
    d2.(log := db.log + [Activity(x.owner, "add_to_cart", x.productId, q)])
  }

  /** After the increase the slot holds the grown row, and every other slot's
      rows are as they were. */
  lemma IncreasedRow(db: Db, x: Item, q: int)
    requires Valid(db) && x in db.items
    ensures FindSlot(Increased(db, x, q).items, x.owner, x.productId) == Some(x.(quantity := x.quantity + q))
    ensures AgreeOutside(db.items, Increased(db, x, q).items, Slot(x))
  {
    assert Increased(db, x, q).items == SetRowQuantity(db.items, x.id, x.quantity + q);
    FindSlotAfterSet(db, x, x.quantity + q);
    SetRowFrame(db, x, x.quantity + q);
  }

  lemma LogKeepsValid(db: Db, log: seq<Activity>)
    requires Valid(db)
    ensures Valid(db.(log := log))
  {
  }

  lemma GrowCartsKeepsValid(db: Db, user: int)
    requires Valid(db)
    ensures Valid(db.(carts := db.carts + {user}))
  {
  }

  /** add_to_cart on a product the user does not hold: a new row with q. */
  function Inserted(db: Db, user: int, p: int, q: int): (d: Db)
    requires Valid(db) && p in db.prices && FindSlot(db.items, user, p).None?
    ensures Valid(d) && user in d.carts
    ensures FindSlot(d.items, user, p) == Some(Item(db.nextItemId, user, p, q))
    ensures d.orders == db.orders && d.prices == db.prices
    ensures d.items == db.items + [Item(db.nextItemId, user, p, q)]
    ensures AgreeOutside(db.items, d.items, (user, p))
    ensures d.log == db.log + [Activity(user, "add_to_cart", p, q)]
  {
    var row := Item(db.nextItemId, user, p, q);
    AppendKeepsValid(db, row);
    FindSlotAppended(db.items, row);
    KeepAppend(db.items, [row], (y: Item) => Slot(y) == (user, p));
    assert Keep([row], (y: Item) => Slot(y) == (user, p)) == [];
    db.(carts := db.carts + {user}, items := db.items + [row],
        log := db.log + [Activity(user, "add_to_cart", p, q)], nextItemId := db.nextItemId + 1)
  }

  /** The rows of every slot but one, in table order. */
  function Others(items: seq<Item>, slot: (int, int)): (r: seq<Item>)
    ensures forall y :: y in r <==> y in items && Slot(y) != slot
  {
    Keep(items, (y: Item) => Slot(y) == slot)
  }

  /** Two tables hold the same rows, in the same order, apart from those of
      one slot. */
  predicate AgreeOutside(a: seq<Item>, b: seq<Item>, slot: (int, int)) {
    Others(a, slot) == Others(b, slot)
  }

  lemma {:induction false} SetRowOthers(items: seq<Item>, itemId: nat, q: int, slot: (int, int))
    requires forall i :: 0 <= i < |items| && items[i].id == itemId ==> Slot(items[i]) == slot
    ensures Others(SetRowQuantity(items, itemId, q), slot) == Others(items, slot)
  {
    if |items| > 0 {
      var r := SetRowQuantity(items, itemId, q);
      assert r[1..] == SetRowQuantity(items[1..], itemId, q);
      SetRowOthers(items[1..], itemId, q, slot);
    }
  }

  /** Setting one row's quantity keeps every row of another slot as it was,
      and adds no row of another slot. */
  lemma SetRowFrame(db: Db, x: Item, q: int)
    requires Valid(db) && x in db.items
    ensures AgreeOutside(db.items, SetRowQuantity(db.items, x.id, q), Slot(x))
  {
    var k :| 0 <= k < |db.items| && db.items[k] == x;
    forall i | 0 <= i < |db.items| && db.items[i].id == x.id
      ensures Slot(db.items[i]) == Slot(x)
    {
      assert ItemId(db.items[i]) == ItemId(db.items[k]);
    }
    SetRowOthers(db.items, x.id, q, Slot(x));
  }


  lemma SetRowKeepsKeys(items: seq<Item>, itemId: nat, q: int)
    ensures var r := SetRowQuantity(items, itemId, q);
      forall i :: 0 <= i < |items| ==>
        (ItemId(r[i]) == ItemId(items[i]) && Slot(r[i]) == Slot(items[i])
         && r[i].owner == items[i].owner && r[i].productId == items[i].productId)
  {
  }

  lemma FindSlotAfterSet(db: Db, x: Item, q: int)
    requires Valid(db) && x in db.items
    ensures var items := SetRowQuantity(db.items, x.id, q);
      FindSlot(items, x.owner, x.productId) == Some(x.(quantity := q))
  {
    var items := SetRowQuantity(db.items, x.id, q);
    var i :| 0 <= i < |db.items| && db.items[i] == x;
    assert items[i] == x.(quantity := q);
    assert Slot(items[i]) == (x.owner, x.productId);
    assert items[i] in items;
    var f := FindSlot(items, x.owner, x.productId);
    assert f.Some?;
    var j :| 0 <= j < |items| && items[j] == f.value;
  }

  lemma FindSlotAppended(items: seq<Item>, row: Item)
    requires FindSlot(items, row.owner, row.productId).None?
    ensures FindSlot(items + [row], row.owner, row.productId) == Some(row)
  {
    if |items| > 0 {
      assert (items + [row])[1..] == items[1..] + [row];
      FindSlotAppended(items[1..], row);
    } else {
      assert items + [row] == [row];
    }
  }

  lemma AppendKeepsValid(db: Db, row: Item)
    requires Valid(db)
    requires row.id == db.nextItemId && row.productId in db.prices
    requires FindSlot(db.items, row.owner, row.productId).None?
    ensures Valid(db.(carts := db.carts + {row.owner}, items := db.items + [row], nextItemId := db.nextItemId + 1))
  {
    var items := db.items + [row];
    forall i | 0 <= i < |db.items|
      ensures Slot(db.items[i]) != Slot(row)
    {
      assert db.items[i] in db.items;
    }
  }

  lemma SetRowKeepsValid(db: Db, itemId: nat, q: int)
    requires Valid(db)
    ensures Valid(db.(items := SetRowQuantity(db.items, itemId, q)))
  {
    SetRowKeepsKeys(db.items, itemId, q);
  }

  lemma KeepKeepsValid(db: Db, drop: Item -> bool)
    requires Valid(db)
    ensures Valid(db.(items := Keep(db.items, drop)))
  {
    KeepDistinct(db.items, drop, ItemId);
    KeepDistinct(db.items, drop, Slot);
    var r := Keep(db.items, drop);
    forall i | 0 <= i < |r|
      ensures r[i].id < db.nextItemId && r[i].productId in db.prices && r[i].owner in db.carts
    {
      assert r[i] in db.items;
    }
  }

  /** update_cart_item. A missing quantity or an item that is not in this
      user's cart is refused with nothing changed. A quantity of zero or less
      deletes the row; any other quantity replaces the old one. */
  function UpdateItem(db: Db, user: int, itemId: nat, quantity: Option<int>): (r: (Reply, Db))
    requires Valid(db)
    ensures Valid(r.1)
    ensures quantity.None? ==> r == (BadRequest("quantity required"), db)
    ensures quantity.Some? && FindItem(db.items, user, itemId).None? ==> r == (BadRequest(NotFound("CartItem")), db)
    ensures r.0.Ok? <==> quantity.Some? && FindItem(db.items, user, itemId).Some?
    ensures r.0.Ok? && quantity.value <= 0 ==> forall x :: x in r.1.items ==> x.id != itemId
    ensures r.0.Ok? && quantity.value <= 0 ==>
      forall x :: x in db.items && x.id != itemId ==> x in r.1.items
    ensures r.0.Ok? && quantity.value <= 0 ==> forall x :: x in r.1.items ==> x in db.items
    ensures r.0.Ok? && quantity.value > 0 ==>
      r.1.items == SetRowQuantity(db.items, itemId, quantity.value)
    ensures r.1.carts == db.carts && r.1.orders == db.orders && r.1.log == db.log
    ensures r.1.prices == db.prices && r.1.nextItemId == db.nextItemId && r.1.nextOrderId == db.nextOrderId
  {
    if quantity.None? then (BadRequest("quantity required"), db)
    else if FindItem(db.items, user, itemId).None? then (BadRequest(NotFound("CartItem")), db)
    else if quantity.value <= 0 then
      KeepKeepsValid(db, (x: Item) => x.id == itemId);
      (Ok, db.(items := Keep(db.items, (x: Item) => x.id == itemId)))
    else
      SetRowKeepsValid(db, itemId, quantity.value);
      (Ok, db.(items := SetRowQuantity(db.items, itemId, quantity.value)))
  }

  /** A positive update sets the row's quantity exactly and touches no other
      row. */
  lemma UpdateSetsExactly(db: Db, user: int, itemId: nat, q: int)
    requires Valid(db) && q > 0 && FindItem(db.items, user, itemId).Some?
    ensures var r := UpdateItem(db, user, itemId, Some(q)).1;
      && (forall i :: 0 <= i < |db.items| && db.items[i].id == itemId ==> r.items[i].quantity == q)
      && (forall i :: 0 <= i < |db.items| && db.items[i].id != itemId ==> r.items[i] == db.items[i])
  {
  }

  /** remove_from_cart: deletes the named item of this user's cart and no
      other row; an item not in this user's cart is refused. */
  function RemoveItem(db: Db, user: int, itemId: nat): (r: (Reply, Db))
    requires Valid(db)
    ensures Valid(r.1)
    ensures FindItem(db.items, user, itemId).None? ==> r == (BadRequest(NotFound("CartItem")), db)
    ensures r.0.Ok? <==> FindItem(db.items, user, itemId).Some?
    ensures r.0.Ok? ==> forall x :: x in r.1.items <==> x in db.items && x.id != itemId
    ensures r.1.carts == db.carts && r.1.orders == db.orders && r.1.log == db.log
    ensures r.1.prices == db.prices && r.1.nextItemId == db.nextItemId && r.1.nextOrderId == db.nextOrderId
  {
    if FindItem(db.items, user, itemId).None? then (BadRequest(NotFound("CartItem")), db)
    else
      KeepKeepsValid(db, (x: Item) => x.id == itemId);
      (Ok, db.(items := Keep(db.items, (x: Item) => x.id == itemId)))
  }

  /** clear_cart: a user without a cart is refused; otherwise every item of
      the user's cart is deleted and every other user's item is kept. */
  function ClearCart(db: Db, user: int): (r: (Reply, Db))
    requires Valid(db)
    ensures Valid(r.1)
    ensures user !in db.carts ==> r == (BadRequest(NotFound("Cart")), db)
    ensures r.0.Ok? <==> user in db.carts
    ensures r.0.Ok? ==> ItemsOf(r.1.items, user) == []
    ensures r.0.Ok? ==> forall x :: x in db.items && x.owner != user ==> x in r.1.items
    ensures forall x :: x in r.1.items ==> x in db.items
    ensures r.1.carts == db.carts && r.1.orders == db.orders && r.1.log == db.log
    ensures r.1.prices == db.prices && r.1.nextItemId == db.nextItemId && r.1.nextOrderId == db.nextOrderId
  {
    if user !in db.carts then (BadRequest(NotFound("Cart")), db)
    else
      var items := Keep(db.items, (x: Item) => x.owner == user);
      KeepKeepsValid(db, (x: Item) => x.owner == user);
      NoneOwned(items, user);
      (Ok, db.(items := items))
  }

  lemma NoneOwned(items: seq<Item>, user: int)
    requires forall x :: x in items ==> x.owner != user
    ensures ItemsOf(items, user) == []
  {
    KeepAllDropped(items, (x: Item) => x.owner != user);
  }

  lemma {:induction false} KeepAllDropped(items: seq<Item>, drop: Item -> bool)
    requires forall i :: 0 <= i < |items| ==> drop(items[i])
    ensures Keep(items, drop) == []
  {
    if |items| > 0 {
      KeepAllDropped(items[1..], drop);
    }
  }

  function ItemAmount(x: Item, prices: map<int, real>): real
    requires x.productId in prices
  {
    prices[x.productId] * x.quantity as real
  }

  /** The price-times-quantity of each of a user's items, priced now. */
  function Amounts(items: seq<Item>, prices: map<int, real>): (a: seq<real>)
    requires forall i :: 0 <= i < |items| ==> items[i].productId in prices
    ensures |a| == |items|
    ensures forall i :: 0 <= i < |items| ==> a[i] == ItemAmount(items[i], prices)
  {
    seq(|items|, i requires 0 <= i < |items| => ItemAmount(items[i], prices))
  }

  /** One order line per cart item, with its quantity and today's price. */
  function LinesOf(items: seq<Item>, prices: map<int, real>): (ls: seq<OrderLine>)
    requires forall i :: 0 <= i < |items| ==> items[i].productId in prices
    ensures |ls| == |items|
    ensures forall i :: 0 <= i < |items| ==>
      ls[i] == OrderLine(items[i].productId, items[i].quantity, prices[items[i].productId])
  {
    seq(|items|, i requires 0 <= i < |items| =>
      OrderLine(items[i].productId, items[i].quantity, prices[items[i].productId]))
  }

  function LineAmount(l: OrderLine): real {
    l.priceAtPurchase * l.quantity as real
  }

  /** The sum of an order's line amounts. */
  function LinesTotal(ls: seq<OrderLine>): real {
    if |ls| == 0 then 0.0 else LineAmount(ls[0]) + LinesTotal(ls[1..])
  }

  /** The order's total is what its own lines add up to. */
  lemma {:induction false} LinesMatchAmounts(items: seq<Item>, prices: map<int, real>)
    requires forall i :: 0 <= i < |items| ==> items[i].productId in prices
    ensures LinesTotal(LinesOf(items, prices)) == Sum(Amounts(items, prices))
  {
    if |items| > 0 {
      LinesMatchAmounts(items[1..], prices);
      assert LinesOf(items, prices)[1..] == LinesOf(items[1..], prices);
      assert Amounts(items, prices)[1..] == Amounts(items[1..], prices);
    }
  }

  /** The shipping request's fields, each defaulting to the empty string. */
  function ShippingFrom(data: map<string, string>): (s: Shipping)
    ensures s.address == (if "address" in data then data["address"] else "")
    ensures s.city == (if "city" in data then data["city"] else "")
    ensures s.state == (if "state" in data then data["state"] else "")
    ensures s.zipcode == (if "zipcode" in data then data["zipcode"] else "")
    ensures s.country == (if "country" in data then data["country"] else "")
  {
    var get := (k: string) => if k in data then data[k] else "";
    Shipping(get("address"), get("city"), get("state"), get("zipcode"), get("country"))
  }

  const InitialStatus: string := "pending"

  /** The purchase entries an order writes: one per cart item, in table order,
      with the item's product and quantity. */
  function Purchases(user: int, items: seq<Item>): (ps: seq<Activity>)
    ensures |ps| == |items|
    ensures forall i :: 0 <= i < |items| ==>
      ps[i] == Activity(user, "purchase", items[i].productId, items[i].quantity)
  {
    seq(|items|, i requires 0 <= i < |items| => Activity(user, "purchase", items[i].productId, items[i].quantity))
  }

  /** create_order: a user without a cart, or with an empty one, is refused
      and no order is made. Otherwise one order is appended whose total is the
      cart's total and whose lines copy the cart items with today's prices,
      and the user's cart is emptied. */
  function CreateOrder(db: Db, user: int, shipping: map<string, string>): (r: (Reply, Db))
    requires Valid(db)
    ensures Valid(r.1)
    ensures user !in db.carts ==> r == (BadRequest(NotFound("Cart")), db)
    ensures user in db.carts && ItemsOf(db.items, user) == [] ==> r == (BadRequest("Cart is empty"), db)
    ensures r.0.Ok? <==> user in db.carts && ItemsOf(db.items, user) != []
    ensures r.0.Ok? ==>
      var mine := ItemsOf(db.items, user);
      && |r.1.orders| == |db.orders| + 1
      && r.1.orders[..|db.orders|] == db.orders
      && var o := r.1.orders[|db.orders|];
      && o.owner == user && o.status == InitialStatus
      && o.shipping == ShippingFrom(shipping)
      && o.lines == LinesOf(mine, db.prices)
      && o.total == LinesTotal(o.lines)
      && ItemsOf(r.1.items, user) == []
      && (forall x :: x in db.items && x.owner != user ==> x in r.1.items)
      && r.1.log == db.log + Purchases(user, mine)
  {
    if user !in db.carts then (BadRequest(NotFound("Cart")), db)
    else if ItemsOf(db.items, user) == [] then (BadRequest("Cart is empty"), db)
    else (Ok, Placed(db, user, shipping))
  }

  /** The accepted half of create_order: the order is appended, one purchase
      per item is logged, and the cart is emptied. */
  function Placed(db: Db, user: int, shipping: map<string, string>): (d: Db)
    requires Valid(db) && user in db.carts
    ensures Valid(d)
    ensures var mine := ItemsOf(db.items, user);
      && |d.orders| == |db.orders| + 1
      && d.orders[..|db.orders|] == db.orders
      && var o := d.orders[|db.orders|];
      && o.owner == user && o.status == InitialStatus
      && o.shipping == ShippingFrom(shipping)
      && o.lines == LinesOf(mine, db.prices)
      && o.total == LinesTotal(o.lines)
      && ItemsOf(d.items, user) == []
      && (forall x :: x in db.items && x.owner != user ==> x in d.items)
      && d.log == db.log + Purchases(user, mine)
  {
    var mine := ItemsOf(db.items, user);
    assert forall i :: 0 <= i < |mine| ==> mine[i].productId in db.prices by {
      forall i | 0 <= i < |mine|
        ensures mine[i].productId in db.prices
      {
        assert mine[i] in db.items;
      }
    }
    var total := Sum(Amounts(mine, db.prices));
    var lines := LinesOf(mine, db.prices);
    LinesMatchAmounts(mine, db.prices);
    var o := Order(db.nextOrderId, user, total, ShippingFrom(shipping), InitialStatus, lines);
    NextOrderIdIsFresh(db.orders, db.nextOrderId, o);
    var (_, cleared) := ClearCart(db, user);
    cleared.(orders := db.orders + [o], log := db.log + Purchases(user, mine),
             nextOrderId := db.nextOrderId + 1)
  }

  /** An order stamped with the next order id keeps the ids unique and below
      the new next id. */
  lemma NextOrderIdIsFresh(orders: seq<Order>, next: nat, o: Order)
    requires forall i :: 0 <= i < |orders| ==> orders[i].id < next
    requires DistinctOrderIds(orders) && o.id == next
    ensures forall i :: 0 <= i < |orders + [o]| ==> (orders + [o])[i].id < next + 1
    ensures DistinctOrderIds(orders + [o])
  {
  }

  const Statuses: set<string> := {"pending", "confirmed", "shipped", "delivered", "cancelled"}

  /** The order with this id, if any. */
  function FindOrder(orders: seq<Order>, orderId: nat): (r: Option<nat>)
    ensures r.Some? ==> r.value < |orders| && orders[r.value].id == orderId
    ensures r.None? ==> forall i :: 0 <= i < |orders| ==> orders[i].id != orderId
  {
    if |orders| == 0 then None
    else if orders[|orders| - 1].id == orderId then Some(|orders| - 1)
    else FindOrder(orders[..|orders| - 1], orderId)
  }

  /** update_order_status: non-staff callers get 403; an unknown order or a
      status outside the five allowed ones is refused. Only a staff caller
      with a known order and an allowed status changes anything, and then
      only that order's status. */
  function UpdateOrderStatus(db: Db, isStaff: bool, orderId: nat, status: Option<string>): (r: (Reply, Db))
    requires Valid(db)
    ensures Valid(r.1)
    ensures !isStaff ==> r == (Forbidden("Only admin can update order status"), db)
    ensures isStaff && FindOrder(db.orders, orderId).None? ==> r == (BadRequest(NotFound("Order")), db)
    ensures isStaff && FindOrder(db.orders, orderId).Some? && (status.None? || status.value !in Statuses) ==>
      r == (BadRequest("Invalid status"), db)
    ensures r.0.Ok? <==> isStaff && FindOrder(db.orders, orderId).Some? && status.Some? && status.value in Statuses
    ensures r.0.Ok? ==>
      var k := FindOrder(db.orders, orderId).value;
      && r.1 == db.(orders := db.orders[k := db.orders[k].(status := status.value)])
      && forall i :: 0 <= i < |db.orders| && i != k ==> db.orders[i].id != orderId
  {
    if !isStaff then (Forbidden("Only admin can update order status"), db)
    else match FindOrder(db.orders, orderId)
      case None => (BadRequest(NotFound("Order")), db)
      case Some(k) =>
        if status.None? || status.value !in Statuses then (BadRequest("Invalid status"), db)
        else (Ok, db.(orders := db.orders[k := db.orders[k].(status := status.value)]))
  }

  /** Adding twice with quantities a and b holds a + b more of the product. */
  lemma AddTwiceAccumulates(db: Db, user: int, p: int, a: int, b: int)
    requires Valid(db) && p != 0 && p in db.prices
    ensures var d1 := AddToCart(db, user, Some(p), Some(a)).1;
      HeldQuantity(AddToCart(d1, user, Some(p), Some(b)).1, user, p) == HeldQuantity(db, user, p) + a + b
  {
  }

  /** After an order the next one is refused until something is added. */
  lemma NoSecondOrderFromSameCart(db: Db, user: int, s1: map<string, string>, s2: map<string, string>)
    requires Valid(db)
    requires CreateOrder(db, user, s1).0.Ok?
    ensures var d1 := CreateOrder(db, user, s1).1;
      CreateOrder(d1, user, s2).0 == BadRequest("Cart is empty")
  {
  }
}

=== FILE: session.dfy ===
/** The client's session lifecycle over the browser's key-value storage: the
    App restores a session at start-up, the login and signup pages persist one,
    and logout erases it. Storage is a map from key to string value. */
module SessionStore {
  import opened Wrappers

  type Storage = map<string, string>

  const AuthTokenKey: string := "authToken"
  const RefreshTokenKey: string := "refreshToken"
  const UserKey: string := "user"

  /** The three keys the session owns in storage. */
  function SessionKeys(): set<string> {
    {AuthTokenKey, RefreshTokenKey, UserKey}
  }

  /** `localStorage.getItem(k)`: the stored string, or null. */
  function Get(st: Storage, k: string): Option<string> {
    if k in st then Some(st[k]) else None
  }

  /** JavaScript truthiness of a possibly-null string: present and non-empty. */
  predicate Truthy(v: Option<string>) {
    v.Some? && v.value != ""
  }

  /** The user record the server returns on login and signup. */
  datatype User = User(id: int, username: string, email: string, firstName: string, lastName: string)

  /** The App's `user` and `authToken` state. */
  datatype Session = Session(user: Option<User>, token: Option<string>)

  /** The session of the App's first render: `authToken` is initialised
      straight from storage, `user` starts out null. */
  function Initial(st: Storage): (s: Session)
    ensures s.user.None?
    ensures s.token.Some? <==> AuthTokenKey in st
    ensures s.token.Some? ==> s.token.value == st[AuthTokenKey]
  {
    Session(None, Get(st, AuthTokenKey))
  }

  /** `checkUserSession`: when both the stored token and the stored user are
      truthy, the user is parsed (`parse` stands for `JSON.parse`, which throws
      on malformed text: `None`) and both are installed; otherwise the session
      is left as it was. Storage is only read. */
  function Hydrate(s: Session, st: Storage, parse: string -> Option<User>): (r: Result<Session, string>)
    ensures r.Success? && r.value.user != s.user ==>
      Truthy(Get(st, AuthTokenKey)) && Truthy(Get(st, UserKey)) && r.value.user == parse(st[UserKey])
    ensures r.Failure? ==> UserKey in st && parse(st[UserKey]).None?
    ensures !(Truthy(Get(st, AuthTokenKey)) && Truthy(Get(st, UserKey))) ==> r == Success(s)
    ensures Truthy(Get(st, AuthTokenKey)) && Truthy(Get(st, UserKey)) ==>
      (r.Failure? <==> parse(st[UserKey]).None?) &&
      (parse(st[UserKey]).Some? ==> r == Success(Session(parse(st[UserKey]), Get(st, AuthTokenKey))))
  {
    var token := Get(st, AuthTokenKey);
    var saved := Get(st, UserKey);
    if Truthy(token) && Truthy(saved) then
      match parse(saved.value)
      case None => Failure("JSON.parse: malformed stored user")
      case Some(u) => Success(Session(Some(u), token))
    else Success(s)
  }

  /** What the login and signup pages write on success: access token, refresh
      token and the serialized user (`serialize` stands for `JSON.stringify`). */
  function Persist(st: Storage, access: string, refresh: string, u: User, serialize: User -> string): (r: Storage)
    ensures Get(r, AuthTokenKey) == Some(access)
    ensures Get(r, RefreshTokenKey) == Some(refresh)
    ensures Get(r, UserKey) == Some(serialize(u))
    ensures forall k :: k !in SessionKeys() ==> Get(r, k) == Get(st, k)
  {
    st[AuthTokenKey := access][RefreshTokenKey := refresh][UserKey := serialize(u)]
  }

  /** The App's login/signup success handlers: install the response's user and
      access token. */
  function Establish(u: User, access: string): (s: Session)
    ensures s.user == Some(u) && s.token == Some(access)
  {
    Session(Some(u), Some(access))
  }

  /** Logout's storage effect: the three session keys are removed, every other
      key (remember-me among them) is kept. */
  function ClearStorage(st: Storage): (r: Storage)
    ensures forall k :: k in SessionKeys() ==> Get(r, k) == None
    ensures forall k :: k !in SessionKeys() ==> Get(r, k) == Get(st, k)
  {
    st - SessionKeys()
  }

  /** Logout's session effect: user and token become null. */
  function Cleared(): (s: Session)
    ensures s.user.None? && s.token.None?
  {
    Session(None, None)
  }

  /** Clearing is idempotent. */
  lemma ClearStorageIdempotent(st: Storage)
    ensures ClearStorage(ClearStorage(st)) == ClearStorage(st)
  {
  }

  /** A session persisted on login is restored on the next start-up, provided
      parsing reads back what serializing wrote. */
  lemma HydrateAfterPersist(st: Storage, access: string, refresh: string, u: User,
                            serialize: User -> string, parse: string -> Option<User>)
    requires access != "" && serialize(u) != ""
    requires parse(serialize(u)) == Some(u)
    ensures var st' := Persist(st, access, refresh, u, serialize);
      Hydrate(Initial(st'), st', parse) == Success(Establish(u, access))
  {
  }

  /** After logout the next start-up finds nobody logged in, whatever else
      storage holds. */
  lemma HydrateAfterClear(st: Storage, parse: string -> Option<User>)
    ensures var st' := ClearStorage(st);
      Hydrate(Initial(st'), st', parse) == Success(Session(None, None))
  {
    var st' := ClearStorage(st);
    assert Get(st', AuthTokenKey) == None;
  }

  /** A token stored without a user survives start-up: `authToken` is read at
      the first render and checkUserSession does not reset it. */
  lemma TokenWithoutUserSurvives(token: string, parse: string -> Option<User>)
    requires token != ""
    ensures var st := map[AuthTokenKey := token];
      Hydrate(Initial(st), st, parse) == Success(Session(None, Some(token)))
  {
    var st := map[AuthTokenKey := token];
    assert Get(st, UserKey) == None;
  }
}

=== FILE: signup_form.dfy ===
/** The signup page, in both client variants: the four validation rules, the
    EcoNext variant's first-step gate and password-strength label, and the
    handling of the signup service's answer, which on success writes the
    session into storage. The service and `JSON.stringify` are parameters. */
module SignupForm {
  import opened Wrappers
  import opened Text
  import opened Forms
  import opened SessionStore

  const UsernameMessage: string := "Username must be at least 3 characters"
  const EmailMessage: string := "Enter a valid email address"
  const PasswordMessage: string := "Password must be at least 6 characters"
  const ConfirmMessage: string := "Passwords do not match"

  predicate UsernameTooShort(form: Form) { JsLength(Value(form, "username")) < 3 }
  predicate EmailMalformed(form: Form) {
    Value(form, "email") != "" && !Contains(Value(form, "email"), "@")
  }
  predicate PasswordTooShort(form: Form) { JsLength(Value(form, "password")) < 6 }
  predicate ConfirmMismatch(form: Form) { Value(form, "password") != Value(form, "password_confirm") }

  /** validateForm: each rule that fails contributes its own key and message;
      no other key appears. */
  function Validate(form: Form): (errors: Errors)
    ensures "username" in errors <==> UsernameTooShort(form)
    ensures "email" in errors <==> EmailMalformed(form)
    ensures "password" in errors <==> PasswordTooShort(form)
    ensures "password_confirm" in errors <==> ConfirmMismatch(form)
    ensures errors.Keys <= {"username", "email", "password", "password_confirm"}
    ensures forall k :: k in errors ==> errors[k] != ""
    ensures "username" in errors ==> errors["username"] == UsernameMessage
    ensures "email" in errors ==> errors["email"] == EmailMessage
    ensures "password" in errors ==> errors["password"] == PasswordMessage
    ensures "password_confirm" in errors ==> errors["password_confirm"] == ConfirmMessage
  {
    var e0: Errors := map[];
    var e1 := if UsernameTooShort(form) then e0["username" := UsernameMessage] else e0;
    var e2 := if EmailMalformed(form) then e1["email" := EmailMessage] else e1;
    var e3 := if PasswordTooShort(form) then e2["password" := PasswordMessage] else e2;
    if ConfirmMismatch(form) then e3["password_confirm" := ConfirmMessage] else e3
  }

  /** Lengths are JavaScript's UTF-16 lengths: a two-character username whose
      second character is an emoji already has the three units the rule asks
      for, and three emoji make a "Medium" password. */
  lemma AstralCharactersCountTwice()
    ensures !UsernameTooShort(map["username" := "a\U{1F600}"])
    ensures StrengthOf("\U{1F600}\U{1F600}\U{1F600}") == Medium
  {
    assert JsLength("\U{1F600}") == 2;
    assert "a\U{1F600}"[1..] == "\U{1F600}";
    assert JsLength("a\U{1F600}") == 3;
    var e := "\U{1F600}";
    assert e + e + e == "\U{1F600}\U{1F600}\U{1F600}";
    assert ("\U{1F600}\U{1F600}\U{1F600}")[1..] == e + e;
    assert (e + e)[1..] == e;
  }

  /** The form is valid exactly when all four rules hold. */
  lemma ValidIffRulesHold(form: Form)
    ensures |Validate(form)| == 0 <==>
      !UsernameTooShort(form) && !EmailMalformed(form) && !PasswordTooShort(form) && !ConfirmMismatch(form)
  {
    var e := Validate(form);
    if |e| != 0 {
      var k :| k in e;
    } else {
      assert e.Keys == {};
    }
  }

  /** An empty email passes; a non-empty one passes exactly when it has an '@'
      somewhere. */
  lemma EmailRule(form: Form)
    ensures Value(form, "email") == "" ==> "email" !in Validate(form)
    ensures Value(form, "email") != "" ==>
      ("email" !in Validate(form) <==> exists i :: 0 <= i < |Value(form, "email")| && Value(form, "email")[i] == '@')
  {
    var m := Value(form, "email");
    if m != "" {
      if Contains(m, "@") {
        var i := ContainsWitness(m, "@");
        assert m[i] == m[i..i + 1][0];
      }
      if exists i :: 0 <= i < |m| && m[i] == '@' {
        var i :| 0 <= i < |m| && m[i] == '@';
        assert m == m[..i] + "@" + m[i + 1..];
        ContainsFactor(m[..i], "@", m[i + 1..]);
      }
    }
  }

  datatype Strength = Weak | Medium | Strong

  /** The strength label under the password field. */
  function StrengthOf(password: string): (s: Strength)
    ensures s == Strong <==> JsLength(password) >= 8
    ensures s == Medium <==> 6 <= JsLength(password) < 8
    ensures s == Weak <==> JsLength(password) < 6
  {
    var n := JsLength(password);
    if n >= 8 then Strong else if n >= 6 then Medium else Weak
  }

  function StrengthText(s: Strength): string {
    match s
    case Strong => "Strong"
    case Medium => "Medium"
    case Weak => "Weak"
  }

  /** The label says "Weak" exactly when the password rule rejects the form. */
  lemma WeakIffPasswordError(form: Form)
    ensures StrengthOf(Value(form, "password")) == Weak <==> "password" in Validate(form)
  {
  }

  const StepMessage: string := "Please fill in at least one field"

  /** handleNext: from step 1 the page moves to step 2 when first name, last
      name or email is non-blank; otherwise it stays and shows only the
      general error. Other steps are left alone. */
  function Next(step: int, form: Form, errors: Errors): (r: (int, Errors))
    ensures step != 1 ==> r == (step, errors)
    ensures step == 1 ==>
      var filled := !AllSpace(Value(form, "first_name"), IsJsSpace)
                    || !AllSpace(Value(form, "last_name"), IsJsSpace)
                    || !AllSpace(Value(form, "email"), IsJsSpace);
      && (r.0 == 2 <==> filled)
      && (filled ==> r.1 == errors)
      && (!filled ==> r.0 == 1 && r.1 == map["general" := StepMessage])
  {
    BlankIffAllSpace(Value(form, "first_name"));
    BlankIffAllSpace(Value(form, "last_name"));
    BlankIffAllSpace(Value(form, "email"));
    if step != 1 then (step, errors)
    else if !Blank(Value(form, "first_name")) || !Blank(Value(form, "last_name")) || !Blank(Value(form, "email"))
    then (2, errors)
    else (1, map["general" := StepMessage])
  }

  /** The signup service's answer: tokens and user on success, an optional
      error map otherwise, or a thrown request. */
  datatype SignupAnswer =
    | SignedUp(access: string, refresh: string, user: User)
    | Rejected(errors: Option<Errors>)
    | Threw

  const RejectedDefault: string := "Signup failed"
  const ThrownMessage: string := "An error occurred during signup"

  /** What submitting did: the page's error map, storage, whether a request
      was sent, and the user handed to the App on success. */
  datatype Outcome = Outcome(errors: Errors, storage: Storage, requested: bool, signedUp: Option<User>)

  /** handleSubmit: an invalid form shows its errors and sends nothing. A valid
      form is sent; success writes the session and hands the user on, a
      rejection shows the server's errors (or a general one), a thrown request
      shows a general one. */
  function Submit(form: Form, st: Storage, service: Form -> SignupAnswer, serialize: User -> string): (r: Outcome)
    ensures r.requested <==> |Validate(form)| == 0
    ensures !r.requested ==> r == Outcome(Validate(form), st, false, None)
    ensures r.signedUp.Some? <==> r.requested && service(form).SignedUp?
    ensures r.signedUp.Some? ==>
      var a := service(form);
      && r.signedUp == Some(a.user) && r.errors == map[]
      && r.storage == Persist(st, a.access, a.refresh, a.user, serialize)
    ensures r.requested && service(form).Rejected? ==>
      r.storage == st
      && r.errors == (match service(form).errors
                      case Some(e) => e
                      case None => map["general" := RejectedDefault])
    ensures r.requested && service(form).Threw? ==>
      r.storage == st && r.errors == map["general" := ThrownMessage]
  {
    var errors := Validate(form);
    if |errors| != 0 then Outcome(errors, st, false, None)
    else match service(form)
      case SignedUp(access, refresh, u) => Outcome(map[], Persist(st, access, refresh, u, serialize), true, Some(u))
      case Rejected(e) => Outcome(if e.Some? then e.value else map["general" := RejectedDefault], st, true, None)
      case Threw => Outcome(map["general" := ThrownMessage], st, true, None)
  }

  /** A successful signup is remembered: the next start-up restores the user
      and token it wrote. */
  lemma SignupSurvivesReload(form: Form, st: Storage, service: Form -> SignupAnswer,
                             serialize: User -> string, parse: string -> Option<User>)
    requires |Validate(form)| == 0 && service(form).SignedUp?
    requires service(form).access != "" && serialize(service(form).user) != ""
    requires parse(serialize(service(form).user)) == Some(service(form).user)
    ensures var r := Submit(form, st, service, serialize);
      Hydrate(Initial(r.storage), r.storage, parse) == Success(Establish(service(form).user, service(form).access))
  {
    var a := service(form);
    HydrateAfterPersist(st, a.access, a.refresh, a.user, serialize, parse);
  }

  /** handleChange: the field takes the new text and only its own error is
      cleared. */
  function Change(form: Form, errors: Errors, name: string, text: string): (r: (Form, Errors))
    ensures Value(r.0, name) == text && !Shown(r.1, name)
    ensures forall k :: k != name ==> Value(r.0, k) == Value(form, k)
    ensures forall k :: k != name ==> (k in r.1 <==> k in errors)
    ensures forall k :: k != name && k in r.1 ==> r.1[k] == errors[k]
  {
    (Edit(form, name, text), ClearOnEdit(errors, name))
  }
}

=== FILE: sorting.dfy ===
/** A stable sort into non-increasing order of a real-valued key: Python's
    `sorted(..., key=k, reverse=True)` and `list.sort(key=k, reverse=True)`,
    and (with the key negated) an ascending `order_by`. */
module Sorting {

  /** No element is followed by one with a larger key. */
  predicate NonIncreasing<T>(s: seq<T>, key: T -> real) {
    forall i, j :: 0 <= i < j < |s| ==> key(s[i]) >= key(s[j])
  }

  /** Places `x` in front of the first element whose key is not larger than its
      own, so `x` stays ahead of the equal-keyed elements that followed it. */
  function Insert<T>(x: T, s: seq<T>, key: T -> real): (r: seq<T>)
    requires NonIncreasing(s, key)
    ensures NonIncreasing(r, key)
    ensures multiset(r) == multiset(s) + multiset{x}
  {
    if |s| == 0 then [x]
    else if key(s[0]) <= key(x) then [x] + s
    else
      var rest := Insert(x, s[1..], key);
      assert s == [s[0]] + s[1..];
      assert forall k :: 0 <= k < |rest| ==> key(s[0]) >= key(rest[k]) by {
        forall k | 0 <= k < |rest|
          ensures key(s[0]) >= key(rest[k])
        {
          assert rest[k] in multiset(rest);
          if rest[k] != x {
            assert rest[k] in multiset(s[1..]);
            var j :| 0 <= j < |s[1..]| && s[1..][j] == rest[k];
            assert s[j + 1] == rest[k];
          }
        }
      }
      [s[0]] + rest
  }

  /** Insertion sort: the result is ordered and a permutation of the input. */
  function SortDesc<T>(s: seq<T>, key: T -> real): (r: seq<T>)
    ensures NonIncreasing(r, key)
    ensures multiset(r) == multiset(s)
    ensures |r| == |s|
  {
    if |s| == 0 then []
    else
      assert s == [s[0]] + s[1..];
      Insert(s[0], SortDesc(s[1..], key), key)
  }

  /** A sequence that is already ordered is returned as it is. */
  lemma {:induction false} SortDescOfSorted<T>(s: seq<T>, key: T -> real)
    requires NonIncreasing(s, key)
    ensures SortDesc(s, key) == s
  {
    if |s| > 0 {
      SortDescOfSorted(s[1..], key);
      assert |s[1..]| == 0 || key(s[1..][0]) <= key(s[0]);
    }
  }
}

=== FILE: sums.dfy ===
/** Sums of real sequences, shared by the price card and the checkout
    summary. */
module Sums {

  function Sum(s: seq<real>): real {
    if |s| == 0 then 0.0 else s[0] + Sum(s[1..])
  }

  lemma {:induction false} SumAppend(a: seq<real>, b: seq<real>)
    ensures Sum(a + b) == Sum(a) + Sum(b)
  {
    if |a| == 0 {
      assert a + b == b;
    } else {
      assert (a + b)[1..] == a[1..] + b;
      SumAppend(a[1..], b);
    }
  }

  /** The sum of values that lie within [low, high] lies within |s|·low and
      |s|·high. */
  lemma {:induction false} SumBounds(s: seq<real>, low: real, high: real)
    requires forall i :: 0 <= i < |s| ==> low <= s[i] <= high
    ensures |s| as real * low <= Sum(s) <= |s| as real * high
  {
    if |s| > 0 {
      SumBounds(s[1..], low, high);
      assert |s| as real * low == (|s| - 1) as real * low + low;
      assert |s| as real * high == (|s| - 1) as real * high + high;
    }
  }

  /** Sum of a constant sequence. */
  lemma {:induction false} SumConstant(s: seq<real>, c: real)
    requires forall i :: 0 <= i < |s| ==> s[i] == c
    ensures Sum(s) == |s| as real * c
  {
    if |s| > 0 {
      SumConstant(s[1..], c);
      assert |s| as real * c == (|s| - 1) as real * c + c;
    }
  }

}

=== FILE: text.dfy ===
/** String helpers the source takes from its languages' runtimes: JavaScript's
    `trim`, `includes`, `toFixed(1)` and `Math.round`, Python's `strip`, `lower`
    and `in` on strings. Each is written out so that contracts can mention it. */
module Text {

  /** The code points ECMAScript's `String.prototype.trim` removes: the
      WhiteSpace and LineTerminator productions (space separators included). */
  predicate IsJsSpace(c: char) {
    || c == '\t' || c == '\U{000B}' || c == '\U{000C}' || c == ' '
    || c == '\U{00A0}' || c == '\U{FEFF}' || c == '\n' || c == '\r'
    || c == '\U{2028}' || c == '\U{2029}' || c == '\U{1680}'
    || ('\U{2000}' <= c <= '\U{200A}') || c == '\U{202F}' || c == '\U{205F}'
    || c == '\U{3000}'
  }

  /** The code points Python's `str.strip()` (no argument) removes, i.e. those
      for which `str.isspace()` holds. */
  predicate IsPySpace(c: char) {
    || c == '\t' || c == '\n' || c == '\U{000B}' || c == '\U{000C}' || c == '\r'
    || ('\U{001C}' <= c <= '\U{001F}') || c == ' ' || c == '\U{0085}'
    || c == '\U{00A0}' || c == '\U{1680}' || ('\U{2000}' <= c <= '\U{200A}')
    || c == '\U{2028}' || c == '\U{2029}' || c == '\U{202F}' || c == '\U{205F}'
    || c == '\U{3000}'
  }

  /** Every character of `s` satisfies `space`: the string is blank. */
  predicate AllSpace(s: string, space: char -> bool) {
    forall i :: 0 <= i < |s| ==> space(s[i])
  }

  function TrimStart(s: string, space: char -> bool): (r: string)
    ensures |r| <= |s| && r == s[|s| - |r|..]
    ensures |r| > 0 ==> !space(r[0])
    ensures AllSpace(s[..|s| - |r|], space)
  {
    if |s| > 0 && space(s[0]) then TrimStart(s[1..], space) else s
  }

  function TrimEnd(s: string, space: char -> bool): (r: string)
    ensures |r| <= |s| && r == s[..|r|]
    ensures |r| > 0 ==> !space(r[|r| - 1])
    ensures AllSpace(s[|r|..], space)
  {
    if |s| > 0 && space(s[|s| - 1]) then TrimEnd(s[..|s| - 1], space) else s
  }

  /** Removes the leading and trailing characters that satisfy `space`. */
  function Strip(s: string, space: char -> bool): (r: string)
    ensures |r| <= |s|
    ensures |r| > 0 ==> !space(r[0]) && !space(r[|r| - 1])
  {
    TrimEnd(TrimStart(s, space), space)
  }

  /** JavaScript `s.trim()`. */
  function JsTrim(s: string): (r: string)
    ensures |r| <= |s|
    ensures |r| > 0 ==> !IsJsSpace(r[0]) && !IsJsSpace(r[|r| - 1])
  {
    Strip(s, IsJsSpace)
  }

  /** Python `s.strip()`. */
  function PyStrip(s: string): (r: string)
    ensures |r| <= |s|
    ensures |r| > 0 ==> !IsPySpace(r[0]) && !IsPySpace(r[|r| - 1])
  {
    Strip(s, IsPySpace)
  }

  /** A string is stripped to nothing exactly when it is blank; the source's
      `!s.trim()` and `not s.strip()` tests are therefore blankness tests. */
  lemma {:induction false} StripEmptyIffBlank(s: string, space: char -> bool)
    ensures Strip(s, space) == [] <==> AllSpace(s, space)
  {
    if AllSpace(s, space) {
      TrimStartBlank(s, space);
    }
    var t := TrimStart(s, space);
    var r := TrimEnd(t, space);
    if r == [] {
      assert t[|r|..] == t;
      assert s == s[..|s| - |t|] + t;
    }
  }

  /** A string that neither starts nor ends with a space is its own strip. */
  lemma StripUntouched(s: string, space: char -> bool)
    requires |s| > 0 ==> !space(s[0]) && !space(s[|s| - 1])
    ensures Strip(s, space) == s
  {
  }

  /** A string that neither starts nor ends with a Python space is its own
      `strip()`. */
  lemma PyStripKeeps(s: string)
    requires |s| > 0 ==> !IsPySpace(s[0]) && !IsPySpace(s[|s| - 1])
    ensures PyStrip(s) == s
  {
    StripUntouched(s, IsPySpace);
  }

  lemma {:induction false} TrimStartBlank(s: string, space: char -> bool)
    requires AllSpace(s, space)
    ensures TrimStart(s, space) == []
  {
    if |s| > 0 {
      TrimStartBlank(s[1..], space);
    }
  }

  /** Python's `str.lower()` and JavaScript's `toLowerCase()` restricted to the
      ASCII letters; other characters are returned unchanged. */
  function LowerChar(c: char): (r: char)
    ensures 'A' <= c <= 'Z' ==> 'a' <= r <= 'z' && r as int - c as int == 32
    ensures !('A' <= c <= 'Z') ==> r == c
  {
    if 'A' <= c <= 'Z' then (c as int + 32) as char else c
  }

  function Lower(s: string): (r: string)
    ensures |r| == |s|
    ensures forall i :: 0 <= i < |s| ==> r[i] == LowerChar(s[i])
  {
    seq(|s|, i requires 0 <= i < |s| => LowerChar(s[i]))
  }

  /** JavaScript's `length` of a string: its UTF-16 code units, so a
      character beyond the Basic Multilingual Plane counts twice. */
  function JsLength(s: string): (n: nat)
    ensures |s| <= n <= 2 * |s|
    ensures n == |s| <==> forall i :: 0 <= i < |s| ==> s[i] <= '\U{FFFF}'
  {
    if |s| == 0 then 0
    else
      var rest := JsLength(s[1..]);
      assert forall i :: 1 <= i < |s| ==> s[i] == s[1..][i - 1];
      (if s[0] <= '\U{FFFF}' then 1 else 2) + rest
  }

  predicate IsPrefix(p: string, s: string) {
    |p| <= |s| && s[..|p|] == p
  }

  /** Python `needle in hay` and JavaScript `hay.includes(needle)` on strings. */
  predicate Contains(hay: string, needle: string)
    decreases |hay|
  {
    IsPrefix(needle, hay) || (|hay| > 0 && Contains(hay[1..], needle))
  }

  /** Every occurrence of `needle` inside a string is found. */
  lemma {:induction false} ContainsFactor(a: string, needle: string, b: string)
    ensures Contains(a + needle + b, needle)
    decreases |a|
  {
    var s := a + needle + b;
    if |a| == 0 {
      assert s[..|needle|] == needle;
    } else {
      assert s[1..] == a[1..] + needle + b;
      ContainsFactor(a[1..], needle, b);
    }
  }

  /** ... and `Contains` reports nothing else: it holds only with a witness position. */
  lemma {:induction false} ContainsWitness(hay: string, needle: string) returns (i: nat)
    requires Contains(hay, needle)
    ensures i + |needle| <= |hay| && hay[i..i + |needle|] == needle
    decreases |hay|
  {
    if IsPrefix(needle, hay) {
      i := 0;
    } else {
      var j := ContainsWitness(hay[1..], needle);
      assert hay[1..][j..j + |needle|] == hay[j + 1..j + 1 + |needle|];
      i := j + 1;
    }
  }

  /** A string found inside `hay` is found inside any string built around it. */
  lemma ContainsWithin(a: string, hay: string, b: string, needle: string)
    requires Contains(hay, needle)
    ensures Contains(a + hay + b, needle)
  {
    var w := ContainsWitness(hay, needle);
    var rest := hay[w + |needle|..];
    assert hay == hay[..w] + needle + rest;
    ContainsFactor(a + hay[..w], needle, rest + b);
    assert a + hay + b == (a + hay[..w]) + needle + (rest + b);
  }

  predicate IsDigit(c: char) { '0' <= c <= '9' }

  function DigitChar(d: nat): (c: char)
    requires d < 10
    ensures IsDigit(c) && c as int - '0' as int == d
  {
    ('0' as int + d) as char
  }

  function DigitValue(c: char): nat
    requires IsDigit(c)
  {
    c as int - '0' as int
  }

  /** Decimal rendering of a natural number without leading zeros. */
  function NatToString(n: nat): (s: string)
    ensures |s| > 0 && forall i :: 0 <= i < |s| ==> IsDigit(s[i])
    decreases n
  {
    if n < 10 then [DigitChar(n)] else NatToString(n / 10) + [DigitChar(n % 10)]
  }

  /** `String(i)` for an integer `i`. */
  function IntToString(i: int): string {
    if i < 0 then "-" + NatToString(-i) else NatToString(i)
  }

  /** Reads a string of decimal digits back as a number. */
  function ParseNat(s: string): nat
    requires forall i :: 0 <= i < |s| ==> IsDigit(s[i])
  {
    if |s| == 0 then 0 else ParseNat(s[..|s| - 1]) * 10 + DigitValue(s[|s| - 1])
  }

  lemma {:induction false} ParseNatToString(n: nat)
    ensures ParseNat(NatToString(n)) == n
    decreases n
  {
    var s := NatToString(n);
    if n >= 10 {
      assert s[..|s| - 1] == NatToString(n / 10);
      ParseNatToString(n / 10);
    }
  }

  /** JavaScript `Math.round`: the nearest integer, halves rounded up. */
  function JsRound(x: real): (r: int)
    ensures x - 1.0 / 2.0 < r as real <= x + 1.0 / 2.0
  {
    (x + 1.0 / 2.0).Floor
  }

  /** The digits `toFixed(1)` keeps for a non-negative `x`: `n` with `n / 10`
      closest to `x`, the larger one on a tie. */
  function TenthsOf(x: real): (n: nat)
    requires x >= 0.0
    ensures x * 10.0 - 1.0 / 2.0 < n as real <= x * 10.0 + 1.0 / 2.0
  {
    (x * 10.0 + 1.0 / 2.0).Floor
  }

  /** JavaScript `x.toFixed(1)` in fixed-point notation: a sign for negative
      `x`, the integer part, a dot and one rounded decimal. */
  function ToFixed1(x: real): string {
    if x < 0.0 then "-" + UnsignedFixed1(-x) else UnsignedFixed1(x)
  }

  function UnsignedFixed1(x: real): (s: string)
    requires x >= 0.0
    ensures IsUnsignedFixed1(s)
  {
    var n := TenthsOf(x);
    NatToString(n / 10) + "." + [DigitChar(n % 10)]
  }

  /** Shape of an unsigned one-decimal rendering: digits, a dot, one digit. */
  predicate IsUnsignedFixed1(s: string) {
    && |s| >= 3
    && s[|s| - 2] == '.'
    && IsDigit(s[|s| - 1])
    && forall i :: 0 <= i < |s| - 2 ==> IsDigit(s[i])
  }

  /** Reading a one-decimal rendering back as a number. */
  function ParseFixed1(s: string): real
    requires IsUnsignedFixed1(s) || (|s| > 0 && s[0] == '-' && IsUnsignedFixed1(s[1..]))
  {
    if IsUnsignedFixed1(s) then ParseUnsignedFixed1(s) else -ParseUnsignedFixed1(s[1..])
  }

  function ParseUnsignedFixed1(s: string): real
    requires IsUnsignedFixed1(s)
  {
    ParseNat(s[..|s| - 2]) as real + DigitValue(s[|s| - 1]) as real / 10.0
  }

  /** The value `toFixed(1)` displays, as a number. */
  function Round1(x: real): real {
    if x < 0.0 then -(TenthsOf(-x) as real / 10.0) else TenthsOf(x) as real / 10.0
  }

  /** The rounded value is a whole number of tenths. */
  lemma Round1IsTenths(x: real)
    ensures (Round1(x) * 10.0).Floor as real == Round1(x) * 10.0
  {
    var n: int := if x < 0.0 then -(TenthsOf(-x) as int) else TenthsOf(x);
    assert Round1(x) * 10.0 == n as real;
  }

  /** The rounded value is within a twentieth of the input. */
  lemma Round1Close(x: real)
    ensures x - 1.0 / 20.0 <= Round1(x) <= x + 1.0 / 20.0
  {
  }

  /** `toFixed(1)` renders exactly the rounded value: reading its output back
      gives `Round1(x)`. */
  lemma {:induction false} ToFixed1RoundTrip(x: real)
    ensures IsUnsignedFixed1(ToFixed1(x)) || (ToFixed1(x)[0] == '-' && IsUnsignedFixed1(ToFixed1(x)[1..]))
    ensures ParseFixed1(ToFixed1(x)) == Round1(x)
  {
    var y := if x < 0.0 then -x else x;
    var n := TenthsOf(y);
    var u := UnsignedFixed1(y);
    assert u[..|u| - 2] == NatToString(n / 10);
    ParseNatToString(n / 10);
    assert ParseUnsignedFixed1(u) == (n / 10) as real + (n % 10) as real / 10.0;
    assert ParseUnsignedFixed1(u) == n as real / 10.0;
    if x < 0.0 {
      var s := "-" + u;
      assert s[1..] == u;
      assert !IsUnsignedFixed1(s) by {
        assert 0 < |s| - 2 && !IsDigit(s[0]);
      }
    }
  }
}

=== FILE: trending.dfy ===
/** The command that regenerates the trending list: it drops trending records
    older than a day, scores products by their recent views (weight 2) and
    searches (weight 1), and records the ten best with ranks 1, 2, ...; with
    no analytics at all it ranks the first ten catalogue products instead.
    The two aggregated count queries, the clock and the per-product counters
    are inputs; the random counters are parameters. */
module Trending {
  import opened Wrappers
  import opened Sorting
  import opened ProductViews

  /** One row of an aggregated count query: a product id (which may be null)
      and its count. */
  datatype CountRow = CountRow(product: Option<int>, count: nat)

  /** `if item['product']`: a null id and the id 0 are both skipped. */
  predicate Truthy(p: Option<int>) { p.Some? && p.value != 0 }

  /** The score dictionary: (product id, score) pairs in insertion order. */
  type Scores = seq<(int, int)>

  function Ids(s: Scores): set<int> {
    set i | 0 <= i < |s| :: s[i].0
  }

  predicate DistinctIds(s: Scores) {
    forall i, j :: 0 <= i < j < |s| ==> s[i].0 != s[j].0
  }

  /** `products_score.get(id, 0)`. */
  function Lookup(s: Scores, id: int): int {
    if |s| == 0 then 0 else if s[0].0 == id then s[0].1 else Lookup(s[1..], id)
  }

  /** `products_score[id] = products_score.get(id, 0) + amount`: an existing
      entry is updated in place, a new one goes at the end. */
  function Bump(s: Scores, id: int, amount: int): (r: Scores)
    requires DistinctIds(s)
    ensures DistinctIds(r)
    ensures Lookup(r, id) == Lookup(s, id) + amount
    ensures forall j :: j != id ==> Lookup(r, j) == Lookup(s, j)
    ensures Ids(r) == Ids(s) + {id}
    ensures |r| == if id in Ids(s) then |s| else |s| + 1
    ensures forall i :: 0 <= i < |s| ==> r[i].0 == s[i].0
  {
    if |s| == 0 then [(id, amount)]
    else if s[0].0 == id then
      IdsCons((id, s[0].1 + amount), s[1..]);
      IdsCons(s[0], s[1..]);
      assert s == [s[0]] + s[1..];
      [(id, s[0].1 + amount)] + s[1..]
    else
      var rest := Bump(s[1..], id, amount);
      IdsCons(s[0], s[1..]);
      IdsCons(s[0], rest);
      assert s == [s[0]] + s[1..];
      [s[0]] + rest
  }

  lemma IdsCons(x: (int, int), s: Scores)
    ensures Ids([x] + s) == {x.0} + Ids(s)
  {
    var t := [x] + s;
    assert t[0].0 == x.0;
    forall y | y in Ids(t)
      ensures y in {x.0} + Ids(s)
    {
      var i :| 0 <= i < |t| && t[i].0 == y;
      if i > 0 {
        assert s[i - 1].0 == y;
      }
    }
    forall y | y in Ids(s)
      ensures y in Ids(t)
    {
      var i :| 0 <= i < |s| && s[i].0 == y;
      assert t[i + 1].0 == y;
    }
  }

  /** The scoring loop over one query's rows, each count times `weight`. */
  function Accumulate(s: Scores, rows: seq<CountRow>, weight: int): (r: Scores)
    requires DistinctIds(s)
    ensures DistinctIds(r)
    decreases |rows|
  {
    if |rows| == 0 then s
    else
      var s1 := if Truthy(rows[0].product) then Bump(s, rows[0].product.value, rows[0].count * weight) else s;
      Accumulate(s1, rows[1..], weight)
  }

  /** The weighted count of one product over a query's rows, summed
      independently of the loop. */
  function Weighted(rows: seq<CountRow>, id: int, weight: int): int {
    if |rows| == 0 then 0
    else (if rows[0].product == Some(id) then rows[0].count * weight else 0) + Weighted(rows[1..], id, weight)
  }

  /** The ids the loop keeps: the non-null, non-zero ones that occur. */
  function RowIds(rows: seq<CountRow>): set<int> {
    set i | 0 <= i < |rows| && Truthy(rows[i].product) :: rows[i].product.value
  }

  lemma {:induction false} AccumulateLookup(s: Scores, rows: seq<CountRow>, weight: int, id: int)
    requires DistinctIds(s)
    ensures Lookup(Accumulate(s, rows, weight), id) == Lookup(s, id) + (if id != 0 then Weighted(rows, id, weight) else 0)
    decreases |rows|
  {
    if |rows| > 0 {
      var s1 := if Truthy(rows[0].product) then Bump(s, rows[0].product.value, rows[0].count * weight) else s;
      AccumulateLookup(s1, rows[1..], weight, id);
    }
  }

  lemma {:induction false} AccumulateIds(s: Scores, rows: seq<CountRow>, weight: int)
    requires DistinctIds(s)
    ensures Ids(Accumulate(s, rows, weight)) == Ids(s) + RowIds(rows)
    decreases |rows|
  {
    if |rows| > 0 {
      var s1 := if Truthy(rows[0].product) then Bump(s, rows[0].product.value, rows[0].count * weight) else s;
      AccumulateIds(s1, rows[1..], weight);
      assert RowIds(rows) == (if Truthy(rows[0].product) then {rows[0].product.value} else {}) + RowIds(rows[1..]) by {
        assert forall i :: 1 <= i < |rows| ==> rows[i] == rows[1..][i - 1];
      }
    }
  }

  const ViewWeight: int := 2
  const SearchWeight: int := 1

  /** The score table: views first, then searches. */
  function ScoreTable(views: seq<CountRow>, searches: seq<CountRow>): (r: Scores)
    ensures DistinctIds(r)
  {
    Accumulate(Accumulate([], views, ViewWeight), searches, SearchWeight)
  }

  /** Each product's score is twice its view count plus its search count; the
      table holds exactly the products named by a non-null, non-zero id. */
  lemma ScoreIsWeightedCount(views: seq<CountRow>, searches: seq<CountRow>, id: int)
    requires id != 0
    ensures Lookup(ScoreTable(views, searches), id) == 2 * Weighted(views, id, 1) + Weighted(searches, id, 1)
    ensures id in Ids(ScoreTable(views, searches)) <==> id in RowIds(views) + RowIds(searches)
  {
    AccumulateLookup([], views, ViewWeight, id);
    AccumulateLookup(Accumulate([], views, ViewWeight), searches, SearchWeight, id);
    WeightedScales(views, id, ViewWeight);
    AccumulateIds([], views, ViewWeight);
    AccumulateIds(Accumulate([], views, ViewWeight), searches, SearchWeight);
  }

  lemma {:induction false} WeightedScales(rows: seq<CountRow>, id: int, weight: int)
    ensures Weighted(rows, id, weight) == weight * Weighted(rows, id, 1)
  {
    if |rows| > 0 {
      WeightedScales(rows[1..], id, weight);
    }
  }

  /** One new trending entry: the product and its rank. */
  datatype Entry = Entry(productId: int, rank: nat)

  const Limit: nat := 10

  function First<T>(s: seq<T>, n: nat): (r: seq<T>)
    ensures |r| == if |s| <= n then |s| else n
    ensures forall i :: 0 <= i < |r| ==> r[i] == s[i]
  {
    if |s| <= n then s else s[..n]
  }

  /** `enumerate(items, 1)`: the i-th item gets rank i + 1. */
  function Enumerate(ids: seq<int>): (r: seq<Entry>)
    ensures |r| == |ids|
    ensures forall i :: 0 <= i < |r| ==> r[i] == Entry(ids[i], i + 1)
  {
    seq(|ids|, i requires 0 <= i < |ids| => Entry(ids[i], i + 1))
  }

  function ScoreKey(e: (int, int)): real { e.1 as real }

  function IdsOf(s: Scores): (r: seq<int>)
    ensures |r| == |s| && forall i :: 0 <= i < |s| ==> r[i] == s[i].0
  {
    seq(|s|, i requires 0 <= i < |s| => s[i].0)
  }

  /** The ten best of the table, best first; ties keep insertion order. */
  function Best(table: Scores): (r: Scores)
    ensures |r| == if |table| <= Limit then |table| else Limit
    ensures NonIncreasing(r, ScoreKey)
    ensures multiset(r) <= multiset(table)
  {
    var sorted := SortDesc(table, ScoreKey);
    var r := First(sorted, Limit);
    assert multiset(r) <= multiset(sorted) by {
      if |sorted| > Limit {
        assert sorted == r + sorted[Limit..];
      }
    }
    r
  }

  /** The entries the command records. With no scores, the first ten
      catalogue products in catalogue order; otherwise the ten best-scored
      products. Either way ranks run 1, 2, ... in list order. */
  function Ranking(table: Scores, catalog: seq<int>): (r: seq<Entry>)
    ensures |r| <= Limit
    ensures forall i :: 0 <= i < |r| ==> r[i].rank == i + 1
    ensures |table| == 0 ==> |r| == if |catalog| <= Limit then |catalog| else Limit
    ensures |table| == 0 ==> forall i :: 0 <= i < |r| ==> r[i].productId == catalog[i]
    ensures |table| > 0 ==> |r| == |Best(table)| == if |table| <= Limit then |table| else Limit
    ensures |table| > 0 ==> forall i :: 0 <= i < |r| ==> r[i].productId == Best(table)[i].0
  {
    if |table| == 0 then Enumerate(First(catalog, Limit))
    else Enumerate(IdsOf(Best(table)))
  }

  /** Higher-ranked entries never score less than lower-ranked ones. */
  lemma RanksFollowScores(table: Scores, catalog: seq<int>, i: nat, j: nat)
    requires DistinctIds(table) && |table| > 0 && i < j < |Ranking(table, catalog)|
    ensures Lookup(table, Ranking(table, catalog)[i].productId) >= Lookup(table, Ranking(table, catalog)[j].productId)
    ensures Ranking(table, catalog)[i].rank < Ranking(table, catalog)[j].rank
  {
    var b := Best(table);
    assert b[i] in multiset(b) && b[j] in multiset(b);
    LookupFindsEntry(table, b[i]);
    LookupFindsEntry(table, b[j]);
    assert ScoreKey(b[i]) >= ScoreKey(b[j]);
  }

  /** In a table with distinct ids, an entry's score is what a lookup of its
      id gives. */
  lemma {:induction false} LookupFindsEntry(table: Scores, e: (int, int))
    requires DistinctIds(table) && e in table
    ensures Lookup(table, e.0) == e.1
  {
    if table[0] != e {
      assert e in table[1..];
      LookupFindsEntry(table[1..], e);
    }
  }

  /** A product left out of the ten scores no more than any that is in. */
  lemma CutKeepsTheBest(table: Scores, e: (int, int), kept: (int, int))
    requires e in table && kept in Best(table)
    requires multiset(Best(table))[e] < multiset(table)[e]
    ensures e.1 <= kept.1
  {
    var sorted := SortDesc(table, ScoreKey);
    var r := First(sorted, Limit);
    assert |sorted| > Limit;
    assert sorted == r + sorted[Limit..];
    assert multiset(sorted) == multiset(r) + multiset(sorted[Limit..]);
    assert e in sorted[Limit..];
    var k :| 0 <= k < |sorted[Limit..]| && sorted[Limit..][k] == e;
    var n :| 0 <= n < |r| && r[n] == kept;
    assert sorted[n] == kept && sorted[Limit + k] == e;
    assert ScoreKey(sorted[n]) >= ScoreKey(sorted[Limit + k]);
  }

  const OneDay: int := 86400

  /** The records kept by the clean-up: those written within the last day. */
  function Prune(rows: seq<TrendingRow>, now: int): (r: seq<TrendingRow>)
    ensures forall t :: t in r <==> t in rows && t.timestamp >= now - OneDay
    ensures |r| <= |rows|
  {
    if |rows| == 0 then []
    else
      assert rows == [rows[0]] + rows[1..];
      (if rows[0].timestamp >= now - OneDay then [rows[0]] else []) + Prune(rows[1..], now)
  }

  /** The records written for the entries: one per entry, in entry order,
      stamped `now`, with the counters given for that product and rank. */
  function NewRows(entries: seq<Entry>, now: int, counters: (int, nat) -> (int, int, int)): (r: seq<TrendingRow>)
    ensures |r| == |entries|
    ensures forall i :: 0 <= i < |r| ==>
      r[i].productId == entries[i].productId && r[i].rank == entries[i].rank && r[i].timestamp == now
  {
    seq(|entries|, i requires 0 <= i < |entries| =>
      var c := counters(entries[i].productId, entries[i].rank);
      TrendingRow(entries[i].productId, entries[i].rank, now, c.0, c.1, c.2))
  }

  /** handle: the pruned store followed by one new record per entry, written
      now, with the product's seven-day view and search counts (or the
      random stand-ins when there was no analytics data). */
  function Handle(store: seq<TrendingRow>, now: int, views: seq<CountRow>, searches: seq<CountRow>,
                  catalog: seq<int>, counters: (int, nat) -> (int, int, int)): (r: seq<TrendingRow>)
    ensures |r| == |Prune(store, now)| + |Ranking(ScoreTable(views, searches), catalog)|
    ensures forall t :: t in store && t.timestamp >= now - OneDay ==> t in r
    ensures forall t :: t in r && t.timestamp != now ==> t in store && t.timestamp >= now - OneDay
    ensures var entries := Ranking(ScoreTable(views, searches), catalog);
      && |entries| <= |r|
      && forall i :: 0 <= i < |entries| ==>
        var t := r[|r| - |entries| + i];
        t.productId == entries[i].productId && t.rank == entries[i].rank && t.timestamp == now
  {
    var entries := Ranking(ScoreTable(views, searches), catalog);
    var added := NewRows(entries, now, counters);
    assert forall t :: t in added ==> t.timestamp == now;
    var pruned := Prune(store, now);
    var r := pruned + added;
    assert |r| == |pruned| + |entries|;
    assert forall i :: 0 <= i < |entries| ==> r[|pruned| + i] == added[i];
    r
  }

  /** Right after the command runs, the trending endpoint lists the new
      records best first, provided no other record of the last hour remains. */
  lemma FreshRankingIsServed(store: seq<TrendingRow>, now: int, views: seq<CountRow>, searches: seq<CountRow>,
                             catalog: seq<int>, counters: (int, nat) -> (int, int, int))
    requires forall t :: t in store ==> t.timestamp < now - OneHour
    ensures var entries := Ranking(ScoreTable(views, searches), catalog);
      var served := TrendingNow(Handle(store, now, views, searches, catalog, counters), now);
      |served| == |entries| && forall i :: 0 <= i < |served| ==> served[i].productId == entries[i].productId
  {
    var entries := Ranking(ScoreTable(views, searches), catalog);
    var pruned := Prune(store, now);
    var added := NewRows(entries, now, counters);
    HandleAppendsNewRows(store, now, views, searches, catalog, counters);
    FreshRowsAreServed(pruned, added, now);
  }

  /** A run stores the pruned records followed by the new ones. */
  lemma HandleAppendsNewRows(store: seq<TrendingRow>, now: int, views: seq<CountRow>, searches: seq<CountRow>,
                             catalog: seq<int>, counters: (int, nat) -> (int, int, int))
    ensures Handle(store, now, views, searches, catalog, counters) ==
      Prune(store, now) + NewRows(Ranking(ScoreTable(views, searches), catalog), now, counters)
  {
  }

  /** When every earlier record is older than an hour, the endpoint serves
      exactly the new records, which are already in rank order. */
  lemma FreshRowsAreServed(earlier: seq<TrendingRow>, added: seq<TrendingRow>, now: int)
    requires forall t :: t in earlier ==> t.timestamp < now - OneHour
    requires forall t :: t in added ==> t.timestamp == now
    requires |added| <= TrendingLimit
    requires forall i :: 0 <= i < |added| ==> added[i].rank == i + 1
    ensures TrendingNow(earlier + added, now) == added
  {
    RecentOfFresh(earlier, added, now);
    assert forall i, j :: 0 <= i < j < |added| ==> RankKey(added[i]) >= RankKey(added[j]);
    SortDescOfSorted(added, RankKey);
    assert FirstTen(added) == added;
  }

  /** Old records drop out of the last hour; new ones stay. */
  lemma {:induction false} RecentOfFresh(earlier: seq<TrendingRow>, added: seq<TrendingRow>, now: int)
    requires forall t :: t in earlier ==> t.timestamp < now - OneHour
    requires forall t :: t in added ==> t.timestamp == now
    ensures Recent(earlier + added, now) == added
  {
    if |earlier| > 0 {
      assert (earlier + added)[1..] == earlier[1..] + added;
      assert earlier[0] in earlier;
      RecentOfFresh(earlier[1..], added, now);
    } else {
      assert earlier + added == added;
      RecentKeepsAll(added, now);
    }
  }

  lemma {:induction false} RecentKeepsAll(rows: seq<TrendingRow>, now: int)
    requires forall t :: t in rows ==> t.timestamp == now
    ensures Recent(rows, now) == rows
  {
    if |rows| > 0 {
      assert rows[0] in rows;
      RecentKeepsAll(rows[1..], now);
    }
  }
}

=== FILE: wrappers.dfy ===
/** Optional values and success/failure results shared by every module of the model. */
module Wrappers {

  /** A value that may be missing: JavaScript's null/undefined, Python's None. */
  datatype Option<+T> = None | Some(value: T) {

    /** The wrapped value, or `default` when there is none. */
    function GetOr(default: T): T {
      match this
      case Some(v) => v
      case None => default
    }
  }

  /** The outcome of an operation that can fail with an error of type `E`. */
  datatype Result<+R, +E> = Success(value: R) | Failure(error: E)
}
